=== FILE: README.md ===
# Valdi: the meeting and recording pipeline, modelled in Dafny

Valdi is a marketplace where companies run outbound sales campaigns and SDRs
(sales development representatives) book meetings for them. SDRs apply to
campaigns and make calls. A company pays for a meeting only once the meeting
is qualified against the campaign's criteria, and it may reject or dispute
the meeting.

This project models the core of that pipeline, together with the pure
decision logic behind it:

- **Recordings come in.** An SDR uploads a recording, or a dialer provider's
  webhook delivers one. The recording is stored and becomes a
  `call_recordings` row. The webhook may also create a lead and an outreach
  attempt.
- **Recordings are scored.** The qualification engine scores a transcript
  against the campaign's criteria. The company-criteria engine matches a lead
  against firmographic criteria.
- **Meetings are decided and disputed.** Companies approve or reject meetings,
  admins work through the review queue, and disputes force a meeting to
  `disputed`.
- **Recordings expire.** A retention job removes the stored objects and
  redacts the rows.
- **The pages around them** are modelled too. These are the lead import (the
  page and its API route), the campaign lists seen by the company and by the
  SDR, the dialer integration settings, the middleware's route guard, the
  language switcher, the Deepgram client configuration and the qualification
  checklist.

How the model is built:

- **The database** is a value of type `Store.Tables`, with one sequence per
  table and a set of stored object paths for the bucket. Every change the
  code makes is a `Store.Write`, and `Store.Apply`/`ApplyAll` say what each
  write does.
- **An API route** is modelled twice:
  - a pure function `Handle…(tables, request, environment)` returns the
    reply and the writes the route makes, in order;
  - a `Post` method performs the same writes on a `Store.Database` object,
    one at a time, and its postcondition ties the reply and the new state to
    that function.
- **The environment** holds what the route learns from outside the tables:
  whether each storage or database request succeeds, the ids the database
  generates, the clock, and the body of a downloaded file.
- **Pages that keep state** (`MeetingsPage.MeetingsView`,
  `AdminReviews.ReviewQueue`) are classes whose methods update their fields
  and perform writes on the database. What a page shows is modelled by
  functions over the loaded rows.
- **JSON values** the code inspects dynamically are `Common.Json`. A
  `JSON.parse` call is a parameter of type `JsonParser` that returns `None`
  where the parse throws.

## Model

| member | source | states |
|---|---|---|
| CallsUpload.Extension | app/api/calls/upload/route.ts:48-49 | the extension after the last dot never holds a dot |
| CallsUpload.ObjectPathSegments | app/api/calls/upload/route.ts:48-50 | with ids and an extension free of '/', the object path splits into the bucket folder, the SDR id, the campaign id and the timestamp followed by the extension |
| CallsUpload.NewRecording | app/api/calls/upload/route.ts:68-79 | the row inserted for an upload: the meeting, SDR and campaign from the form, the object path, the original name, size and type, status `pending` (its properties: `CreatedEffect`) |
| CallsUpload.ExtensionIsSuffix | app/api/calls/upload/route.ts:48-49 | the extension is a suffix of the name, preceded by a dot when shorter than the name, and is the whole name when there is no dot |
| CallsUpload.Validate | app/api/calls/upload/route.ts:11-45 | the guards in order: no session is 401; an unreadable form is 500; a missing file, campaign id or SDR id is 400 (missing fields); then a type outside the four allowed is 400 (invalid type); then any size above 104857600 bytes is 400 (too large); the request passes exactly when none of these applies |
| CallsUpload.HandleUpload | app/api/calls/upload/route.ts:8-101 | a guard rejection is answered with that guard's reply and no write; past the guards the reply is 500 (upload failed) with no write and no row exactly when the bucket refuses the object, a failed row insert exactly when the upload succeeds and the insert fails, and created exactly when both succeed; writes happen only for created or a failed insert and begin with a fresh upload |
| CallsUpload.Post | app/api/calls/upload/route.ts:8-101 | the reply and the new database state are those of the handler specification `HandleUpload` |
| CallsUpload.GuardsPrecedeWrites | app/api/calls/upload/route.ts:11-65 | every guard rejection and a failed upload write nothing |
| CallsUpload.SessionFirst | app/api/calls/upload/route.ts:11-14 | without a session the reply is 401 and nothing is written, whatever the form holds |
| CallsUpload.SizeLimitIsInclusive | app/api/calls/upload/route.ts:39-45 | a file of exactly 104857600 bytes passes; one byte more is refused as too large |
| CallsUpload.NoOrphanAfterRecordFailure | app/api/calls/upload/route.ts:68-91 | when the row insert fails and the removal succeeds, the tables and the bucket are as before |
| CallsUpload.CreatedEffect | app/api/calls/upload/route.ts:48-93 | a created recording adds one new object and one row, and the row carries the object path, the original name, size and type, the meeting, the SDR, the campaign and status `pending` |
| DialerWebhook.TimingSafeEqual | app/api/webhooks/dialer/route.ts:60-63 | the comparison accepts exactly equal strings and throws exactly when the UTF-8 byte lengths differ |
| DialerWebhook.ExpectedSignature | app/api/webhooks/dialer/route.ts:55-78 | the expected signature: the hex HMAC-SHA256 of the body for aircall, the base64 HMAC-SHA1 for twilio, and the secret itself for every other provider (its use: `VerifySignature`) |
| DialerWebhook.VerifySignature | app/api/webhooks/dialer/route.ts:47-80 | the signature is accepted exactly when one is given and it equals the provider's expected signature; it throws exactly for aircall or twilio when the byte lengths differ |
| DialerWebhook.DownloadHeaders | app/api/webhooks/dialer/route.ts:91-100 | the User-Agent is always `Valdi/1.0`; a Bearer Authorization is sent exactly for aircall and ringcentral with a truthy token; no other header is sent |
| DialerWebhook.RecordingObjectPath | app/api/webhooks/dialer/route.ts:126-127 | the path `call-recordings/<sdr>/<campaign>/<call id>-<now>.mp3` (its segments: `RecordingObjectPathSegments`) |
| DialerWebhook.RecordingObjectPathSegments | app/api/webhooks/dialer/route.ts:126-127 | the object path splits on '/' into exactly the folder, the SDR, the campaign and the file name (when the ids hold no '/') |
| DialerWebhook.AccountKey | app/api/webhooks/dialer/route.ts:211 | the provider account is the call's user id when truthy, else its phone number when truthy, and is empty exactly when neither is |
| DialerWebhook.IntegrationFor | app/api/webhooks/dialer/route.ts:207-213 | an integration is found exactly when one row matches; it is a row of the table with the payload's provider and account, and it is active |
| DialerWebhook.Single | app/api/webhooks/dialer/route.ts:207-214 | `.single()` yields a row exactly when one row matches |
| DialerWebhook.ApprovedCampaign | app/api/webhooks/dialer/route.ts:250-264 | a campaign found is the campaign of an approved application of that SDR and the company id returned is that campaign's company; nothing is found exactly when no approved application of the SDR names a known campaign |
| DialerWebhook.LeadSearchKey | app/api/webhooks/dialer/route.ts:158-167 | a lead is searched by the contact phone when truthy, else by the contact email when truthy, and not at all when neither is |
| DialerWebhook.ExistingLead | app/api/webhooks/dialer/route.ts:158-172 | a lead is found exactly when a search key exists and exactly one lead of the campaign has that value; the lead found is in the table, of the campaign, and has that value |
| DialerWebhook.NewLeadColumns | app/api/webhooks/dialer/route.ts:176-186 | the columns of a created lead (their properties: `CreatedLeadColumns` and `CreatedLeadName`) |
| DialerWebhook.FindOrCreateLead | app/api/webhooks/dialer/route.ts:152-196 | finding or creating a lead makes at most one write (what it finds and creates: `LeadReused`, `CreatedLeadColumns`, `CreatedLeadName`) |
| DialerWebhook.ImportedRecording | app/api/webhooks/dialer/route.ts:302-316 | the recording row of an imported call (its properties: `ImportAddsOneRecording`) |
| DialerWebhook.CallAttempt | app/api/webhooks/dialer/route.ts:328-341 | the outreach attempt is a `call` for the lead and the recording; it is `connected` exactly when the duration is positive and `no_answer` otherwise (its place in the writes: `OutreachNeedsLead`) |
| DialerWebhook.Admit | app/api/webhooks/dialer/route.ts:201-296 | a refusal is never a failed recording insert or an import, and an admitted request's object path is not yet in the bucket; which refusal is given when is stated by `UnparsedBodyIsServerError`, `NotFoundIffNoSingleIntegration` and `RefusalLadder` |
| DialerWebhook.HandleWebhook | app/api/webhooks/dialer/route.ts:201-361 | the handler writes something exactly when it imports or reports a failed recording insert, and then starts with the upload of an object that was not yet in the bucket |
| DialerWebhook.Ingest | app/api/webhooks/dialer/route.ts:284-361 | an admitted request always first uploads the recording to its path; it ends imported exactly when the recording row is inserted and as a failed recording insert otherwise |
| DialerWebhook.AttemptWrites | app/api/webhooks/dialer/route.ts:328-341 | at most one outreach attempt is written (its content: `OutreachNeedsLead`) |
| DialerWebhook.Post | app/api/webhooks/dialer/route.ts:201-361 | the reply and the new database state are those of the handler specification `HandleWebhook` |
| DialerWebhook.RunIngest | app/api/webhooks/dialer/route.ts:284-361 | once a request is admitted, the writes are made in the order `Ingest` lists them, and its reply is returned |
| DialerWebhook.EarlyRepliesWriteNothing | app/api/webhooks/dialer/route.ts:204-296 | every reply other than a failed recording insert or a successful import comes before any write |
| DialerWebhook.NotFoundIffNoSingleIntegration | app/api/webhooks/dialer/route.ts:207-221 | the reply is 404 exactly when the number of active integrations matching the provider and account is not one |
| DialerWebhook.SignatureGate | app/api/webhooks/dialer/route.ts:224-239 | past the gate, when the integration has a secret, the signature sent equals the expected one |
| DialerWebhook.RefusalLadder | app/api/webhooks/dialer/route.ts:223-296 | once the payload parses and its integration is found: 500 exactly when the signature check throws; 401 exactly when it rejects; otherwise 200 (skipped) exactly when the event is not a call.ended with a recording URL; then 400 exactly when the SDR has no approved campaign; then 500 exactly when the download fails; then 500 exactly when the upload fails; admitted exactly when every guard passes |
| DialerWebhook.UnparsedBodyIsServerError | app/api/webhooks/dialer/route.ts:202-204 | a body that does not parse is answered with 500 and nothing is written |
| DialerWebhook.WrongLengthSignatureIsServerError | app/api/webhooks/dialer/route.ts:56-74 | for aircall or twilio with a secret, a signature whose UTF-8 length differs from the expected one makes timingSafeEqual throw: the reply is 500, not 401, and nothing is written |
| DialerWebhook.StoredEffect | app/api/webhooks/dialer/route.ts:284-299 | after the upload and the lead step, the bucket holds the new object, and at most the created lead is new |
| DialerWebhook.OrphanObjectOnRecordFailure | app/api/webhooks/dialer/route.ts:319-325 | a failed recording insert leaves a new object in the bucket with no row pointing at it |
| DialerWebhook.ImportEffect | app/api/webhooks/dialer/route.ts:284-353 | after a successful import the bucket gains the new object, the recordings table one row, the leads table the created lead if any, the outreach attempts the new attempt if any, and the integration's last_sync_at is set to now when the touch succeeds; every other table is unchanged |
| DialerWebhook.IngestEffect | app/api/webhooks/dialer/route.ts:284-353 | after the writes of an admitted request with a recording id, the bucket, the recordings, the leads and the outreach attempts are the old ones plus exactly the new object and rows, the integration carries the new last_sync_at when the touch succeeds, and every other table is unchanged |
| DialerWebhook.ImportAddsOneRecording | app/api/webhooks/dialer/route.ts:302-316 | an import appends exactly one row, which points at the new object, has the call id as file name and dialer id, status `pending`, type audio/mpeg, and a duration exactly when the call had a non-zero one |
| DialerWebhook.RecordingsNeverConsulted | app/api/webhooks/dialer/route.ts:201-361 | the reply and writes do not depend on the call_recordings table, so a redelivered call is imported again |
| DialerWebhook.ImportAddsDuplicateRows | app/api/webhooks/dialer/route.ts:302-316 | every import adds one more row with the call's dialer id, however many such rows exist |
| DialerWebhook.OutreachNeedsLead | app/api/webhooks/dialer/route.ts:328-341 | an outreach attempt is added exactly when a lead is known and its insert succeeds; it is a `call` for that lead and recording, and `connected` exactly when the duration is positive |
| DialerWebhook.LeadReused | app/api/webhooks/dialer/route.ts:158-173 | when exactly one lead of the campaign matches the phone (or else the email), its id is used and nothing is written |
| DialerWebhook.CreatedLeadColumns | app/api/webhooks/dialer/route.ts:176-186 | a created lead is `contacted`, belongs to the campaign and company, and has the contact phone (else the dialled number) as phone when either is truthy |
| DialerWebhook.CreatedLeadName | app/api/webhooks/dialer/route.ts:181-182 | the first and last name of a created lead, joined by a space, give back the contact name |
| Disputes.HandleDispute | app/api/disputes/create/route.ts:6-60 | no session is 401; a body that is not JSON is 500; a body that fails the schema is 400; a failed insert is 500; each of these writes nothing and leaves the meeting as it was; the reply is 201 exactly when there is a session, the body validates and the insert succeeds |
| Disputes.Post | app/api/disputes/create/route.ts:6-60 | the reply and the new state are those of `HandleDispute` |
| Disputes.FailuresWriteNothing | app/api/disputes/create/route.ts:11-38 | every reply but 201 comes with no write |
| Disputes.CreatedDisputeRow | app/api/disputes/create/route.ts:20-30 | the dispute is `open`, raised by the session user, and copies the validated meeting id (a UUID), type and reason |
| Disputes.MeetingForcedToDisputed | app/api/disputes/create/route.ts:40-44 | after a successful update, the named meeting is `disputed` whatever its status was, and no other meeting changes |
| Disputes.UpdateFailureIgnored | app/api/disputes/create/route.ts:40-46 | a failed meeting update still replies 201, and only the dispute is new |
| GdprCleanup.Selection | lib/gdpr-cleanup.ts:30-35 | a row is selected exactly when its deadline is set and not after now, and it has a storage path |
| GdprCleanup.Expired | lib/gdpr-cleanup.ts:30-35 | a row is due for cleanup when its deadline is set and not after now and it still has a stored object |
| GdprCleanup.Cleanup | lib/gdpr-cleanup.ts:21-89 | the run never reports more deletions than rows selected, and reports some exactly when it removes objects from the bucket |
| GdprCleanup.PathSet | lib/gdpr-cleanup.ts:47-49 | the set of paths handed to the bucket is exactly the set of storage paths of the selected rows |
| GdprCleanup.CleanupExpiredRecordings | lib/gdpr-cleanup.ts:21-89 | the counters and the new state are those of the specification `Cleanup` |
| GdprCleanup.NothingToDo | lib/gdpr-cleanup.ts:37-44 | a failed select reports 0 deleted and 1 error, and an empty selection reports 0 and 0; neither writes |
| GdprCleanup.Counters | lib/gdpr-cleanup.ts:51-80 | deleted plus errors is the selection size, or twice that when the redaction fails; everything counts as deleted exactly when the removal succeeds |
| GdprCleanup.RedactsDespiteRemovalFailure | lib/gdpr-cleanup.ts:56-80 | when the removal fails but the update succeeds, the bucket is unchanged while the expired rows lose their path |
| GdprCleanup.SuccessfulRunStorage | lib/gdpr-cleanup.ts:46-62 | a successful run removes exactly the selected paths from the bucket |
| GdprCleanup.SelectedIds | lib/gdpr-cleanup.ts:72-75 | with unique ids, a row's id is among the selected ids exactly when the row is expired |
| GdprCleanup.RedactionWrites | lib/gdpr-cleanup.ts:65-75 | a successful redaction of a non-empty selection rewrites the rows whose ids were selected |
| GdprCleanup.RedactionEffect | lib/gdpr-cleanup.ts:64-80 | with unique ids, expired rows lose their path, file name and transcription and keep every other column; other rows are untouched |
| GdprCleanup.SecondRunSelectsNothing | lib/gdpr-cleanup.ts:30-75 | after a successful redaction, a second run at the same time selects nothing |
| GdprCleanup.RecordingExpirationStats | lib/gdpr-cleanup.ts:94-132 | when the total query succeeds, neither the expired count nor the expiring-soon count exceeds the total |
| GdprCleanup.ExpiringSoon | lib/gdpr-cleanup.ts:108-114 | a stored recording expires soon when its deadline lies between now and a week from now, both ends included |
| GdprCleanup.ExpiredIsCleanupSelection | lib/gdpr-cleanup.ts:116-121 | the expired count is the size of the selection a cleanup run at the same time makes |
| GdprCleanup.DeadlineNowCountsTwice | lib/gdpr-cleanup.ts:108-121 | a deadline equal to now counts as both expired and expiring soon |
| GdprCleanup.CronGet | app/api/cron/gdpr-cleanup/route.ts:17-46 | the reply is 401 exactly when a secret is set and the header is not `Bearer <secret>`; a success reports the cleanup's own counters |
| GdprCleanup.CronRun | app/api/cron/gdpr-cleanup/route.ts:17-46 | an unauthorised request changes nothing; an authorised one makes the cleanup's writes |
| GdprCleanup.CronGuard | app/api/cron/gdpr-cleanup/route.ts:19-24 | with no secret, or an empty one, every request runs; with a secret, a wrong or missing header never does |
| GdprCleanup.CronAuthorized | app/api/cron/gdpr-cleanup/route.ts:19-24 | a request is let through when no secret is configured, or its authorization header is exactly "Bearer " followed by the secret |
| CompanyCriteria.MatchRange | lib/company-criteria.ts:44-56 | the three range steps (a minimum sets the verdict, a maximum may revoke it, `equals` overrides both) give exactly `RangeHolds` |
| CompanyCriteria.RangeHolds | lib/company-criteria.ts:47-56 | a value meets a range when it equals the exact value if one is given, and otherwise when a minimum is given, the value reaches it and does not pass a maximum if one is given |
| CompanyCriteria.SomeIncluded | lib/company-criteria.ts:86-89 | true exactly when, ignoring case, the lead's industry contains one of the names |
| CompanyCriteria.MatchIndustry | lib/company-criteria.ts:82-96 | a list matches when some name is contained in the lead's industry, a single name when it is contained, both ignoring case |
| CompanyCriteria.Tally | lib/company-criteria.ts:45-59 | a checked criterion appends its entry and keeps the total and the matched count equal to the entries' length and met count |
| CompanyCriteria.CheckRevenue | lib/company-criteria.ts:43-60 | the revenue entry is appended exactly when both sides give a revenue, and the counters stay equal to the entries' length and met count |
| CompanyCriteria.CheckEmployees | lib/company-criteria.ts:62-79 | the employees entry is appended exactly when both sides give a head count, with the counters kept in step |
| CompanyCriteria.CheckIndustry | lib/company-criteria.ts:81-96 | the industry entry is appended exactly when the campaign names an industry and the lead's is non-empty, with the counters kept in step |
| CompanyCriteria.CheckCriteria | lib/company-criteria.ts:39-96 | the loop of three checks produces exactly the expected entries in order, with their counters |
| CompanyCriteria.ExpectedMatches | lib/company-criteria.ts:43-96 | the matched_criteria entries in the order revenue, employees, industry, each present exactly when that criterion is counted |
| CompanyCriteria.Percent | lib/company-criteria.ts:99-103 | no counted criterion gives 0; otherwise the rounded percentage of matched criteria, which lies in 0..100 |
| CompanyCriteria.EvaluateCompanyCriteria | lib/company-criteria.ts:31-106 | the result carries the expected entries, the rounded percentage of matched entries, and `all_met` exactly when at least one entry was checked and all matched |
| CompanyCriteria.MetCount | lib/company-criteria.ts:59 | no more entries are met than were checked |
| CompanyCriteria.ParseCompanyCriteria | lib/company-criteria.ts:112-131 | a falsy value gives null, an object is returned as is, arrays, numbers and booleans give null, and a non-empty string gives its parse, or null when the parse throws |
| CompanyCriteria.CountedCriteriaGetKeys | lib/company-criteria.ts:44-82 | a criterion gets a key exactly when both the campaign and the lead give a value for it, so there are at most three keys |
| CompanyCriteria.MaxOnlyNeverMatches | lib/company-criteria.ts:46-53 | a range with only a maximum never matches |
| CompanyCriteria.MinMaxIsClosedInterval | lib/company-criteria.ts:48-53 | with a minimum and no `equals`, the range is the closed interval from the minimum to the maximum |
| CompanyCriteria.EqualsOverrides | lib/company-criteria.ts:54-56 | with `equals`, exactly the equal value matches, even outside the bounds |
| CompanyCriteria.IndustryIgnoresCase | lib/company-criteria.ts:91 | lower-casing either side does not change the industry verdict |
| CompanyCriteria.MetCountAll | lib/company-criteria.ts:104 | the met count equals the number of entries exactly when every entry matched |
| CompanyCriteria.AllMetMeansEveryCheckedCriterion | lib/company-criteria.ts:104 | `all_met` holds exactly when at least one criterion was checked and all of them matched |
| CompanyCriteria.PercentIsNearest | lib/company-criteria.ts:99-103 | the score is in 0..100 and is the integer nearest to 100 times matched over total, halves rounded up |
| CompanyCriteria.ScoreValues | lib/company-criteria.ts:99-103 | with at most three criteria the score is one of 0, 33, 50, 67 and 100 |
| CompanyCriteria.ExtraKeysIgnored | lib/company-criteria.ts:17-19 | keys other than revenue, employees and industry never change the evaluation |
| CompanyCriteria.StringifiedArrayPassesThrough | lib/company-criteria.ts:116-127 | a string holding a JSON array comes back as that array, while the array itself gives null |
| Qualification.NonBlankStrings | lib/qualification.ts:50 | no kept criterion is blank |
| Qualification.NonBlankStringsMembers | lib/qualification.ts:50 | a text is a criterion exactly when it is a string entry of the array and is not blank |
| Qualification.ParseMeetingCriteria | lib/qualification.ts:48-61 | no criterion is blank; an array gives its non-blank strings; a string that parses to an array gives that array's non-blank strings; a string that parses to anything else gives none; an unparseable string is the one criterion unless blank; any other stored value gives none |
| Qualification.UnparseableTextIsOneCriterion | lib/qualification.ts:56-57 | a non-blank string that is not JSON becomes the single criterion, untrimmed |
| Qualification.TextAndArrayAgree | lib/qualification.ts:49-55 | a stored array and the same array as JSON text give the same criteria |
| Qualification.ZeroOverrideIsKept | lib/qualification.ts:80 | an override of 0 is kept, and with neither value the threshold is 70 |
| Qualification.ResolveThreshold | lib/qualification.ts:80 | the override when given (even 0), else the campaign's threshold when given, else 70 |
| Qualification.ScoreKey | lib/qualification.ts:123 | the key under which the model is asked to score the criterion at a position |
| Qualification.ScoreKeyInjective | lib/qualification.ts:123 | different criterion positions get different score keys |
| Qualification.Clamp | lib/qualification.ts:125 | the normalised score lies in 0..100: a score in range is kept, a negative one becomes 0 and one above 100 becomes 100 |
| Qualification.ScoreAt | lib/qualification.ts:123-125 | every criterion score lies in 0..100 |
| Qualification.ZeroScoreFallsThrough | lib/qualification.ts:124 | a zero under the criterion key counts as no answer, and the criteria_scores entry is used |
| Qualification.Total | lib/qualification.ts:128 | the total lies between 0 and 100 times the number of criteria |
| Qualification.MathRound | lib/qualification.ts:142 | the integer nearest the value, a half rounded up |
| Qualification.RoundedMean | lib/qualification.ts:139-142 | Math.round of total / n on integers (its properties: `RoundedMeanIsNearest`, `OverallIsRoundedMean` and `RoundedMeanInRange`) |
| Qualification.Assess | lib/qualification.ts:139-153 | the reported score of a non-empty criteria list: the rounded mean, the score table, qualification by the unrounded mean against the threshold, and the met and unmet lists |
| Qualification.ScoreCriteria | lib/qualification.ts:116-153 | the loop over the criteria yields exactly the specification `Assess` |
| Qualification.AnalyzeQualification | lib/qualification.ts:66-160 | null exactly for an empty criteria list or an unreadable answer; otherwise the `Assess` result under the resolved threshold |
| Qualification.RoundedMeanIsNearest | lib/qualification.ts:142 | the overall score is the integer r with r - 1/2 <= total/n < r + 1/2 |
| Qualification.MeanReachesIff | lib/qualification.ts:144 | the mean reaches the threshold exactly when total >= threshold * n |
| Qualification.OverallIsRoundedMean | lib/qualification.ts:139-142 | the overall score is the mean of the criterion scores, rounded half up |
| Qualification.RoundedMeanInRange | lib/qualification.ts:139-142 | a mean of scores in 0..100 rounds to a value in 0..100 |
| Qualification.OverallInRange | lib/qualification.ts:142 | the overall score lies in 0..100 |
| Qualification.QualifiedIffTotalReachesThreshold | lib/qualification.ts:144 | `is_qualified` holds exactly when the total reaches threshold times the number of criteria |
| Qualification.RoundedScoreCanMislead | lib/qualification.ts:142-150 | scores 70 and 69 show an overall 70 against threshold 70, yet the call is not qualified and not ready |
| Qualification.ThreeScoreExample | lib/qualification.ts:121-153 | scores 90, 40 and 100 show 77, qualify, and list two criteria as met and one as unmet |
| Qualification.MetUnmetPartition | lib/qualification.ts:131-135 | the met and unmet lists together are a permutation of the criteria |
| Qualification.Met | lib/qualification.ts:130-132 | the criteria scored at least 70, in list order (its properties: `MetUnmetPartition`, `MetMeansScored`) |
| Qualification.Unmet | lib/qualification.ts:133-135 | the criteria scored below 70, in list order (its properties: `MetUnmetPartition`, `UnmetMeansScoredLow`) |
| Qualification.MetUnmetCount | lib/qualification.ts:131-135 | the two lists together are as long as the criteria list |
| Qualification.MetMeansScored | lib/qualification.ts:131-132 | a criterion is met exactly when one of its occurrences scored at least 70 |
| Qualification.UnmetMeansScoredLow | lib/qualification.ts:133-134 | a criterion is unmet exactly when one of its occurrences scored below 70 |
| Qualification.ScoreTableKeys | lib/qualification.ts:127 | criteria_scores has exactly one key per criterion text |
| Qualification.ScoreTable | lib/qualification.ts:127 | criteria_scores assigned in list order (its properties: `ScoreTableKeys`, `ScoreTableKeepsLast`) |
| Qualification.ScoreTableKeepsLast | lib/qualification.ts:127 | a repeated criterion keeps the score of its last occurrence |
| Qualification.PromptRequestsScoredKey | lib/qualification.ts:210-212 | for every criterion and whatever the fixed wording (the source's is `SourceWording`), the prompt's JSON template holds its key line |
| Qualification.KeyLineNamesScoreKey | lib/qualification.ts:212 | the key line of a criterion names the key the scorer reads first for it |
| Qualification.QualificationPrompt | lib/qualification.ts:187-231 | the prompt: its fixed wording around the ICP, the numbered criteria, the transcript, one JSON key line per criterion and one scoring instruction per criterion |
| Checklist.Render | components/shared/QualificationChecklist.tsx:25-97 | one item per criterion, shown checked exactly when the checklist entry at its index is true; the counter reads the number of true entries over the number of criteria; a summary line exactly when there are criteria, saying "all met" exactly when the checklist is non-empty and every entry is true |
| Checklist.Toggle | components/shared/QualificationChecklist.tsx:20-23 | a click calls the handler exactly when the list is editable and a handler is given, with the index and the negation of the shown state |
| Checklist.CheckedCount | components/shared/QualificationChecklist.tsx:26 | the number of entries that are true |
| Checklist.AllChecked | components/shared/QualificationChecklist.tsx:25 | the checklist is non-empty and every entry is true |
| Checklist.IsChecked | components/shared/QualificationChecklist.tsx:44 | the entry at an index is true; an index past the end reads unchecked |
| Checklist.AllCheckedIffCountIsLength | components/shared/QualificationChecklist.tsx:25-26 | everything is checked exactly when the list is non-empty and the checked count equals its length |
| Checklist.CounterCanExceedCriteria | components/shared/QualificationChecklist.tsx:26-34 | two true entries against one criterion read "2 / 1 met" |
| Checklist.SummaryFollowsChecklistOnly | components/shared/QualificationChecklist.tsx:25-94 | a checklist `[true]` against two criteria says all are met while the second item shows unchecked |
| Checklist.NoCriteriaNoItems | components/shared/QualificationChecklist.tsx:39-79 | without criteria nothing is listed and there is no summary |
| Checklist.ToggleFlipsShownState | components/shared/QualificationChecklist.tsx:20-44 | the value a click sends is the opposite of what the item shows |
| LeadsPage.Preview | app/company/leads/upload/page.tsx:94-100 | a preview exists exactly when there is a non-blank line (otherwise `lines[0]` throws); its headers are the first line's cells and its rows are the next lines, at most five |
| LeadsPage.PreviewOf | app/company/leads/upload/page.tsx:94-100 | a preview is shown exactly when the file has a non-blank line |
| LeadsPage.AutoMap | app/company/leads/upload/page.tsx:103-122 | the loop over the headers builds exactly the mapping `AutoMapOf` |
| LeadsPage.FieldFor | app/company/leads/upload/page.tsx:105-120 | the field of the first rule whose words occur in the lower-cased header, or none |
| LeadsPage.AutoMapOf | app/company/leads/upload/page.tsx:103-121 | the mapping after the headers so far, each suggesting header setting its field so that a later one overwrites an earlier one |
| LeadsPage.MappedIffSuggested | app/company/leads/upload/page.tsx:104-121 | a field is mapped exactly when some header suggests it |
| LeadsPage.LastHeaderWins | app/company/leads/upload/page.tsx:104-121 | when several headers suggest a field, the last of them is mapped |
| LeadsPage.MappedHeadersSuggestTheirField | app/company/leads/upload/page.tsx:104-121 | every mapped value is one of the headers, and it suggests the field it is mapped to |
| LeadsPage.EarlierRulesWin | app/company/leads/upload/page.tsx:106-120 | a header holding "mail" that is not an email column is a name column; title and company columns hold none of the email and phone words |
| LeadsPage.SuggestedFieldsAreLeadColumns | app/company/leads/upload/page.tsx:104-121 | every suggestion is one of the seven lead fields the page offers |
| LeadsPage.HotelIsPhone | app/company/leads/upload/page.tsx:112-113 | a header "Hotel" maps to phone, through the "tel" inside it |
| LeadsPage.UploadNeedsFileAndCampaign | app/company/leads/upload/page.tsx:125-136 | for a signed-in company user the page starts an upload exactly when the route would not answer its form with 400 for a missing field |
| LeadsUpload.Lines | app/api/leads/upload/route.ts:48 | a line is kept exactly when it is a non-blank line of the text |
| LeadsUpload.LinesInOrder | app/api/leads/upload/route.ts:48 | lines keep their order: the lines of a text are its first line, when not blank, followed by the lines of the rest |
| LeadsUpload.Cells | app/api/leads/upload/route.ts:49-53 | one cell per comma-separated part, each the trimmed part, so no cell begins or ends with white space |
| LeadsUpload.CellsOfJoin | app/api/leads/upload/route.ts:49-53 | a line made of trimmed cells without commas, joined by commas, reads back as exactly those cells |
| LeadsUpload.MappedCell | app/api/leads/upload/route.ts:61-66 | a mapped column gives a value exactly when its header is found and the cell there is non-empty; the value is the cell at the header's first index |
| LeadsUpload.IndexKeysValue | app/api/leads/upload/route.ts:61-66 | the own keys of an array-like mapping include each index, written in decimal, naming the element at that index |
| LeadsUpload.IndexKeys | app/api/leads/upload/route.ts:61-66 | the own keys of an array-like value (their properties: `IndexKeysValue`, `IndexKeysOnly`) |
| LeadsUpload.IndexKeysOnly | app/api/leads/upload/route.ts:61-66 | every own key of an array-like value is one of its indices written in decimal |
| LeadsUpload.MappingFields | app/api/leads/upload/route.ts:61-66 | the fields `Object.entries` reads from the mapping: an object's own fields, an array's or a string's indices (their properties: `MappingFieldsOfArrayLike`) |
| LeadsUpload.MappingFieldsOfArrayLike | app/api/leads/upload/route.ts:61-66 | an array mapping maps field "i" to its i-th entry and a string mapping to its i-th character; no other field is read from either; a boolean, a number or null maps nothing |
| LeadsUpload.ArrayMappingSetsIndexColumn | app/api/leads/upload/route.ts:61-66 | the mapping ["Email"] sets a column "0" holding the line's Email cell |
| LeadsUpload.NameRule | app/api/leads/upload/route.ts:68-76 | after the rule a lead that still has a name column has both a first and a last name |
| LeadsUpload.LeadColumns | app/api/leads/upload/route.ts:51-78 | every built lead carries its campaign id, its company id and a status |
| LeadsUpload.LeadsFrom | app/api/leads/upload/route.ts:51-79 | one lead per data line |
| LeadsUpload.BuildLeads | app/api/leads/upload/route.ts:51-79 | the loop from the second line on builds exactly the leads `LeadsFrom` gives for the lines after the header |
| LeadsUpload.Batch | app/api/leads/upload/route.ts:84-85 | every batch holds between 1 and 100 rows |
| LeadsUpload.Succeeding | app/api/leads/upload/route.ts:84-97 | no more batches succeed than the loop runs |
| LeadsUpload.Rows | app/api/leads/upload/route.ts:86-89 | one database row per built lead, the k-th carrying the k-th new id and the k-th lead's columns |
| LeadsUpload.Admit | app/api/leads/upload/route.ts:10-49 | the guards in order: no session is 401; a profile that is not a company is 403; an unreadable form or mapping is 500; then a missing file, a falsy campaign id or a falsy mapping is 400; then a missing company is 404; then a file with no non-blank line is 500; a request passes exactly when none of these applies |
| LeadsUpload.Import | app/api/leads/upload/route.ts:81-103 | the reply is a batch failure or an upload of every row; at most one insert per batch succeeds, and the upload is reported exactly when every batch is inserted |
| LeadsUpload.HandleLeadUpload | app/api/leads/upload/route.ts:5-108 | only an admitted request writes, and a reported upload counts one lead per kept line after the header |
| LeadsUpload.LeadsOf | app/api/leads/upload/route.ts:47-79 | one lead per non-blank line after the header line |
| LeadsUpload.InsertBatches | app/api/leads/upload/route.ts:81-103 | the batch loop makes exactly the inserts and the reply of the specification `Import` |
| LeadsUpload.Post | app/api/leads/upload/route.ts:5-108 | the reply and the new state are those of `HandleLeadUpload` |
| LeadsUpload.BatchesInsertPrefix | app/api/leads/upload/route.ts:84-97 | the first k batches insert exactly the first 100·k rows, or all of them |
| LeadsUpload.ImportEffect | app/api/leads/upload/route.ts:81-103 | a success inserts every row in order and reports their number; a failing batch keeps the batches before it and nothing after |
| LeadsUpload.OneLeadPerLine | app/api/leads/upload/route.ts:47-97 | an admitted request imports one row per data line of the file |
| LeadsUpload.RefusalsWriteNothing | app/api/leads/upload/route.ts:10-49 | every refusal writes nothing and is not a 200 |
| LeadsUpload.BlankFileIsServerError | app/api/leads/upload/route.ts:48-107 | a file whose lines are all blank ends in 500 with no write, after every other guard has passed |
| LeadsUpload.LeadsFromAt | app/api/leads/upload/route.ts:52-78 | lead i is built from data line i alone |
| LeadsUpload.LeadOfLine | app/api/leads/upload/route.ts:49-78 | lead i is built from line i + 1 of the file, with the header line's cells |
| LeadsUpload.NameRuleKeepsOthers | app/api/leads/upload/route.ts:68-76 | the name rule changes no column other than the three name columns |
| LeadsUpload.FixedColumns | app/api/leads/upload/route.ts:54-58 | without a mapping for them, every lead has the campaign, the company and status `new` |
| LeadsUpload.MappedFieldRule | app/api/leads/upload/route.ts:61-66 | a mapped field other than the name columns is set exactly when its header is found and the cell is non-empty, and then holds that cell |
| LeadsUpload.NameIsSplit | app/api/leads/upload/route.ts:71-76 | a `name` column without both names becomes first name = the first space-separated token and last name = the rest, each only when non-empty; `name` is dropped and nothing else changes |
| LeadsUpload.NameKeptBesideBothNames | app/api/leads/upload/route.ts:69-70 | with both names set, the lead is left as it is, `name` included |
| LeadsUpload.BatchesCoverRows | app/api/leads/upload/route.ts:84-85 | the batches up to j concatenate to the rows before 100·(j + 1); batch j starts inside the rows; it is the last exactly when it reaches their end, and all batches together are the rows in order |
| LeadsUpload.JoinedIsPrefix | app/api/leads/upload/route.ts:84-85 | the first k batches, concatenated, are the first 100·k rows, or all of them |
| Validations.CampaignCriteriaShape | lib/validations.ts:11-18 | a valid campaign has at least two criteria, all strings; with its other fields kept, any list of strings may replace them exactly when it holds at least two entries, whatever their content |
| Validations.BlankCriteriaAccepted | lib/validations.ts:14 | a valid campaign stays valid with two blank criteria: `z.array(z.string()).min(2)` checks only their number |
| Validations.ChecklistContentIrrelevant | lib/validations.ts:28 | any two boolean checklists, of any lengths, give a meeting the same verdict |
| Validations.DisputeIgnoresOtherKeys | lib/validations.ts:32-36 | keys other than meeting_id, dispute_type and reason never change a dispute's verdict |
| Validations.DisputeReasonBoundary | lib/validations.ts:35 | with a valid meeting id and type, a reason of BMP characters passes exactly when it has at least ten |
| Validations.Utf16LengthOfBmp | lib/validations.ts:35 | a string of BMP characters has as many UTF-16 code units as characters |
| Validations.EmptyEmailAccepted | lib/validations.ts:24 | an empty contact email passes, a JSON null does not |
| Validations.ZeroDurationRefused | lib/validations.ts:59-86 | a duration of 0 is refused for a call recording and for an outreach attempt |
| Validations.UuidExample | lib/validations.ts:22-33 | a hyphenated 8-4-4-4-12 hex string is a UUID, and the same digits without hyphens are not |
| Validations.ProfileValid | lib/validations.ts:4-8 | a profile update is valid when the full name, if given, is a non-empty string and the phone and company name, if given, are strings |
| Validations.CampaignValid | lib/validations.ts:11-18 | a campaign needs a title, an ICP description of at least 10 characters, at least two string criteria, a commission between 100 and 1000 and a known status; a script is optional |
| Validations.MeetingValid | lib/validations.ts:21-29 | a meeting needs a campaign uuid, a contact name and a datetime; the email is empty or an email, and the checklist, if given, is a list of booleans |
| Validations.DisputeValid | lib/validations.ts:32-36 | a dispute needs a meeting uuid, one of the four dispute types and a reason of at least 10 characters |
| Validations.LeadValid | lib/validations.ts:39-49 | a lead needs a campaign uuid and a known status; its email and LinkedIn URL are empty or well-formed; the other columns are optional strings |
| Validations.CallRecordingValid | lib/validations.ts:52-60 | a recording needs SDR and campaign uuids and a file name; a given meeting id is a uuid and a given size or duration is positive |
| Validations.AdminReviewValid | lib/validations.ts:63-70 | a review needs a meeting uuid and one of the three decisions; given scores lie in 0..100 |
| Validations.ApplicationValid | lib/validations.ts:73-76 | an application needs campaign and SDR uuids |
| Validations.OutreachAttemptValid | lib/validations.ts:79-87 | an attempt needs lead, SDR and campaign uuids, a known type and a known status; a given duration is positive |
| Deepgram.OrElse | lib/deepgram.ts:101-106 | `a \|\| d` gives a when a is defined and truthy, and d otherwise |
| Deepgram.ParseTranscriptionResult | lib/deepgram.ts:90-112 | null exactly when there is no first alternative (no channel, no alternatives, an empty list) or it is null; otherwise the transcript defaults to "" and the finality to false |
| Deepgram.FirstAlternative | lib/deepgram.ts:92-97 | an alternative is taken only from a truthy channel whose alternatives are present and not an empty list |
| Deepgram.SpeakerOf | lib/deepgram.ts:103 | the speaker of the first word as a string; an empty string counts as no speaker |
| Deepgram.ParseMessage | lib/deepgram.ts:90-112 | a result message decodes back to its transcript, confidence and finality, the first word's start and speaker and the last word's end; with no words, start and end are 0 and there is no speaker |
| Deepgram.NoAlternativeNoResult | lib/deepgram.ts:92-95 | a message without a channel, or with an empty list of alternatives, gives null |
| Deepgram.BareAlternativeDefaults | lib/deepgram.ts:97-107 | an alternative without any of the expected fields takes every default |
| Deepgram.Flag | lib/deepgram.ts:63-66 | a feature reads "false" exactly when it is explicitly false |
| Deepgram.Parameters | lib/deepgram.ts:61-66 | the six query parameters in the order of the URL template: language, model and the four flags |
| Deepgram.ListenUrl | lib/deepgram.ts:60-66 | the URL begins with the listen endpoint |
| Deepgram.UrlParameters | lib/deepgram.ts:60-66 | the URL is the listen endpoint followed by exactly the six parameters, in the template's order |
| Deepgram.DefaultConfiguration | lib/deepgram.ts:61-66 | an empty configuration asks for Swedish, nova-2 and every feature on |
| Deepgram.Connect | lib/deepgram.ts:37-76 | a connection is returned exactly when the client is ready and a key was created, and it holds the listen URL and that key |
| Dialer.ListForSdr | lib/dialer.ts:26-40 | the listing holds exactly the SDR's active rows (as a multiset), newest first, and nothing when the query fails |
| Dialer.ListedIffOwnedAndActive | lib/dialer.ts:29-31 | a row is listed exactly when it is the SDR's and active |
| Dialer.PatchOf | lib/dialer.ts:56-65 | the upsert sends the SDR, provider and account as given, with metadata defaulting to `{}` |
| Dialer.KeyIndex | lib/dialer.ts:67 | the index found is the first row with the conflict key, or -1 when there is none |
| Dialer.UpsertedRow | lib/dialer.ts:53-78 | the returned row has the conflict key, is active, and carries the sent metadata, last_sync_at and phone number |
| Dialer.UpsertOverwritesOrAdds | lib/dialer.ts:53-69 | a row with the key is merged in place and nothing is added; otherwise exactly one row is appended |
| Store.Merge | lib/dialer.ts:55-68 | a merged row keeps its id and its conflict key, is active, takes the sent metadata and last_sync_at, and keeps its secret when none is sent |
| Store.Fresh | lib/dialer.ts:55-68 | a new row has the given id and the conflict key sent, is active and has the sent last_sync_at |
| Store.UpsertRows | lib/dialer.ts:53-69 | the table after the upsert (its properties: `UpsertOverwritesOrAdds`, `UpsertKeepsKeysUnique`) |
| Dialer.UpsertedRowIsStored | lib/dialer.ts:53-78 | the returned row is in the table after the upsert |
| Dialer.UpsertKeepsKeysUnique | lib/dialer.ts:67 | the upsert keeps (sdr_id, dialer_provider, provider_account_id) unique |
| Dialer.RepeatedUpsertAddsOneRow | lib/dialer.ts:53-69 | upserting the same key twice adds at most one row |
| Dialer.UpsertDialerIntegration | lib/dialer.ts:45-79 | on success the table is upserted and the written row returned; on failure nothing changes and null is returned |
| Dialer.DeactivateOnlyMatching | lib/dialer.ts:88-92 | `is_active` turns false on the rows with both the id and the SDR, and nothing else changes |
| Dialer.DeactivatedIsNotListed | lib/dialer.ts:26-92 | a deactivated integration leaves the SDR's listing |
| Dialer.UpsertedIsListed | lib/dialer.ts:26-69 | an upserted integration is in its SDR's listing |
| Dialer.DeactivateDialerIntegration | lib/dialer.ts:84-100 | the result is true exactly when the request succeeds, whether or not a row matched, and only then is the table updated |
| Dialer.ToHex | lib/dialer.ts:122 | `toString(16)` gives at least one digit |
| Dialer.PadStart | lib/dialer.ts:122 | `padStart` gives the requested length, or the string's own when that is longer |
| Dialer.ByteHexDigits | lib/dialer.ts:117-122 | a byte renders as its high and its low nibble, as Buffer's hex encoding does |
| Dialer.HexOf | lib/dialer.ts:117-122 | the encoding has two lowercase hex digits per byte |
| Dialer.WebhookSecret | lib/dialer.ts:113-124 | a secret is 64 lowercase hex digits |
| Dialer.FromHex | lib/dialer.ts:117-122 | a decoding has one byte per two digits |
| Dialer.HexRoundTrip | lib/dialer.ts:117-122 | decoding a secret gives back the random bytes |
| Dialer.HexOfFromHex | lib/dialer.ts:117-122 | encoding a decoded string gives it back |
| Dialer.SecretInjective | lib/dialer.ts:113-124 | different random bytes give different secrets |
| Dialer.WebhookUrl | lib/dialer.ts:105-108 | the URL is the app URL, or `https://app.valdi.io` when unset, followed by `/api/webhooks/dialer` |
| Dialer.ProviderOf | lib/dialer.ts:214 | a provider name other than the five known ones reads as `other`; a known one reads as itself |
| Dialer.ProviderOfName | lib/dialer.ts:137-214 | looking a provider up by its own key finds it again |
| Dialer.StepsOf | lib/dialer.ts:141-209 | a provider's steps hold, at the provider's URL line, that line's text followed by the webhook URL |
| Dialer.SetupFor | lib/dialer.ts:137-211 | a provider's entry: its display name, the webhook URL, its steps and its two required fields |
| Dialer.SetupInstructions | lib/dialer.ts:129-215 | the entry of the named provider, or the "other" entry for a name the table does not know, built around the app's webhook URL |
| Dialer.UrlLineIsThere | lib/dialer.ts:144-205 | each provider's instructions hold the line that shows the webhook URL |
| Dialer.RequiredFieldsShape | lib/dialer.ts:149-210 | each entry has the common URL and two required fields, the second being the auth token for Twilio and the webhook secret for every other provider |
| Dialer.EverySetupShowsTheUrl | lib/dialer.ts:129-215 | every provider gets the common webhook URL, an instruction that contains it, and two required fields, the second being the secret |
| Dialer.UnknownProviderFallsBack | lib/dialer.ts:214 | an unknown provider gets exactly the `other` entry, named "Other Dialer" |
| Middleware.LocaleOf | middleware.ts:31 | the locale read from a path is never empty and holds no '/' |
| Middleware.Bypassed | middleware.ts:14-18 | API routes, Next.js assets, the favicon and any path holding a dot skip the middleware |
| Middleware.Admits | middleware.ts:47-61 | an area lets a request on when its path is outside the area, or there is a session whose profile has the area's user type |
| Middleware.LoginPath | middleware.ts:49 | the login redirect for a locale reads that locale back as its first path segment |
| Middleware.Decide | middleware.ts:10-98 | a redirect to the login page always carries a known locale |
| Middleware.BypassedPathsPassThrough | middleware.ts:14-21 | API routes, Next.js assets, the favicon and paths with a dot pass through, whoever asks |
| Middleware.LocaleIsFirstSegment | middleware.ts:31 | the locale is the first segment of an absolute path, or `sv` when that segment is empty |
| Middleware.UnknownLocaleSkipsRoleChecks | middleware.ts:34-36 | a first segment that is not a known locale gets the locale middleware's response, with no role check |
| Middleware.PassesIffEveryAreaAdmits | middleware.ts:46-97 | past the bypass and the locale check, the request goes on exactly when every area admits it; otherwise it is redirected to the login page of its locale |
| Middleware.TwoAreasNeverPass | middleware.ts:46-95 | a path inside two areas, such as `/sdr/admin`, never passes, since no profile has two types |
| Middleware.NoSessionNoArea | middleware.ts:47-84 | without a session, a path inside an area always goes to the login page |
| Middleware.OpenPathsPass | middleware.ts:46-97 | a path outside every area passes, signed in or not |
| LanguageSwitcher.CookieLastsOneYear | components/shared/LanguageSwitcher.tsx:24 | the cookie names the locale, is site-wide and lives 31536000 seconds |
| LanguageSwitcher.LocaleCookie | components/shared/LanguageSwitcher.tsx:24 | the cookie text that remembers the chosen locale for the whole site |
| LanguageSwitcher.Relocalized | components/shared/LanguageSwitcher.tsx:27-32 | the new locale is segment 1, and at most one segment is added |
| LanguageSwitcher.SwitchLocale | components/shared/LanguageSwitcher.tsx:20-37 | choosing the current locale does nothing; another locale sets its cookie and goes to the rejoined rewritten segments |
| LanguageSwitcher.SwitchedPathSegments | components/shared/LanguageSwitcher.tsx:27-34 | the new path splits back into the rewritten segments |
| LanguageSwitcher.NewLocaleLeads | components/shared/LanguageSwitcher.tsx:27-34 | the new locale is always the first segment of the new path |
| LanguageSwitcher.OtherSegmentsKept | components/shared/LanguageSwitcher.tsx:28-32 | a locale segment is replaced and every other segment is kept; otherwise the old segments follow the new locale, in order |
| LanguageSwitcher.RootGetsLocale | components/shared/LanguageSwitcher.tsx:27-34 | the root `/` becomes `/en/` |
| LanguageSwitcher.LanguageName | components/shared/LanguageSwitcher.tsx:39-41 | the name is "Svenska" exactly for `sv` |
| LanguageSwitcher.LanguageNamesDiffer | components/shared/LanguageSwitcher.tsx:39-41 | each locale has its own name |
| MeetingsPage.CriteriaOf | app/company/meetings/page.tsx:74-83 | an array column is used as it is; text is the parsed value when it parses and otherwise the single criterion holding the text |
| MeetingsPage.Marks | app/company/meetings/page.tsx:323-324 | marks exist exactly when the criteria value is an array; there is one per criterion, checked exactly when the checklist has a true entry at that index |
| MeetingsPage.Actions | app/company/meetings/page.tsx:349-364 | approve and reject are offered exactly while the meeting is pending |
| MeetingsPage.StatusUpdate | app/company/meetings/page.tsx:89-92 | the update always sets the status; the rejection reason goes with it exactly for not_qualified with a non-empty reason |
| MeetingsPage.Filtered | app/company/meetings/page.tsx:123-126 | "all" shows the whole list; a filter never adds meetings |
| MeetingsPage.StatsOf | app/company/meetings/page.tsx:128-133 | the total is the list length, and no counter exceeds it |
| MeetingsPage.ReasonLabel | app/company/meetings/page.tsx:424-429 | "Annat" is shown exactly for a code outside the five known reasons |
| MeetingsPage.ShownReason | app/company/meetings/page.tsx:420-431 | a reason line is shown exactly for a not_qualified meeting with a non-empty reason, and it reads that reason's label |
| MeetingsPage.MeetingsView.constructor | app/company/meetings/page.tsx:18-20 | the page starts on "all", with no rejection dialog open and no reason chosen |
| MeetingsPage.MeetingsView.SetFilter | app/company/meetings/page.tsx:216-248 | a filter button sets the filter and nothing else |
| MeetingsPage.MeetingsView.StartRejecting | app/company/meetings/page.tsx:358 | "Neka" opens the dialog for that meeting and nothing else changes |
| MeetingsPage.MeetingsView.ChooseReason | app/company/meetings/page.tsx:374-386 | choosing a reason records its code and nothing else changes |
| MeetingsPage.MeetingsView.Cancel | app/company/meetings/page.tsx:402-405 | cancelling closes the dialog and clears the reason, keeping the filter |
| MeetingsPage.MeetingsView.UpdateMeetingStatus | app/company/meetings/page.tsx:85-116 | a successful update applies the status update to the store and closes the dialog; a failed one changes nothing |
| MeetingsPage.MeetingsView.Approve | app/company/meetings/page.tsx:352 | "Godkänn" sets the meeting qualified without a reason; a successful write closes the rejection dialog and clears its reason, a failed one leaves them |
| MeetingsPage.MeetingsView.ConfirmRejection | app/company/meetings/page.tsx:388-395 | without a chosen reason nothing is written; with one, the open meeting becomes not_qualified carrying that reason, and a successful write closes the dialog and clears the reason while a failed one leaves them |
| MeetingsPage.UpdateTouchesOnlyThatMeeting | app/company/meetings/page.tsx:96-99 | only the meetings with that id change: their status always, their reason only when one is sent; every other row and table is kept |
| MeetingsPage.DecidedMeetingOffersNothing | app/company/meetings/page.tsx:85-99 | once approved or rejected, a meeting offers no more actions |
| MeetingsPage.ChosenReasonIsShown | app/company/meetings/page.tsx:389-391 | after a rejection with a chosen code, the meeting shows that code's label |
| MeetingsPage.DisputedHidesReason | app/company/meetings/page.tsx:420 | a disputed meeting shows no reason line, whatever it stores |
| MeetingsPage.ReasonLabels | app/company/meetings/page.tsx:424-429 | the five known reasons have five different labels, and the "other" code reads "Annat" |
| MeetingsPage.FilterKeepsExactlyThatStatus | app/company/meetings/page.tsx:123-126 | a status filter shows exactly the listed meetings with that status |
| MeetingsPage.FilterKeepsOrder | app/company/meetings/page.tsx:123-126 | filtering keeps the list's order |
| MeetingsPage.CountersMatchFilters | app/company/meetings/page.tsx:128-133 | each counter equals the length of the list its filter button shows |
| MeetingsPage.StatusCountsAddUp | app/company/meetings/page.tsx:128-133 | the four status counts add up to the list length |
| MeetingsPage.CountersBelowTotal | app/company/meetings/page.tsx:128-133 | the three counters add up to at most the total, and exactly to it when no meeting is disputed |
| MeetingsPage.MarksAgreeWithComponent | app/company/meetings/page.tsx:324 | the page's marks agree with the checklist component's `checklist[index]` whenever a checklist exists |
| MeetingsPage.CleanListsAgreeWithEngine | app/company/meetings/page.tsx:74-76 | an array of non-blank criteria reads the same on the page and in the qualification engine |
| MeetingsPage.BlankTextDiffersFromEngine | app/company/meetings/page.tsx:78-82 | empty text that does not parse is one blank criterion on the page but no criteria in the engine |
| CampaignsPage.CriteriaOf | valdi-mvp/app/company/campaigns/page.tsx:50-56 | the text's parsed value when it parses, otherwise the single criterion holding the text |
| CampaignsPage.Offered | valdi-mvp/app/company/campaigns/page.tsx:194-233 | at most two buttons, none of which leads to the campaign's own status |
| CampaignsPage.UpdateCampaignStatus | valdi-mvp/app/company/campaigns/page.tsx:58-70 | a successful update applies the status change to the store; a failed one changes nothing |
| CampaignsPage.Click | valdi-mvp/app/company/campaigns/page.tsx:194-233 | a click sends the status its button names |
| CampaignsPage.OfferedTransitions | valdi-mvp/app/company/campaigns/page.tsx:194-233 | draft publishes to active, active pauses, paused reactivates or completes, and completed offers nothing |
| CampaignsPage.DraftAndCompletedAreEnds | valdi-mvp/app/company/campaigns/page.tsx:194-233 | no button leads back to draft, and a status offers nothing exactly when it is completed |
| CampaignsPage.EveryStatusCanComplete | valdi-mvp/app/company/campaigns/page.tsx:194-233 | from every status, a run of at most three clicks reaches completed |
| CampaignsPage.UpdateTouchesOnlyThatCampaign | valdi-mvp/app/company/campaigns/page.tsx:58-70 | only the campaigns with that id change, and only in their status |
| CampaignsPage.ButtonChangesStatus | valdi-mvp/app/company/campaigns/page.tsx:194-233 | a button always moves its campaign to a different status |
| CampaignsPage.LabelsDiffer | valdi-mvp/app/company/campaigns/page.tsx:166-168 | each status has its own badge |
| CampaignsPage.StatusLabel | valdi-mvp/app/company/campaigns/page.tsx:166-168 | the badge text of each campaign status |
| CampaignsPage.AgreesWithMeetingsPage | valdi-mvp/app/company/campaigns/page.tsx:50-56 | for text criteria this page reads the same value as the meetings page |
| AdminReviews.PendingQueue | app/admin/reviews/page.tsx:50-58 | the queue is a rearrangement of exactly the pending meetings, ordered by creation time |
| AdminReviews.SingleRecording | app/admin/reviews/page.tsx:65-69 | a recording is attached exactly when one row names the meeting, and then it is that row |
| AdminReviews.QueueOf | app/admin/reviews/page.tsx:50-85 | the queue holds pending meetings of the table, oldest first, one entry per pending meeting, and a recording shown with a meeting is a row of the recordings table that names that meeting |
| AdminReviews.RecordingIdOf | app/admin/reviews/page.tsx:111 | the recording id is sent exactly when a recording with a non-empty id is attached |
| AdminReviews.FindIndex | app/admin/reviews/page.tsx:126 | the first index holding that meeting, or -1 when none does |
| AdminReviews.NextSelection | app/admin/reviews/page.tsx:126-133 | the next selection is taken from the list before the reload, and there is none exactly when that list held at most the reviewed meeting |
| AdminReviews.ReviewQueue.constructor | app/admin/reviews/page.tsx:28-33 | an empty queue, no selection, and the form at approve with both scores 80 |
| AdminReviews.ReviewQueue.Load | app/admin/reviews/page.tsx:87-90 | the list is replaced; the first item is selected only when nothing was |
| AdminReviews.ReviewQueue.Select | app/admin/reviews/page.tsx:192 | a click selects that meeting and nothing else changes |
| AdminReviews.ReviewQueue.Body | app/admin/reviews/page.tsx:106-112 | the body carries the form's decision, notes and scores and the selected meeting's recording id |
| AdminReviews.ReviewQueue.Submit | app/admin/reviews/page.tsx:98-134 | without a selection nothing is sent; a failed post changes nothing; a successful one reloads, resets the form and moves the selection through the old list |
| AdminReviews.ScoreTier | app/admin/reviews/page.tsx:263-266 | green from 80, yellow from 60 to 79, red below 60 |
| AdminReviews.QueueIsThePendingMeetings | app/admin/reviews/page.tsx:50-58 | a meeting is queued exactly when it is pending |
| AdminReviews.QueueIsOldestFirst | app/admin/reviews/page.tsx:58 | an earlier place in the queue never holds a later meeting |
| AdminReviews.SelectionMovesToNext | app/admin/reviews/page.tsx:126-128 | after an item that has a successor, the successor is selected |
| AdminReviews.SelectionWrapsToFirst | app/admin/reviews/page.tsx:129-130 | after the last of several items, the first is selected |
| AdminReviews.MissingCurrentSelectsFirst | app/admin/reviews/page.tsx:126-128 | a reviewed meeting no longer in the list selects the first item |
| AdminReviews.SelectionLeavesReviewed | app/admin/reviews/page.tsx:126-133 | with distinct ids and several items, the reviewed meeting is never selected again |
| AdminReviews.NoRecordingSendsNull | app/admin/reviews/page.tsx:111 | a meeting without a recording sends a null recording id |
| SdrCampaigns.FirstApplication | valdi-mvp/app/sdr/campaigns/page.tsx:75 | the index of the first application to the campaign, or -1 when there is none |
| SdrCampaigns.ApplicationStatus | valdi-mvp/app/sdr/campaigns/page.tsx:75-79 | a campaign without an application of the SDR reads "none"; any other status is that of an application to the campaign |
| SdrCampaigns.Listing | valdi-mvp/app/sdr/campaigns/page.tsx:54-81 | one row per active campaign, in order, each with the status of the SDR's own application to it |
| SdrCampaigns.ApplyToCampaign | valdi-mvp/app/sdr/campaigns/page.tsx:104-122 | without a known SDR nothing happens; otherwise one pending application is inserted, or nothing when the insert fails |
| SdrCampaigns.ApprovalRate | valdi-mvp/app/sdr/campaigns/page.tsx:99-102 | there is no rate exactly when the company is missing or has no meetings |
| SdrCampaigns.RateTier | valdi-mvp/app/sdr/campaigns/page.tsx:205-219 | green from 70, yellow from 50 to 69, red below 50 |
| SdrCampaigns.Preview | valdi-mvp/app/sdr/campaigns/page.tsx:239-249 | a preview exists exactly for array criteria: the first three, and a "more" count exactly when there are more than three |
| SdrCampaigns.StatusIsFirstApplication | valdi-mvp/app/sdr/campaigns/page.tsx:74-81 | without an application the status reads "none"; otherwise it is the first application's status |
| SdrCampaigns.AppliedCampaignReadsPending | valdi-mvp/app/sdr/campaigns/page.tsx:104-122 | after applying, a campaign with no earlier application reads "pending", and one with an earlier application keeps its status |
| SdrCampaigns.ListedIffActive | valdi-mvp/app/sdr/campaigns/page.tsx:54-81 | a campaign is listed exactly when it is active |
| SdrCampaigns.OtherSdrsDoNotMatter | valdi-mvp/app/sdr/campaigns/page.tsx:69-72 | another SDR's applications never change the listing |
| SdrCampaigns.RateExtremes | valdi-mvp/app/sdr/campaigns/page.tsx:99-102 | all meetings qualified gives 100 and green; none qualified gives 0 and red |
| SdrCampaigns.RateInRange | valdi-mvp/app/sdr/campaigns/page.tsx:99-102 | with no more qualified than total meetings, the rate lies in 0..100 |
| SdrCampaigns.PreviewAccountsForAll | valdi-mvp/app/sdr/campaigns/page.tsx:239-249 | the shown criteria and the "more" count together account for every criterion |
| Common.Trim | app/api/leads/upload/route.ts:49-53 | String.prototype.trim: the result is no longer than the text and neither begins nor ends with a white-space or line-terminator character |
| Common.TrimCutsOnlyEnds | app/api/leads/upload/route.ts:49-53 | trimming keeps a contiguous slice of the text and everything cut off either end is white space |
| Common.BlankIsTrimmedEmpty | app/api/leads/upload/route.ts:48 | a line is blank exactly when trimming leaves nothing, the test `line.trim()` makes |
| Common.Split | app/api/leads/upload/route.ts:48 | String.prototype.split on one character: at least one part, and no part holds the separator |
| Common.SplitConcat | app/api/leads/upload/route.ts:48 | splitting a text whose first part holds no separator gives that part followed by the parts of the rest |
| Common.SplitJoin | app/api/leads/upload/route.ts:49-53 | splitting parts joined by a separator none of them holds gives back exactly those parts |
| Common.SplitName | app/api/leads/upload/route.ts:71-76 | the first name is the text before the first space and the last name the rest; a given first name is non-empty and holds no space, a given last name is non-empty |

## Left out

- Supabase, the storage SDK, auth sessions and `fetch` are not called. Tables are values and the storage bucket is a set of paths. Each request's outcome (its error, the generated ids, a downloaded body) is a parameter. No SQL or PostgREST semantics are modelled beyond the filters the code names.
- The clock (`Date.now()`, `new Date()`) and the random source behind `generateWebhookSecret` are parameters: a timestamp and a sequence of 32 bytes.
- The HMAC-SHA256 and HMAC-SHA1 digests (section 2 of RFC 2104) and their hex or base64 rendering are one uninterpreted parameter of type `DialerWebhook.Digest`. `crypto.timingSafeEqual` is modelled only by its outcome: equal, different, or a throw on a byte-length mismatch.
- The webhook's `GET` health check is only its constant provider list, `DialerWebhook.SupportedProviders`.
- Floating point is not modelled:
  - `SdrCampaigns.ApprovalRate` and the qualification engine's `Math.round` are computed on exact rationals.
  - JSON numbers are integers.
  - `Number()` of a non-numeric string, NaN and the resulting clamps are not modelled; scores are integers.
  - `estimateTranscriptionCost` (lib/deepgram.ts:153-156) is float arithmetic and is not modelled.
- The OpenAI call is not modelled, and neither is the parse of its JSON reply. The reply is a `Qualification.ModelOutput` parameter, or none when it could not be read, holding only the fields the aggregation reads. The `confidence`, `reasoning`, `key_quotes`, `objections` and `next_steps` fields, which the code copies into the result with defaults, are left out of the result. `analyzeQualificationChunk` only prepends earlier context to the transcript before the same call, and `extractMeetingDetails` is another model call; neither is modelled.
- The qualification engine's "client not initialised" throw is not modelled; the model always has a client.
- Deepgram key creation, the live WebSocket and `transcribeAudioFile` are not modelled. Only the URL the connection opens and the decoding of a result message are.
- `formatCompanyCriteria` (lib/company-criteria.ts:136-170) and every `toLocaleString` or date display are locale-dependent formatting and are not modelled.
- CompanyCriteria: a non-numeric range bound is read as absent.
- Case folding is ASCII only, in the industry match and in the header auto-mapping; JavaScript's `toLowerCase` also folds non-ASCII letters.
- Ordering by a query is modelled where the core relies on it: the admin queue (oldest first) and the dialer listing (newest first). The order of the meetings page's and the SDR campaign page's queries is not modelled. Their lists are the loaded rows in the order given.
- The admin queue's `ai_scores` join and its display are not modelled; only the score colour (`AdminReviews.ScoreTier`) is.
- The admin review endpoint the queue posts to is not part of this model. No review decision is mapped to a meeting status.
- The i18n request configuration is not modelled; only its constants are (`I18n.Locales`, `I18n.DefaultLocale`). `next-intl`'s own response is an opaque value that the middleware returns or replaces.
- Alerts, console logging, router pushes, loading flags and rendering are not modelled. Cookie writes are modelled only as the cookie string (`LanguageSwitcher.LocaleCookie`).
- The flag emoji of the language switcher (`getLanguageFlag`) is not modelled.
- lib/db.ts, lib/storage.ts, lib/audit.ts, lib/twilio.ts and the hooks are not part of this model.
- DialerWebhook.FindOrCreateLead: its own contract bounds only the number of writes. Which lead it finds and which one it creates are stated by the lemmas `LeadReused`, `CreatedLeadColumns` and `CreatedLeadName`.
- DialerWebhook.AttemptWrites: its own contract bounds only the number of writes. The attempt's content is stated by `OutreachNeedsLead`.
- zod's email, URL and datetime string checks are regular expressions; they are parameters of the schemas (`Validations.Formats`). The schemas' error messages are not modelled, only whether an object passes.
- A mapping sent as a JSON string gives one field per character of the model's `string`, where `Object.keys` gives one per UTF-16 code unit; the two agree on text in the Basic Multilingual Plane.
- A lead column the code sets to null is an absent key of the column map. This covers an empty first or last name in `LeadsUpload.NameRule` (and so in `LeadsUpload.LeadColumns`), and a missing first name, last name, email or phone in `DialerWebhook.NewLeadColumns`. An inserted row stores null in both cases, so the stored lead is the same; the model does not distinguish an explicit null from a column never sent.

## Behaviour of the code worth knowing

- The dialer webhook does not deduplicate. A second delivery of the same call adds a second recording row (`DialerWebhook.ImportAddsDuplicateRows`).
- If the recording row cannot be inserted, the webhook leaves the uploaded object in the bucket (`DialerWebhook.OrphanObjectOnRecordFailure`). The manual upload route, by contrast, removes its object.
- A wrong-length aircall or twilio signature makes `timingSafeEqual` throw. The webhook then answers 500, not 401 (`WrongLengthSignatureIsServerError`).
- The retention job redacts every selected row even when removing the stored objects failed (`GdprCleanup.RedactsDespiteRemovalFailure`).
- The checklist component's counter is not bounded by the number of criteria (`Checklist.CounterCanExceedCriteria`).
- The meetings page sends a rejection reason only with `not_qualified`. The unmodelled lib/db.ts helper would attach one for any status.
- The older campaign schema has no `disputed` meeting status; the model uses the newer schema's four statuses.
- The qualification verdict uses the unrounded mean. A rounded score can therefore read as meeting the threshold while the meeting is not qualified (`Qualification.RoundedScoreCanMislead`).
- The upload page's header rules run in a fixed order. "Hotel" contains "tel" and so maps to the phone column (`LeadsPage.HotelIsPhone`).

=== FILE: admin_reviews.dfy ===
// The admin review queue (app/admin/reviews/page.tsx): the pending meetings
// oldest first, the selected meeting, the review form, what a submit sends,
// and where the selection goes after it.

module AdminReviews {
  import opened Common
  import opened Store

  // ---------------------------------------------------------------------
  // The queue
  // ---------------------------------------------------------------------

  function IsPending(): Meeting -> bool
  {
    (m: Meeting) => m.status == Pending
  }

  function CreatedAt(): Meeting -> int
  {
    (m: Meeting) => m.createdAt
  }

  /** The meetings query: status pending, ordered by created_at ascending. */
  function PendingQueue(ms: seq<Meeting>): (r: seq<Meeting>)
    ensures forall i :: 0 <= i < |r| ==> r[i].status == Pending
    ensures SortedByKey(r, CreatedAt())
    ensures multiset(r) == multiset(Filter(ms, IsPending()))
  {
    var f := Filter(ms, IsPending());
    var r := SortByKey(f, CreatedAt());
    assert forall i :: 0 <= i < |r| ==> r[i].status == Pending by {
      forall i | 0 <= i < |r|
        ensures r[i].status == Pending
      {
        assert r[i] in multiset(f);
        var k :| 0 <= k < |f| && f[k] == r[i];
        assert IsPending()(f[k]);
      }
    }
    r
  }

  /** `.eq('meeting_id', id).single()`: the recording when exactly one row
      names the meeting, otherwise none. */
  function SingleRecording(rows: seq<Recording>, meetingId: string): (r: Option<Recording>)
    ensures r.Some? <==> |Filter(rows, (x: Recording) => x.meetingId == Some(meetingId))| == 1
    ensures r.Some? ==> r.value in rows && r.value.meetingId == Some(meetingId)
  {
    var hits := Filter(rows, (x: Recording) => x.meetingId == Some(meetingId));
    if |hits| == 1 then Some(hits[0]) else None
  }

  /** A queued meeting with the recording the page loaded for it. */
  datatype QueuedMeeting = QueuedMeeting(meeting: Meeting, recording: Option<Recording>)

  /** loadPendingMeetings: the queue with each meeting's recording. Every
      entry is a pending meeting of the table, oldest first, and a recording
      attached to it is a row of call_recordings that names it. */
  function QueueOf(t: Tables): (r: seq<QueuedMeeting>)
    ensures |r| == |PendingQueue(t.meetings)|
    ensures forall i :: 0 <= i < |r| ==>
      r[i].meeting == PendingQueue(t.meetings)[i] && r[i].recording == SingleRecording(t.recordings, r[i].meeting.id)
    ensures forall i :: 0 <= i < |r| ==> r[i].meeting in t.meetings && r[i].meeting.status == Pending
    ensures forall i, j :: 0 <= i < j < |r| ==> r[i].meeting.createdAt <= r[j].meeting.createdAt
    ensures forall i :: 0 <= i < |r| && r[i].recording.Some? ==>
      r[i].recording.value in t.recordings && r[i].recording.value.meetingId == Some(r[i].meeting.id)
  {
    var q := PendingQueue(t.meetings);
    forall i | 0 <= i < |q| ensures q[i] in t.meetings {
      QueueIsThePendingMeetings(t.meetings, q[i]);
    }
    forall i, j | 0 <= i < j < |q| ensures q[i].createdAt <= q[j].createdAt {
      QueueIsOldestFirst(t.meetings, i, j);
    }
    seq(|q|, i requires 0 <= i < |q| => QueuedMeeting(q[i], SingleRecording(t.recordings, q[i].id)))
  }

  // ---------------------------------------------------------------------
  // Submitting a review
  // ---------------------------------------------------------------------

  datatype Decision = Approve | Reject | NeedsRevision

  /** The JSON body posted to the meeting's review endpoint. */
  datatype ReviewBody = ReviewBody(
    decision: Decision,
    notes: string,
    qualificationScore: int,
    qualityScore: int,
    callRecordingId: Option<string>)

  /** `selectedMeeting.call_recording?.id || null`. */
  function RecordingIdOf(q: QueuedMeeting): (r: Option<string>)
    ensures r.Some? <==> q.recording.Some? && q.recording.value.id != ""
    ensures r.Some? ==> r.value == q.recording.value.id
  {
    if q.recording.Some? then NonEmpty(q.recording.value.id) else None
  }

  /** `meetings.findIndex(m => m.id === id)`. */
  function FindIndex(qs: seq<QueuedMeeting>, id: string): (k: int)
    ensures -1 <= k < |qs|
    ensures k >= 0 ==> qs[k].meeting.id == id && forall j :: 0 <= j < k ==> qs[j].meeting.id != id
    ensures k == -1 ==> forall j :: 0 <= j < |qs| ==> qs[j].meeting.id != id
  {
    if qs == [] then -1
    else if qs[0].meeting.id == id then 0
    else
      var k := FindIndex(qs[1..], id);
      if k == -1 then -1 else k + 1
  }

  /** The selection after a successful submit, taken from the list as it was
      before the reload: the next item, else the first when the list had
      more than one, else none. A missing current item counts as index -1. */
  function NextSelection(before: seq<QueuedMeeting>, currentId: string): (r: Option<QueuedMeeting>)
    ensures r.Some? ==> r.value in before
    ensures r.None? <==> |before| <= 1 && FindIndex(before, currentId) == |before| - 1
  {
    var k := FindIndex(before, currentId);
    if k < |before| - 1 then Some(before[k + 1])
    else if |before| > 1 then Some(before[0])
    else None
  }

  /** The page's state: the loaded queue, the selected meeting and the form. */
  class ReviewQueue {
    var meetings: seq<QueuedMeeting>
    var selected: Option<QueuedMeeting>
    var decision: Decision
    var notes: string
    var qualificationScore: int
    var qualityScore: int

    /** The form as it starts and as a successful submit leaves it. */
    predicate FormIsReset()
      reads this
    {
      decision == Approve && notes == "" && qualificationScore == 80 && qualityScore == 80
    }

    constructor ()
      ensures meetings == [] && selected == None && FormIsReset()
    {
      meetings := [];
      selected := None;
      decision := Approve;
      notes := "";
      qualificationScore := 80;
      qualityScore := 80;
    }

    /** loadPendingMeetings: the new list; the first item is selected only
        when nothing is. */
    method Load(loaded: seq<QueuedMeeting>)
      modifies this
      ensures meetings == loaded
      ensures selected == (if |loaded| > 0 && old(selected).None? then Some(loaded[0]) else old(selected))
      ensures decision == old(decision) && notes == old(notes)
      ensures qualificationScore == old(qualificationScore) && qualityScore == old(qualityScore)
    {
      meetings := loaded;
      if |loaded| > 0 && selected.None? {
        selected := Some(loaded[0]);
      }
    }

    /** A click on a meeting in the list. */
    method Select(q: QueuedMeeting)
      modifies this
      ensures selected == Some(q)
      ensures meetings == old(meetings) && decision == old(decision) && notes == old(notes)
      ensures qualificationScore == old(qualificationScore) && qualityScore == old(qualityScore)
    {
      selected := Some(q);
    }

    /** The body a submit posts for the selected meeting. */
    function Body(): (b: ReviewBody)
      reads this
      requires selected.Some?
      ensures b.decision == decision && b.notes == notes
      ensures b.qualificationScore == qualificationScore && b.qualityScore == qualityScore
      ensures b.callRecordingId == RecordingIdOf(selected.value)
    {
      ReviewBody(decision, notes, qualificationScore, qualityScore, RecordingIdOf(selected.value))
    }

    /** handleSubmitReview: nothing without a selection; otherwise the body is
        posted, and on success the queue is reloaded (`loaded`), the form is
        reset and the selection moves on through the pre-reload list. */
    method Submit(postOk: bool, loaded: seq<QueuedMeeting>) returns (sent: Option<ReviewBody>)
      modifies this
      ensures old(selected).None? ==> sent.None? && unchanged(this)
      ensures old(selected).Some? ==> sent == Some(old(Body()))
      ensures old(selected).Some? && !postOk ==> unchanged(this)
      ensures old(selected).Some? && postOk ==>
        meetings == loaded && FormIsReset()
        && selected == NextSelection(old(meetings), old(selected).value.meeting.id)
    {
      if selected.None? {
        return None;
      }
      sent := Some(Body());
      if !postOk {
        return;
      }
      var before := meetings;
      var current := selected.value;
      Load(loaded);
      notes := "";
      qualificationScore := 80;
      qualityScore := 80;
      decision := Approve;
      selected := NextSelection(before, current.meeting.id);
    }
  }

  /** The colour of an AI score: green from 80, yellow from 60, red below. */
  function ScoreTier(score: int): (t: Tier)
    ensures t == Green <==> score >= 80
    ensures t == Yellow <==> 60 <= score < 80
    ensures t == Red <==> score < 60
  {
    TierAt(score, 80, 60)
  }

  // ---------------------------------------------------------------------
  // Properties
  // ---------------------------------------------------------------------

  /** The queue holds exactly the pending meetings. */
  lemma QueueIsThePendingMeetings(ms: seq<Meeting>, m: Meeting)
    ensures m in PendingQueue(ms) <==> m in ms && m.status == Pending
  {
    var f := Filter(ms, IsPending());
    assert m in PendingQueue(ms) <==> m in multiset(f);
    if m in ms && m.status == Pending {
      FilterKeeps(ms, IsPending(), m);
    }
    if m in f {
      var k :| 0 <= k < |f| && f[k] == m;
      assert IsPending()(f[k]);
    }
  }

  /** Oldest first: an earlier place never holds a later meeting. */
  lemma QueueIsOldestFirst(ms: seq<Meeting>, i: nat, j: nat)
    requires i < j < |PendingQueue(ms)|
    ensures PendingQueue(ms)[i].createdAt <= PendingQueue(ms)[j].createdAt
  {
    var q := PendingQueue(ms);
    assert CreatedAt()(q[i]) <= CreatedAt()(q[j]);
  }

  /** After the item at k, the next one is selected when there is one. */
  lemma SelectionMovesToNext(before: seq<QueuedMeeting>, k: nat)
    requires k + 1 < |before|
    requires forall j :: 0 <= j < k ==> before[j].meeting.id != before[k].meeting.id
    ensures NextSelection(before, before[k].meeting.id) == Some(before[k + 1])
  {
  }

  /** After the last of several items, the selection wraps to the first. */
  lemma SelectionWrapsToFirst(before: seq<QueuedMeeting>)
    requires |before| > 1
    requires forall j :: 0 <= j < |before| - 1 ==> before[j].meeting.id != before[|before| - 1].meeting.id
    ensures NextSelection(before, before[|before| - 1].meeting.id) == Some(before[0])
  {
  }

  /** A meeting no longer in the list selects the first item. */
  lemma MissingCurrentSelectsFirst(before: seq<QueuedMeeting>, id: string)
    requires |before| >= 1
    requires forall j :: 0 <= j < |before| ==> before[j].meeting.id != id
    ensures NextSelection(before, id) == Some(before[0])
  {
  }

  /** With distinct ids and several items, the reviewed meeting is never
      selected again. */
  lemma SelectionLeavesReviewed(before: seq<QueuedMeeting>, k: nat)
    requires 1 < |before| && k < |before|
    requires forall i, j :: 0 <= i < j < |before| ==> before[i].meeting.id != before[j].meeting.id
    ensures NextSelection(before, before[k].meeting.id).Some?
    ensures NextSelection(before, before[k].meeting.id).value.meeting.id != before[k].meeting.id
  {
    assert FindIndex(before, before[k].meeting.id) == k;
  }

  /** A meeting without a recording sends a null recording id. */
  lemma NoRecordingSendsNull(m: Meeting)
    ensures RecordingIdOf(QueuedMeeting(m, None)) == None
  {
  }
}

=== FILE: calls_upload.dfy ===
// The manual recording upload (app/api/calls/upload/route.ts): a run of
// guards, then an upload to the call-recordings bucket, then the
// call_recordings row, removing the object again when the row cannot be
// written.

module CallsUpload {
  import opened Common
  import opened Store

  const AllowedTypes: seq<string> := ["audio/mpeg", "audio/wav", "audio/mp3", "video/mp4"]

  /** 100 MB. */
  const MaxSize: nat := 100 * 1024 * 1024

  datatype UploadedFile = UploadedFile(name: string, size: nat, mimeType: string)

  /** The multipart form: fields that are absent read as None. */
  datatype UploadForm = UploadForm(
    file: Option<UploadedFile>,
    meetingId: Option<string>,
    campaignId: Option<string>,
    sdrId: Option<string>)

  /** The request: whether a session exists, and the form (None when the body
      is not a readable form, which throws). */
  datatype UploadRequest = UploadRequest(hasSession: bool, form: Option<UploadForm>)

  datatype UploadEnv = UploadEnv(
    now: nat,                         // Date.now()
    uploadOk: bool,                   // the bucket accepts the object
    newRecordingId: Option<string>,   // id of the inserted row; None when the insert fails
    retentionDeadline: Option<int>,   // auto_deleted_at the database gives a new recording
    removeOk: bool)                   // the compensating remove succeeds

  datatype UploadReply =
    | Unauthorized
    | MissingFields
    | InvalidType
    | TooLarge
    | UploadFailed
    | RecordFailed
    | Created(recording: Recording)
    | InternalError

  function Status(r: UploadReply): int
  {
    match r
    case Unauthorized => 401
    case MissingFields => 400
    case InvalidType => 400
    case TooLarge => 400
    case UploadFailed => 500
    case RecordFailed => 500
    case Created(_) => 201
    case InternalError => 500
  }

  /** `name.split('.').pop()`: the text after the last dot, or the whole name. */
  function Extension(name: string): (ext: string)
    ensures '.' !in ext
  {
    var parts := Split(name, '.');
    parts[|parts| - 1]
  }

  lemma ExtensionIsSuffix(name: string)
    ensures var ext := Extension(name);
      |ext| <= |name| && name[|name| - |ext|..] == ext
      && (|ext| < |name| ==> name[|name| - |ext| - 1] == '.')
      && ('.' !in name ==> ext == name)
  {
    LastPartIsTail(name, '.');
    var parts := Split(name, '.');
    if '.' !in name {
      SplitNoSep(name, '.');
    }
  }

  function ObjectPath(sdrId: string, campaignId: string, name: string, now: nat): string
  {
    "call-recordings/" + sdrId + "/" + campaignId + "/" + NatToString(now) + "." + Extension(name)
  }

  /** With ids and an extension free of '/', the object path has four
      '/'-separated segments: bucket folder, SDR, campaign, timestamped file. */
  lemma ObjectPathSegments(sdrId: string, campaignId: string, name: string, now: nat)
    requires '/' !in sdrId && '/' !in campaignId && '/' !in Extension(name)
    ensures Split(ObjectPath(sdrId, campaignId, name, now), '/')
         == ["call-recordings", sdrId, campaignId, NatToString(now) + "." + Extension(name)]
  {
    var file := NatToString(now) + "." + Extension(name);
    var parts := ["call-recordings", sdrId, campaignId, file];
    DigitsExclude(NatToString(now), '/');
    assert Join(parts, "/") == ObjectPath(sdrId, campaignId, name, now) by {
      assert Join(parts[3..], "/") == file;
      assert Join(parts[2..], "/") == campaignId + "/" + file;
      assert Join(parts[1..], "/") == sdrId + "/" + campaignId + "/" + file;
    }
    SplitJoin(parts, '/');
  }

  function NewRecording(id: string, form: UploadForm, path: string, deadline: Option<int>): Recording
    requires form.file.Some? && form.campaignId.Some? && form.sdrId.Some?
  {
    var f := form.file.value;
    Recording(id, form.meetingId, form.sdrId.value, form.campaignId.value, Some(path), f.name,
              Some(f.size), Some(f.mimeType), None, None, "pending", None, None, deadline)
  }

  /** The guards, in the handler's order; None when the request passes them all. */
  function Validate(req: UploadRequest): (r: Option<UploadReply>)
    ensures r.None? <==>
      req.hasSession && req.form.Some? && req.form.value.file.Some?
      && Truthy(req.form.value.campaignId) && Truthy(req.form.value.sdrId)
      && req.form.value.file.value.mimeType in AllowedTypes
      && req.form.value.file.value.size <= MaxSize
    ensures !req.hasSession ==> r == Some(Unauthorized)
    ensures req.hasSession && req.form.None? ==> r == Some(InternalError)
    ensures req.hasSession && req.form.Some?
            && (req.form.value.file.None? || !Truthy(req.form.value.campaignId) || !Truthy(req.form.value.sdrId))
            ==> r == Some(MissingFields)
    ensures req.hasSession && req.form.Some? && req.form.value.file.Some?
            && Truthy(req.form.value.campaignId) && Truthy(req.form.value.sdrId)
            ==> (r == Some(InvalidType) <==> req.form.value.file.value.mimeType !in AllowedTypes)
                && (r == Some(TooLarge) <==>
                      req.form.value.file.value.mimeType in AllowedTypes && req.form.value.file.value.size > MaxSize)
  {
    if !req.hasSession then Some(Unauthorized)
    else if req.form.None? then Some(InternalError)
    else
      var form := req.form.value;
      if form.file.None? || !Truthy(form.campaignId) || !Truthy(form.sdrId) then Some(MissingFields)
      else if form.file.value.mimeType !in AllowedTypes then Some(InvalidType)
      else if form.file.value.size > MaxSize then Some(TooLarge)
      else None
  }

  /** The handler on the tables: its reply and the writes it makes, in order. */
  function HandleUpload(t: Tables, req: UploadRequest, env: UploadEnv): (r: (UploadReply, seq<Write>))
    ensures r.1 != [] <==> r.0.Created? || r.0.RecordFailed?
    ensures r.1 != [] ==> Validate(req).None? && r.1[0].PutObject? && r.1[0].path !in t.storage
    ensures Validate(req).Some? ==> r == (Validate(req).value, [])
    ensures Validate(req).None? ==>
      var form := req.form.value;
      var path := ObjectPath(form.sdrId.value, form.campaignId.value, form.file.value.name, env.now);
      (r.0 == UploadFailed <==> !env.uploadOk || path in t.storage)
      && (r.0 == UploadFailed ==> r.1 == [])
      && (r.0 == RecordFailed <==> env.uploadOk && path !in t.storage && env.newRecordingId.None?)
      && (r.0.Created? <==> env.uploadOk && path !in t.storage && env.newRecordingId.Some?)
  {
    var v := Validate(req);
    if v.Some? then (v.value, [])
    else
      var form := req.form.value;
      var path := ObjectPath(form.sdrId.value, form.campaignId.value, form.file.value.name, env.now);
      if !env.uploadOk || path in t.storage then (UploadFailed, [])
      else if env.newRecordingId.None? then
        (RecordFailed, [PutObject(path)] + (if env.removeOk then [RemoveObjects([path])] else []))
      else
        var row := NewRecording(env.newRecordingId.value, form, path, env.retentionDeadline);
        (Created(row), [PutObject(path), InsertRecording(row)])
  }

  method Post(db: Database, req: UploadRequest, env: UploadEnv) returns (reply: UploadReply)
    modifies db
    ensures reply == HandleUpload(old(db.Snapshot()), req, env).0
    ensures db.Snapshot() == ApplyAll(old(db.Snapshot()), HandleUpload(old(db.Snapshot()), req, env).1)
  {
    ghost var start := db.Snapshot();
    ghost var done: seq<Write> := [];
    var v := Validate(req);
    if v.Some? {
      return v.value;
    }
    var form := req.form.value;
    var path := ObjectPath(form.sdrId.value, form.campaignId.value, form.file.value.name, env.now);
    if !env.uploadOk || path in db.storage {
      return UploadFailed;
    }
    done := db.Run(PutObject(path), start, done);
    if env.newRecordingId.None? {
      if env.removeOk {
        done := db.Run(RemoveObjects([path]), start, done);
      }
      return RecordFailed;
    }
    var row := NewRecording(env.newRecordingId.value, form, path, env.retentionDeadline);
    done := db.Run(InsertRecording(row), start, done);
    reply := Created(row);
  }

  // ---------------------------------------------------------------------
  // Properties
  // ---------------------------------------------------------------------

  /** Every rejection by a guard, and a failed upload, leaves the tables as they were. */
  lemma GuardsPrecedeWrites(t: Tables, req: UploadRequest, env: UploadEnv)
    ensures var (reply, writes) := HandleUpload(t, req, env);
      !reply.RecordFailed? && !reply.Created? ==> writes == []
  {
  }

  /** No session is answered with 401 whatever the form holds. */
  lemma SessionFirst(t: Tables, req: UploadRequest, env: UploadEnv)
    requires !req.hasSession
    ensures HandleUpload(t, req, env) == (Unauthorized, [])
  {
  }

  /** A file of exactly 100 MB passes the size guard; one byte more does not. */
  lemma SizeLimitIsInclusive(form: UploadForm, f: UploadedFile)
    requires form.file == Some(f) && Truthy(form.campaignId) && Truthy(form.sdrId) && f.mimeType in AllowedTypes
    ensures f.size == 104857600 ==> Validate(UploadRequest(true, Some(form))).None?
    ensures f.size == 104857601 ==> Validate(UploadRequest(true, Some(form))) == Some(TooLarge)
  {
  }

  /** When the row insert fails and the remove succeeds, the bucket is as before. */
  lemma NoOrphanAfterRecordFailure(t: Tables, req: UploadRequest, env: UploadEnv)
    requires env.removeOk
    ensures var (reply, writes) := HandleUpload(t, req, env);
      reply.RecordFailed? ==> ApplyAll(t, writes) == t
  {
    var (reply, writes) := HandleUpload(t, req, env);
    if reply.RecordFailed? {
      var path := writes[0].path;
      assert writes == [PutObject(path), RemoveObjects([path])];
      assert path !in t.storage;
      ApplyAllPair(t, PutObject(path), RemoveObjects([path]));
      assert (set p | p in [path]) == {path};
      assert t.storage + {path} - {path} == t.storage;
    }
  }

  /** A created recording: one new object and one new row, which carries the
      original name, size and type, the given meeting and status `pending`. */
  lemma CreatedEffect(t: Tables, req: UploadRequest, env: UploadEnv)
    ensures var (reply, writes) := HandleUpload(t, req, env);
      reply.Created? ==>
        var form := req.form.value;
        var f := form.file.value;
        var row := reply.recording;
        var path := ObjectPath(form.sdrId.value, form.campaignId.value, f.name, env.now);
        ApplyAll(t, writes) == t.(storage := t.storage + {path}, recordings := t.recordings + [row])
        && path !in t.storage
        && row.storagePath == Some(path) && row.fileName == f.name && row.fileSize == Some(f.size)
        && row.mimeType == Some(f.mimeType) && row.meetingId == form.meetingId
        && row.sdrId == form.sdrId.value && row.campaignId == form.campaignId.value
        && row.transcriptionStatus == "pending"
  {
    var (reply, writes) := HandleUpload(t, req, env);
    if reply.Created? {
      ApplyAllPair(t, writes[0], writes[1]);
    }
  }
}

=== FILE: campaigns_page.dfy ===
// The company's campaign list (valdi-mvp/app/company/campaigns/page.tsx):
// the criteria shown per campaign, the status buttons each status offers,
// and the status update a button sends.

module CampaignsPage {
  import opened Common
  import opened Store
  import MeetingsPage

  /** getQualificationCriteria: the text through JSON.parse, or the text as
      the one criterion when it does not parse. */
  function CriteriaOf(text: string, parse: JsonParser): (r: Json)
    ensures parse(text).Some? ==> r == parse(text).value
    ensures parse(text).None? ==> r == JArr([JStr(text)])
  {
    match parse(text)
    case Some(j) => j
    case None => JArr([JStr(text)])
  }

  /** A status button: its label and the status it sends. */
  datatype Button = Button(caption: string, target: CampaignStatus)

  /** The buttons under a campaign, by its status. */
  function Offered(s: CampaignStatus): (r: seq<Button>)
    ensures |r| <= 2
    ensures forall k :: 0 <= k < |r| ==> r[k].target != s
  {
    match s
    case Draft => [Button("Publicera", Active)]
    case Active => [Button("Pausa", Paused)]
    case Paused => [Button("Aktivera", Active), Button("Avsluta", Completed)]
    case Completed => []
  }

  /** The statuses a campaign's buttons lead to. */
  function Targets(s: CampaignStatus): (r: seq<CampaignStatus>)
    ensures |r| == |Offered(s)|
    ensures forall k :: 0 <= k < |r| ==> r[k] == Offered(s)[k].target
  {
    var bs := Offered(s);
    seq(|bs|, k requires 0 <= k < |bs| => bs[k].target)
  }

  /** The badge of a campaign. */
  function StatusLabel(s: CampaignStatus): string
  {
    match s
    case Active => "Aktiv"
    case Paused => "Pausad"
    case Draft => "Utkast"
    case Completed => "Avslutad"
  }

  /** updateCampaignStatus: one update of the campaign's status; an error is
      logged and nothing changes. */
  method UpdateCampaignStatus(db: Database, campaignId: string, newStatus: CampaignStatus, ok: bool)
    modifies db
    ensures db.Snapshot() == (if ok then Apply(old(db.Snapshot()), SetCampaignStatus(campaignId, newStatus))
                              else old(db.Snapshot()))
  {
    if ok {
      db.Perform(SetCampaignStatus(campaignId, newStatus));
    }
  }

  /** A click on button k under a campaign. */
  method Click(db: Database, c: Campaign, k: nat, ok: bool)
    requires k < |Offered(c.status)|
    modifies db
    ensures db.Snapshot() == (if ok then Apply(old(db.Snapshot()), SetCampaignStatus(c.id, Offered(c.status)[k].target))
                              else old(db.Snapshot()))
  {
    UpdateCampaignStatus(db, c.id, Offered(c.status)[k].target, ok);
  }

  // ---------------------------------------------------------------------
  // Properties
  // ---------------------------------------------------------------------

  /** The four statuses and the changes their buttons offer. */
  lemma OfferedTransitions()
    ensures Targets(Draft) == [Active]
    ensures Targets(Active) == [Paused]
    ensures Targets(Paused) == [Active, Completed]
    ensures Targets(Completed) == []
  {
  }

  /** No button leads back to draft, and completed offers nothing. */
  lemma DraftAndCompletedAreEnds(s: CampaignStatus)
    ensures Draft !in Targets(s)
    ensures s == Completed <==> Targets(s) == []
  {
  }

  /** A run of clicks: each status is offered by the one before it. */
  ghost predicate Path(p: seq<CampaignStatus>)
  {
    forall k :: 0 < k < |p| ==> p[k] in Targets(p[k - 1])
  }

  /** From every status, at most three clicks reach completed. */
  lemma EveryStatusCanComplete(s: CampaignStatus) returns (p: seq<CampaignStatus>)
    ensures |p| >= 1 && p[0] == s && p[|p| - 1] == Completed
    ensures |p| <= 4 && Path(p)
  {
    OfferedTransitions();
    match s
    case Draft => p := [Draft, Active, Paused, Completed];
    case Active => p := [Active, Paused, Completed];
    case Paused => p := [Paused, Completed];
    case Completed => p := [Completed];
  }

  /** The update sets the status of the campaigns with that id and nothing else. */
  lemma UpdateTouchesOnlyThatCampaign(t: Tables, campaignId: string, s: CampaignStatus)
    ensures var after := Apply(t, SetCampaignStatus(campaignId, s));
      after == t.(campaigns := after.campaigns)
      && |after.campaigns| == |t.campaigns|
      && forall i :: 0 <= i < |t.campaigns| ==>
           after.campaigns[i] == (if t.campaigns[i].id == campaignId then t.campaigns[i].(status := s)
                                  else t.campaigns[i])
  {
  }

  /** A button moves its campaign to a status different from the one it had. */
  lemma ButtonChangesStatus(t: Tables, i: nat, k: nat)
    requires i < |t.campaigns| && k < |Offered(t.campaigns[i].status)|
    ensures var c := t.campaigns[i];
      var after := Apply(t, SetCampaignStatus(c.id, Offered(c.status)[k].target));
      after.campaigns[i].status == Offered(c.status)[k].target
      && after.campaigns[i].status != c.status
  {
  }

  /** Each status has its own badge. */
  lemma LabelsDiffer(a: CampaignStatus, b: CampaignStatus)
    requires a != b
    ensures StatusLabel(a) != StatusLabel(b)
  {
  }

  /** For text criteria this page and the meetings page read the same value. */
  lemma AgreesWithMeetingsPage(text: string, parse: JsonParser)
    ensures CriteriaOf(text, parse) == MeetingsPage.CriteriaOf(MeetingsPage.TextColumn(text), parse)
  {
  }
}

=== FILE: checklist.dfy ===
// The qualification checklist component
// (components/shared/QualificationChecklist.tsx): which criteria show as
// met, the "n / m met" counter, the all-met summary, and the change a click
// asks the parent for.

module Checklist {
  import opened Common

  /** `checklist.filter(item => item === true).length`. */
  function CheckedCount(checklist: seq<bool>): nat
  {
    Count(checklist, (b: bool) => b)
  }

  /** `checklist.length > 0 && checklist.every(item => item === true)`. */
  predicate AllChecked(checklist: seq<bool>)
  {
    |checklist| > 0 && forall i :: 0 <= i < |checklist| ==> checklist[i]
  }

  /** `checklist[index] === true`: an index past the end reads unchecked. */
  predicate IsChecked(checklist: seq<bool>, index: int)
  {
    0 <= index < |checklist| && checklist[index]
  }

  /** What the component renders: one checked flag per criterion, the
      counter, and the summary line (None when there are no criteria). */
  datatype View = View(items: seq<bool>, checkedCount: nat, criteriaCount: nat, summary: Option<bool>)

  function Render(criteria: seq<string>, checklist: seq<bool>): (v: View)
    ensures |v.items| == |criteria| && v.criteriaCount == |criteria|
    ensures forall i :: 0 <= i < |criteria| ==> v.items[i] == IsChecked(checklist, i)
    ensures v.summary.Some? <==> |criteria| > 0
    ensures v.checkedCount == CheckedCount(checklist) && v.checkedCount <= |checklist|
    ensures v.summary.Some? ==> (v.summary.value <==> AllChecked(checklist))
    ensures v.summary.Some? ==> (v.summary.value <==> |checklist| > 0 && v.checkedCount == |checklist|)
  {
    AllCheckedIffCountIsLength(checklist);
    View(seq(|criteria|, i requires 0 <= i < |criteria| => IsChecked(checklist, i)),
         CheckedCount(checklist), |criteria|,
         if |criteria| == 0 then None else Some(AllChecked(checklist)))
  }

  /** handleToggle: the call `onChange(index, !checklist[index])`, or None
      when the list is read-only or has no handler. `!undefined` is true, so
      an index past the end asks for checked. */
  function Toggle(checklist: seq<bool>, index: nat, readOnly: bool, hasHandler: bool): (call: Option<(nat, bool)>)
    ensures call.Some? <==> !readOnly && hasHandler
    ensures call.Some? ==> call.value == (index, !IsChecked(checklist, index))
  {
    if readOnly || !hasHandler then None
    else Some((index, !(index < |checklist| && checklist[index])))
  }

  // ---------------------------------------------------------------------
  // Properties
  // ---------------------------------------------------------------------

  /** All entries are checked exactly when the count of checked entries is
      the (non-zero) length of the list. */
  lemma {:induction false} AllCheckedIffCountIsLength(checklist: seq<bool>)
    ensures AllChecked(checklist) <==> |checklist| > 0 && CheckedCount(checklist) == |checklist|
  {
    if checklist != [] {
      var tail := checklist[1..];
      AllCheckedIffCountIsLength(tail);
      assert forall i :: 1 <= i < |checklist| ==> checklist[i] == tail[i - 1];
      if !checklist[0] {
        assert CheckedCount(checklist) == CheckedCount(tail);
      }
      if tail == [] {
        assert CheckedCount(tail) == 0;
      }
    }
  }

  /** The counter is bounded by the checklist, not by the criteria: two
      checked entries against one criterion read "2 / 1 met". */
  lemma CounterCanExceedCriteria()
    ensures var v := Render(["Budget confirmed"], [true, true]);
      v.checkedCount == 2 && v.criteriaCount == 1
  {
    assert [true, true][1..] == [true];
    assert [true][1..] == [];
  }

  /** The summary reads the checklist, not the criteria: a short list of
      true entries says every criterion is met while later criteria show
      unchecked. */
  lemma SummaryFollowsChecklistOnly()
    ensures var v := Render(["Budget", "Authority"], [true]);
      v.summary == Some(true) && v.items == [true, false]
  {
  }

  /** Without criteria nothing is listed and there is no summary line. */
  lemma NoCriteriaNoItems(checklist: seq<bool>)
    ensures Render([], checklist).items == [] && Render([], checklist).summary == None
  {
  }

  /** The value a click sends is the opposite of what the item shows. */
  lemma ToggleFlipsShownState(criteria: seq<string>, checklist: seq<bool>, index: nat)
    requires index < |criteria|
    ensures var call := Toggle(checklist, index, false, true);
      call == Some((index, !Render(criteria, checklist).items[index]))
  {
  }
}

=== FILE: common.dfy ===
// Shared vocabulary of the model: optional values, JSON values, and the
// JavaScript string and array operations the Valdi code relies on
// (split, join, trim, toLowerCase, includes, indexOf, filter, sort).

module Common {

  datatype Option<T> = None | Some(value: T)

  /** A JSON value as produced by JSON.parse (numbers restricted to integers). */
  datatype Json =
    | JNull
    | JBool(b: bool)
    | JNum(n: int)
    | JStr(s: string)
    | JArr(items: seq<Json>)
    | JObj(fields: map<string, Json>)

  /** JSON.parse: None when it throws a SyntaxError. */
  type JsonParser = string -> Option<Json>

  /** JavaScript truthiness of a JSON value (undefined is modelled as JNull). */
  predicate JsonTruthy(j: Json)
  {
    match j
    case JNull => false
    case JBool(b) => b
    case JNum(n) => n != 0
    case JStr(s) => s != ""
    case _ => true
  }

  /** Truthiness of an optional string: null, undefined and "" are falsy. */
  predicate Truthy(o: Option<string>)
  {
    o.Some? && o.value != ""
  }

  /** `a || b` on optional strings. */
  function Or(a: Option<string>, b: Option<string>): (r: Option<string>)
    ensures Truthy(a) ==> r == a
    ensures !Truthy(a) ==> r == b
  {
    if Truthy(a) then a else b
  }

  /** `s || null`: the empty string becomes null. */
  function NonEmpty(s: string): (r: Option<string>)
    ensures r.Some? <==> s != ""
    ensures r.Some? ==> r.value == s
  {
    if s == "" then None else Some(s)
  }

  // ---------------------------------------------------------------------
  // Sequences
  // ---------------------------------------------------------------------

  function Min(a: int, b: int): int
  {
    if a <= b then a else b
  }

  /** Array.prototype.filter. */
  function Filter<T>(xs: seq<T>, p: T -> bool): (r: seq<T>)
    ensures |r| <= |xs|
    ensures forall i :: 0 <= i < |r| ==> p(r[i])
    ensures forall x :: x in r ==> x in xs
  {
    if xs == [] then []
    else if p(xs[0]) then [xs[0]] + Filter(xs[1..], p)
    else Filter(xs[1..], p)
  }

  lemma {:induction false} FilterKeeps<T>(xs: seq<T>, p: T -> bool, x: T)
    requires x in xs && p(x)
    ensures x in Filter(xs, p)
  {
    if xs[0] != x {
      FilterKeeps(xs[1..], p, x);
    }
  }

  lemma {:induction false} FilterAppend<T>(xs: seq<T>, ys: seq<T>, p: T -> bool)
    ensures Filter(xs + ys, p) == Filter(xs, p) + Filter(ys, p)
  {
    if xs == [] {
      assert xs + ys == ys;
    } else {
      assert (xs + ys)[0] == xs[0];
      assert (xs + ys)[1..] == xs[1..] + ys;
      FilterAppend(xs[1..], ys, p);
    }
  }

  /** Nothing passes a filter that rejects every element. */
  lemma {:induction false} FilterNone<T>(xs: seq<T>, p: T -> bool)
    requires forall i :: 0 <= i < |xs| ==> !p(xs[i])
    ensures Filter(xs, p) == []
  {
    if xs != [] {
      FilterNone(xs[1..], p);
    }
  }

  /** Number of elements satisfying p. */
  function Count<T>(xs: seq<T>, p: T -> bool): (n: nat)
    ensures n <= |xs|
  {
    if xs == [] then 0 else (if p(xs[0]) then 1 else 0) + Count(xs[1..], p)
  }

  lemma {:induction false} CountIsFilterLength<T>(xs: seq<T>, p: T -> bool)
    ensures Count(xs, p) == |Filter(xs, p)|
  {
    if xs != [] {
      CountIsFilterLength(xs[1..], p);
    }
  }

  /** No element counts exactly when none satisfies p. */
  lemma {:induction false} CountZero<T>(xs: seq<T>, p: T -> bool)
    ensures Count(xs, p) == 0 <==> forall i :: 0 <= i < |xs| ==> !p(xs[i])
  {
    if xs != [] {
      CountZero(xs[1..], p);
      assert forall i :: 1 <= i < |xs| ==> xs[i] == xs[1..][i - 1];
    }
  }

  /** Array.prototype.indexOf with ===: the first position of x, or -1. */
  function IndexOf<T(==)>(xs: seq<T>, x: T): (i: int)
    ensures -1 <= i < |xs|
    ensures i == -1 <==> x !in xs
    ensures i >= 0 ==> xs[i] == x && x !in xs[..i]
  {
    if xs == [] then -1
    else if xs[0] == x then 0
    else
      var j := IndexOf(xs[1..], x);
      assert xs[1..] == xs[1..][..] && x !in xs[..1];
      if j == -1 then -1
      else
        assert xs[..j + 1] == xs[..1] + xs[1..][..j];
        j + 1
  }

  /** Stable insertion of x into a list already ordered by key. */
  function InsertByKey<T>(x: T, xs: seq<T>, key: T -> int): (r: seq<T>)
    ensures multiset(r) == multiset(xs) + multiset{x}
    ensures |r| == |xs| + 1
  {
    if xs == [] then [x]
    else if key(x) < key(xs[0]) then [x] + xs
    else
      assert xs == [xs[0]] + xs[1..];
      [xs[0]] + InsertByKey(x, xs[1..], key)
  }

  /** The first element after an insertion is x or the old first element. */
  lemma InsertByKeyHead<T>(x: T, xs: seq<T>, key: T -> int)
    ensures var r := InsertByKey(x, xs, key);
      r[0] == x || (xs != [] && r[0] == xs[0])
  {
  }

  lemma {:induction false} InsertByKeySorted<T>(x: T, xs: seq<T>, key: T -> int)
    requires SortedByKey(xs, key)
    ensures SortedByKey(InsertByKey(x, xs, key), key)
  {
    if xs != [] && key(x) >= key(xs[0]) {
      var tail := xs[1..];
      InsertByKeySorted(x, tail, key);
      var rest := InsertByKey(x, tail, key);
      InsertByKeyHead(x, tail, key);
      assert key(xs[0]) <= key(rest[0]);
      var r := [xs[0]] + rest;
      forall i, j | 0 <= i < j < |r|
        ensures key(r[i]) <= key(r[j])
      {
        if i > 0 {
          assert r[i] == rest[i - 1] && r[j] == rest[j - 1];
        } else {
          assert r[j] == rest[j - 1];
          assert key(rest[0]) <= key(rest[j - 1]) || j - 1 == 0;
        }
      }
    }
  }

  predicate SortedByKey<T>(xs: seq<T>, key: T -> int)
  {
    forall i, j :: 0 <= i < j < |xs| ==> key(xs[i]) <= key(xs[j])
  }

  /** ORDER BY key ascending: a permutation of xs, ordered by key. */
  function SortByKey<T>(xs: seq<T>, key: T -> int): (r: seq<T>)
    ensures multiset(r) == multiset(xs)
    ensures SortedByKey(r, key)
  {
    if xs == [] then []
    else
      assert xs == [xs[0]] + xs[1..];
      var sortedTail := SortByKey(xs[1..], key);
      InsertByKeySorted(xs[0], sortedTail, key);
      InsertByKey(xs[0], sortedTail, key)
  }

  // ---------------------------------------------------------------------
  // Colour tiers
  // ---------------------------------------------------------------------

  /** The green/yellow/red class a page gives a score or a rate. */
  datatype Tier = Red | Yellow | Green

  /** Green from `green` up, yellow from `yellow` up, red below. */
  function TierAt(v: int, green: int, yellow: int): (t: Tier)
    ensures t == Green <==> v >= green
    ensures t == Yellow <==> yellow <= v < green
    ensures t == Red <==> v < green && v < yellow
  {
    if v >= green then Green else if v >= yellow then Yellow else Red
  }

  function TierRank(t: Tier): nat
  {
    match t
    case Red => 0
    case Yellow => 1
    case Green => 2
  }

  /** A higher value never gets a lower tier. */
  lemma TierMonotone(a: int, b: int, green: int, yellow: int)
    requires a <= b
    ensures TierRank(TierAt(a, green, yellow)) <= TierRank(TierAt(b, green, yellow))
  {
  }

  // ---------------------------------------------------------------------
  // Strings
  // ---------------------------------------------------------------------

  /** The characters String.prototype.trim removes: ECMAScript's WhiteSpace
      (tab, vertical tab, form feed, the byte order mark and every space
      separator of Unicode category Zs) and its LineTerminator (line feed,
      carriage return, line and paragraph separators). */
  predicate IsSpace(c: char)
  {
    c == ' ' || c == '\t' || c == '\n' || c == '\r' || c == '\U{000B}' || c == '\U{000C}'
    || c == '\U{00A0}' || c == '\U{1680}' || ('\U{2000}' <= c <= '\U{200A}')
    || c == '\U{202F}' || c == '\U{205F}' || c == '\U{3000}'
    || c == '\U{FEFF}' || c == '\U{2028}' || c == '\U{2029}'
  }

  function TrimStart(s: string): (r: string)
    ensures |r| <= |s| && r == s[|s| - |r|..]
    ensures r == [] || !IsSpace(r[0])
    ensures forall i :: 0 <= i < |s| - |r| ==> IsSpace(s[i])
  {
    if s != [] && IsSpace(s[0]) then TrimStart(s[1..]) else s
  }

  function TrimEnd(s: string): (r: string)
    ensures |r| <= |s| && r == s[..|r|]
    ensures r == [] || !IsSpace(r[|r| - 1])
    ensures forall i :: |r| <= i < |s| ==> IsSpace(s[i])
  {
    if s != [] && IsSpace(s[|s| - 1]) then TrimEnd(s[..|s| - 1]) else s
  }

  /** String.prototype.trim. */
  function Trim(s: string): (r: string)
    ensures r == [] || (!IsSpace(r[0]) && !IsSpace(r[|r| - 1]))
    ensures |r| <= |s|
  {
    TrimEnd(TrimStart(s))
  }

  /** Trim only cuts white space off the ends: the result is the slice of the
      text starting at `start`, and every character outside it is white space. */
  lemma TrimCutsOnlyEnds(s: string) returns (start: nat)
    ensures start + |Trim(s)| <= |s| && Trim(s) == s[start..start + |Trim(s)|]
    ensures forall k :: 0 <= k < start ==> IsSpace(s[k])
    ensures forall k :: start + |Trim(s)| <= k < |s| ==> IsSpace(s[k])
  {
    var a := TrimStart(s);
    start := |s| - |a|;
    var r := TrimEnd(a);
    assert Trim(s) == r;
    assert s[start..start + |r|] == a[..|r|];
    forall k | start + |r| <= k < |s|
      ensures IsSpace(s[k])
    {
      assert s[k] == a[k - start];
    }
  }

  /** A blank string holds nothing but white space (`BlankIsTrimmedEmpty`:
      exactly when `s.trim() === ''`). */
  predicate IsBlank(s: string)
  {
    forall i :: 0 <= i < |s| ==> IsSpace(s[i])
  }

  lemma BlankIsTrimmedEmpty(s: string)
    ensures IsBlank(s) <==> Trim(s) == ""
  {
    var a := TrimStart(s);
    if a != [] {
      assert !IsSpace(a[0]) && a[0] == s[|s| - |a|];
    }
  }

  /** String.prototype.split with a one-character separator. */
  function Split(s: string, sep: char): (parts: seq<string>)
    ensures |parts| >= 1
    ensures forall i :: 0 <= i < |parts| ==> sep !in parts[i]
  {
    if s == [] then [""]
    else
      var rest := Split(s[1..], sep);
      if s[0] == sep then [""] + rest
      else [[s[0]] + rest[0]] + rest[1..]
  }

  /** Array.prototype.join with a one-character separator. */
  function Join(parts: seq<string>, sep: string): string
  {
    if parts == [] then ""
    else if |parts| == 1 then parts[0]
    else parts[0] + sep + Join(parts[1..], sep)
  }

  /** join undoes split. */
  lemma {:induction false} JoinSplit(s: string, sep: char)
    ensures Join(Split(s, sep), [sep]) == s
  {
    if s != [] {
      var rest := Split(s[1..], sep);
      JoinSplit(s[1..], sep);
      if s[0] == sep {
        assert Split(s, sep)[1..] == rest;
      } else {
        var parts := Split(s, sep);
        if |rest| > 1 {
          assert parts[1..] == rest[1..];
          assert Join(rest, [sep]) == rest[0] + [sep] + Join(rest[1..], [sep]);
        }
      }
    }
  }

  lemma {:induction false} SplitConcat(a: string, b: string, sep: char)
    requires sep !in a
    ensures Split(a + [sep] + b, sep) == [a] + Split(b, sep)
  {
    if a != [] {
      assert (a + [sep] + b)[1..] == a[1..] + [sep] + b;
      SplitConcat(a[1..], b, sep);
      assert a == [a[0]] + a[1..];
    } else {
      assert (a + [sep] + b)[1..] == b;
    }
  }

  lemma {:induction false} SplitNoSep(a: string, sep: char)
    requires sep !in a
    ensures Split(a, sep) == [a]
  {
    if a != [] {
      SplitNoSep(a[1..], sep);
      assert a == [a[0]] + a[1..];
    }
  }

  /** split undoes join when no part holds the separator. */
  lemma {:induction false} SplitJoin(parts: seq<string>, sep: char)
    requires |parts| >= 1
    requires forall i :: 0 <= i < |parts| ==> sep !in parts[i]
    ensures Split(Join(parts, [sep]), sep) == parts
  {
    if |parts| == 1 {
      SplitNoSep(parts[0], sep);
    } else {
      SplitJoin(parts[1..], sep);
      SplitConcat(parts[0], Join(parts[1..], [sep]), sep);
      assert parts == [parts[0]] + parts[1..];
    }
  }

  /** The last element of `s.split(sep)`: what follows the last separator. */
  lemma {:induction false} LastPartIsTail(s: string, sep: char)
    ensures var parts := Split(s, sep);
      var last := parts[|parts| - 1];
      sep !in last && |last| <= |s| && s[|s| - |last|..] == last
      && (|parts| == 1 ==> s == last)
      && (|parts| > 1 ==> |last| < |s| && s[|s| - |last| - 1] == sep)
  {
    if s != [] {
      var t := s[1..];
      LastPartIsTail(t, sep);
      var rest := Split(t, sep);
      var parts := Split(s, sep);
      var l := rest[|rest| - 1];
      assert t[|t| - |l|..] == l;
      assert s[|s| - |l|..] == t[|t| - |l|..];
      if s[0] == sep {
        assert parts[|parts| - 1] == l;
        if |rest| == 1 {
          assert s[|s| - |l| - 1] == s[0];
        } else {
          assert s[|s| - |l| - 1] == t[|t| - |l| - 1];
        }
      } else if |rest| == 1 {
        assert parts == [[s[0]] + rest[0]];
        assert s == [s[0]] + t;
      } else {
        assert parts[|parts| - 1] == l;
        assert s[|s| - |l| - 1] == t[|t| - |l| - 1];
      }
    }
  }

  function LowerChar(c: char): (d: char)
  {
    if 'A' <= c <= 'Z' then (c as int + 32) as char else c
  }

  /** String.prototype.toLowerCase on the ASCII letters. */
  function Lower(s: string): (r: string)
    ensures |r| == |s|
    ensures forall i :: 0 <= i < |s| ==> r[i] == LowerChar(s[i])
  {
    if s == [] then [] else [LowerChar(s[0])] + Lower(s[1..])
  }

  predicate StartsWith(s: string, prefix: string)
  {
    |prefix| <= |s| && s[..|prefix|] == prefix
  }

  /** String.prototype.includes. */
  predicate Contains(s: string, sub: string)
  {
    StartsWith(s, sub) || (s != [] && Contains(s[1..], sub))
  }

  lemma {:induction false} ContainsAt(s: string, sub: string, i: nat)
    requires i + |sub| <= |s| && s[i..i + |sub|] == sub
    ensures Contains(s, sub)
  {
    if i > 0 {
      assert s[1..][i - 1..i - 1 + |sub|] == sub;
      ContainsAt(s[1..], sub, i - 1);
    }
  }

  lemma {:induction false} ContainsWitness(s: string, sub: string) returns (i: nat)
    requires Contains(s, sub)
    ensures i + |sub| <= |s| && s[i..i + |sub|] == sub
  {
    if StartsWith(s, sub) {
      i := 0;
    } else {
      var j := ContainsWitness(s[1..], sub);
      i := j + 1;
      assert s[i..i + |sub|] == s[1..][j..j + |sub|];
    }
  }

  /** A string does not contain sub when, at every position where sub would
      fit, the character k places further on differs from sub[k]. */
  lemma {:induction false} NotContainsAt(s: string, sub: string, k: nat)
    requires k < |sub|
    requires forall j :: k <= j < |s| && j - k + |sub| <= |s| ==> s[j] != sub[k]
    ensures !Contains(s, sub)
  {
    if s != [] {
      assert forall j :: k <= j < |s[1..]| ==> s[1..][j] == s[j + 1];
      NotContainsAt(s[1..], sub, k);
    }
  }

  /** A string does not contain sub when one of sub's characters never occurs in it. */
  lemma NotContainsChar(s: string, sub: string, k: nat)
    requires k < |sub| && sub[k] !in s
    ensures !Contains(s, sub)
  {
    NotContainsAt(s, sub, k);
  }

  lemma ContainsTransitive(a: string, b: string, c: string)
    requires Contains(a, b) && Contains(b, c)
    ensures Contains(a, c)
  {
    var i := ContainsWitness(a, b);
    var j := ContainsWitness(b, c);
    assert forall k :: 0 <= k < |b| ==> a[i + k] == b[k];
    assert a[i + j..i + j + |c|] == b[j..j + |c|];
    ContainsAt(a, c, i + j);
  }

  /** A joined list contains each of its parts. */
  lemma {:induction false} JoinContainsPart(parts: seq<string>, sep: string, k: nat)
    requires k < |parts|
    ensures Contains(Join(parts, sep), parts[k])
  {
    if |parts| == 1 {
      ContainsInfix("", parts[0], "");
      assert "" + parts[0] + "" == parts[0];
    } else if k == 0 {
      ContainsInfix("", parts[0], sep + Join(parts[1..], sep));
      assert "" + parts[0] + (sep + Join(parts[1..], sep)) == Join(parts, sep);
    } else {
      JoinContainsPart(parts[1..], sep, k - 1);
      ContainsInfix(parts[0] + sep, Join(parts[1..], sep), "");
      assert parts[0] + sep + Join(parts[1..], sep) + "" == Join(parts, sep);
      ContainsTransitive(Join(parts, sep), Join(parts[1..], sep), parts[k]);
    }
  }

  /** Text around a joined list still contains each of the list's parts. */
  lemma ContainsJoinedPart(head: string, parts: seq<string>, sep: string, tail: string, k: nat)
    requires k < |parts|
    ensures Contains(head + Join(parts, sep) + tail, parts[k])
  {
    JoinContainsPart(parts, sep, k);
    ContainsInfix(head, Join(parts, sep), tail);
    ContainsTransitive(head + Join(parts, sep) + tail, Join(parts, sep), parts[k]);
  }

  lemma {:induction false} ContainsInfix(a: string, sub: string, b: string)
    ensures Contains(a + sub + b, sub)
  {
    assert (a + sub + b)[|a|..|a| + |sub|] == sub;
    ContainsAt(a + sub + b, sub, |a|);
  }

  // ---------------------------------------------------------------------
  // Numbers rendered as text
  // ---------------------------------------------------------------------

  function DigitChar(d: nat): (c: char)
    requires d < 10
    ensures '0' <= c <= '9' && c as int - '0' as int == d
  {
    ('0' as int + d) as char
  }

  predicate IsDigits(s: string)
  {
    forall i :: 0 <= i < |s| ==> '0' <= s[i] <= '9'
  }

  lemma DigitsExclude(s: string, c: char)
    requires IsDigits(s) && !('0' <= c <= '9')
    ensures c !in s
  {
    assert forall i :: 0 <= i < |s| ==> s[i] != c;
  }

  /** Decimal rendering of a natural number (String(n) / `${n}`). */
  function NatToString(n: nat): (s: string)
    ensures |s| >= 1 && IsDigits(s)
  {
    if n < 10 then [DigitChar(n)] else NatToString(n / 10) + [DigitChar(n % 10)]
  }

  /** `${n}` for an integer. */
  function IntToString(n: int): (s: string)
    ensures |s| >= 1
  {
    if n < 0 then "-" + NatToString(-n) else NatToString(n)
  }

  /** Value of a string of decimal digits. */
  function DigitsValue(s: string): nat
    requires IsDigits(s)
  {
    if s == [] then 0 else 10 * DigitsValue(s[..|s| - 1]) + (s[|s| - 1] as int - '0' as int)
  }

  lemma {:induction false} DigitsValueOfNatToString(n: nat)
    ensures DigitsValue(NatToString(n)) == n
  {
    if n >= 10 {
      DigitsValueOfNatToString(n / 10);
      var s := NatToString(n);
      assert s == NatToString(n / 10) + [DigitChar(n % 10)];
      assert s[..|s| - 1] == NatToString(n / 10);
      assert s[|s| - 1] as int - '0' as int == n % 10;
    }
  }

  /** Distinct numbers render as distinct texts. */
  lemma NatToStringInjective(m: nat, n: nat)
    requires NatToString(m) == NatToString(n)
    ensures m == n
  {
    DigitsValueOfNatToString(m);
    DigitsValueOfNatToString(n);
  }

  // ---------------------------------------------------------------------
  // Encoded lengths
  // ---------------------------------------------------------------------

  /** Number of bytes of c in UTF-8 (Buffer.from(string)). */
  function Utf8Width(c: char): nat
  {
    if c as int < 0x80 then 1 else if c as int < 0x800 then 2 else if c as int < 0x10000 then 3 else 4
  }

  function Utf8Length(s: string): (n: nat)
    ensures n >= |s|
  {
    if s == [] then 0 else Utf8Width(s[0]) + Utf8Length(s[1..])
  }

  /** String.prototype.length: characters outside the BMP take two code units. */
  function Utf16Length(s: string): (n: nat)
    ensures |s| <= n <= 2 * |s|
  {
    if s == [] then 0 else (if s[0] as int < 0x10000 then 1 else 2) + Utf16Length(s[1..])
  }

  // ---------------------------------------------------------------------
  // Names
  // ---------------------------------------------------------------------

  /** `name.split(' ')[0] || null` and `name.split(' ').slice(1).join(' ') || null`. */
  function SplitName(name: string): (r: (Option<string>, Option<string>))
    ensures r.0.Some? ==> r.0.value != "" && ' ' !in r.0.value
    ensures r.1.Some? ==> r.1.value != ""
  {
    var parts := Split(name, ' ');
    (NonEmpty(parts[0]), NonEmpty(Join(parts[1..], " ")))
  }

  /** When both halves are present, first name, a space and last name give back the name. */
  lemma SplitNameRejoins(name: string)
    ensures var (first, last) := SplitName(name);
      first.Some? && last.Some? ==> name == first.value + " " + last.value
  {
    var parts := Split(name, ' ');
    JoinSplit(name, ' ');
    if |parts| == 1 {
      assert Join(parts[1..], " ") == "";
    }
  }
}

=== FILE: company_criteria.dfy ===
// Company (prospect) criteria of lib/company-criteria.ts: a lead's revenue,
// head count and industry checked against the ranges and industry names a
// campaign stores, with a percentage score over the criteria that could be
// checked at all.

module CompanyCriteria {
  import opened Common

  /** `{ min?, max?, equals? }`: each bound is absent or a number. */
  datatype Range = Range(min: Option<int>, max: Option<int>, equals: Option<int>)

  /** `industry?: string | string[]` */
  datatype IndustrySpec = One(name: string) | AnyOf(names: seq<string>)

  /** The stored criteria. `extra` holds every other key the index signature
      `[key: string]: any` lets through. */
  datatype Criteria = Criteria(
    revenue: Option<Range>,
    employees: Option<Range>,
    industry: Option<IndustrySpec>,
    extra: map<string, Json>)

  /** The lead's figures; None is `undefined`. */
  datatype LeadData = LeadData(revenue: Option<int>, employees: Option<int>, industry: Option<string>)

  /** `matched_criteria` keeps the keys in insertion order, as a JavaScript object does. */
  datatype CriteriaMatch = CriteriaMatch(matched: seq<(string, bool)>, score: int, allMet: bool)

  // ---------------------------------------------------------------------
  // What each criterion means
  // ---------------------------------------------------------------------

  /** A range holds of v when v equals `equals` if that is given, and
      otherwise when a minimum is given, v reaches it, and v does not pass
      the maximum if one is given. */
  predicate RangeHolds(r: Range, v: int)
  {
    if r.equals.Some? then v == r.equals.value
    else r.min.Some? && r.min.value <= v && (r.max.None? || v <= r.max.value)
  }

  /** `criteria.industry` is truthy: a non-empty name, or any list. */
  predicate IndustryGiven(spec: IndustrySpec)
  {
    spec.One? ==> spec.name != ""
  }

  /** The lead's industry contains, ignoring case, the named industry or one of the named ones. */
  predicate IndustryHolds(spec: IndustrySpec, industry: string)
  {
    match spec
    case One(name) => Contains(Lower(industry), Lower(name))
    case AnyOf(names) => exists i :: 0 <= i < |names| && Contains(Lower(industry), Lower(names[i]))
  }

  predicate RevenueCounted(c: Criteria, lead: LeadData)
  {
    c.revenue.Some? && lead.revenue.Some?
  }

  predicate EmployeesCounted(c: Criteria, lead: LeadData)
  {
    c.employees.Some? && lead.employees.Some?
  }

  predicate IndustryCounted(c: Criteria, lead: LeadData)
  {
    c.industry.Some? && IndustryGiven(c.industry.value) && Truthy(lead.industry)
  }

  function RevenueEntry(c: Criteria, lead: LeadData): seq<(string, bool)>
  {
    if RevenueCounted(c, lead) then [("revenue", RangeHolds(c.revenue.value, lead.revenue.value))] else []
  }

  function EmployeesEntry(c: Criteria, lead: LeadData): seq<(string, bool)>
  {
    if EmployeesCounted(c, lead) then [("employees", RangeHolds(c.employees.value, lead.employees.value))] else []
  }

  function IndustryEntry(c: Criteria, lead: LeadData): seq<(string, bool)>
  {
    if IndustryCounted(c, lead) then [("industry", IndustryHolds(c.industry.value, lead.industry.value))] else []
  }

  /** The `matched_criteria` entries the evaluation should produce, in order. */
  function ExpectedMatches(c: Criteria, lead: LeadData): seq<(string, bool)>
  {
    RevenueEntry(c, lead) + EmployeesEntry(c, lead) + IndustryEntry(c, lead)
  }

  /** The number of entries that matched. */
  function MetCount(ms: seq<(string, bool)>): (n: nat)
    ensures n <= |ms|
  {
    if ms == [] then 0 else MetCount(ms[..|ms| - 1]) + (if ms[|ms| - 1].1 then 1 else 0)
  }

  /** `Math.round(matched / total * 100)`, or 0 when nothing was counted. */
  function Percent(matched: nat, total: nat): (r: int)
    ensures total == 0 ==> r == 0
    ensures matched <= total ==> 0 <= r <= 100
  {
    if total == 0 then 0
    else
      PercentBound(matched, total);
      (200 * matched + total) / (2 * total)
  }

  lemma PercentBound(matched: nat, total: nat)
    requires total > 0
    ensures 0 <= (200 * matched + total) / (2 * total)
    ensures matched <= total ==> (200 * matched + total) / (2 * total) <= 100
  {
    var d: nat := 2 * total;
    var q := 200 * matched + total;
    var r := q / d;
    assert q == d * r + q % d && 0 <= q % d < d;
    if matched <= total && r > 100 {
      MulMonotone(d, 101, r);
      assert false;
    }
  }

  // ---------------------------------------------------------------------
  // The evaluation, step by step
  // ---------------------------------------------------------------------

  /** The three steps of a range check: a minimum sets the verdict, a maximum
      can only revoke it, and `equals` overrides both. */
  method MatchRange(r: Range, v: int) returns (matched: bool)
    ensures matched == RangeHolds(r, v)
  {
    matched := false;
    if r.min.Some? {
      matched := v >= r.min.value;
    }
    if r.max.Some? && matched {
      matched := v <= r.max.value;
    }
    if r.equals.Some? {
      matched := v == r.equals.value;
    }
  }

  /** `names.some(ind => industry.toLowerCase().includes(ind.toLowerCase()))` */
  function SomeIncluded(industry: string, names: seq<string>): (b: bool)
    ensures b <==> exists i :: 0 <= i < |names| && Contains(Lower(industry), Lower(names[i]))
  {
    if names == [] then false
    else if Contains(Lower(industry), Lower(names[0])) then true
    else
      var rest := SomeIncluded(industry, names[1..]);
      assert forall i :: 1 <= i < |names| ==> names[i] == names[1..][i - 1];
      rest
  }

  /** A list matches when some entry does; a single name when it is contained. */
  method MatchIndustry(spec: IndustrySpec, industry: string) returns (matched: bool)
    ensures matched == IndustryHolds(spec, industry)
  {
    if spec.AnyOf? {
      matched := SomeIncluded(industry, spec.names);
    } else {
      matched := Contains(Lower(industry), Lower(spec.name));
    }
  }

  /** One checked criterion: `totalCriteria++`, `matchedCriteria[key] = matched`,
      and `matchedCount++` when it matched. */
  method Tally(entries: seq<(string, bool)>, total: nat, count: nat, key: string, matched: bool)
    returns (entries': seq<(string, bool)>, total': nat, count': nat)
    requires total == |entries| && count == MetCount(entries)
    ensures entries' == entries + [(key, matched)]
    ensures total' == |entries'| && count' == MetCount(entries')
  {
    MetCountSnoc(entries, (key, matched));
    total' := total + 1;
    entries' := entries + [(key, matched)];
    count' := if matched then count + 1 else count;
  }

  /** The revenue check: counted when both sides give a revenue. */
  method CheckRevenue(c: Criteria, lead: LeadData, entries: seq<(string, bool)>, total: nat, count: nat)
    returns (entries': seq<(string, bool)>, total': nat, count': nat)
    requires total == |entries| && count == MetCount(entries)
    ensures entries' == entries + RevenueEntry(c, lead)
    ensures total' == |entries'| && count' == MetCount(entries')
  {
    entries', total', count' := entries, total, count;
    if c.revenue.Some? && lead.revenue.Some? {
      var matched := MatchRange(c.revenue.value, lead.revenue.value);
      entries', total', count' := Tally(entries, total, count, "revenue", matched);
    } else {
      assert entries + RevenueEntry(c, lead) == entries;
    }
  }

  /** The employee check: counted when both sides give a head count. */
  method CheckEmployees(c: Criteria, lead: LeadData, entries: seq<(string, bool)>, total: nat, count: nat)
    returns (entries': seq<(string, bool)>, total': nat, count': nat)
    requires total == |entries| && count == MetCount(entries)
    ensures entries' == entries + EmployeesEntry(c, lead)
    ensures total' == |entries'| && count' == MetCount(entries')
  {
    entries', total', count' := entries, total, count;
    if c.employees.Some? && lead.employees.Some? {
      var matched := MatchRange(c.employees.value, lead.employees.value);
      entries', total', count' := Tally(entries, total, count, "employees", matched);
    } else {
      assert entries + EmployeesEntry(c, lead) == entries;
    }
  }

  /** The industry check: counted when the campaign names an industry and the
      lead's industry is non-empty. */
  method CheckIndustry(c: Criteria, lead: LeadData, entries: seq<(string, bool)>, total: nat, count: nat)
    returns (entries': seq<(string, bool)>, total': nat, count': nat)
    requires total == |entries| && count == MetCount(entries)
    ensures entries' == entries + IndustryEntry(c, lead)
    ensures total' == |entries'| && count' == MetCount(entries')
  {
    entries', total', count' := entries, total, count;
    if c.industry.Some? && IndustryGiven(c.industry.value) && Truthy(lead.industry) {
      var matched := MatchIndustry(c.industry.value, lead.industry.value);
      entries', total', count' := Tally(entries, total, count, "industry", matched);
    } else {
      assert entries + IndustryEntry(c, lead) == entries;
    }
  }

  /** The three checks of evaluateCompanyCriteria, in order, with their counters. */
  method CheckCriteria(c: Criteria, lead: LeadData)
    returns (matchedCriteria: seq<(string, bool)>, totalCriteria: nat, matchedCount: nat)
    ensures matchedCriteria == ExpectedMatches(c, lead)
    ensures totalCriteria == |matchedCriteria| && matchedCount == MetCount(matchedCriteria)
  {
    matchedCriteria, totalCriteria, matchedCount := CheckRevenue(c, lead, [], 0, 0);
    matchedCriteria, totalCriteria, matchedCount := CheckEmployees(c, lead, matchedCriteria, totalCriteria, matchedCount);
    matchedCriteria, totalCriteria, matchedCount := CheckIndustry(c, lead, matchedCriteria, totalCriteria, matchedCount);
    assert [] + RevenueEntry(c, lead) == RevenueEntry(c, lead);
  }

  method EvaluateCompanyCriteria(c: Criteria, lead: LeadData) returns (r: CriteriaMatch)
    ensures r.matched == ExpectedMatches(c, lead)
    ensures r.score == Percent(MetCount(r.matched), |r.matched|)
    ensures r.allMet <==> MetCount(r.matched) == |r.matched| > 0
  {
    var matchedCriteria, totalCriteria, matchedCount := CheckCriteria(c, lead);
    r := CriteriaMatch(matchedCriteria, Percent(matchedCount, totalCriteria),
                       matchedCount == totalCriteria && totalCriteria > 0);
  }

  lemma MetCountSnoc(ms: seq<(string, bool)>, m: (string, bool))
    ensures MetCount(ms + [m]) == MetCount(ms) + (if m.1 then 1 else 0)
  {
    assert (ms + [m])[..|ms|] == ms;
  }

  // ---------------------------------------------------------------------
  // Parsing the stored value
  // ---------------------------------------------------------------------

  /** parseCompanyCriteria: JNull stands for null. A falsy value gives null, an
      object is returned as it is, a string is whatever JSON.parse makes of it
      (null when that throws), and anything else, arrays included, is null. */
  function ParseCompanyCriteria(stored: Json, parse: JsonParser): (r: Json)
    ensures !JsonTruthy(stored) ==> r == JNull
    ensures stored.JObj? ==> r == stored
    ensures stored.JArr? || stored.JNum? || stored.JBool? ==> r == JNull
    ensures stored.JStr? && stored.s != "" ==> r == (if parse(stored.s).Some? then parse(stored.s).value else JNull)
  {
    if !JsonTruthy(stored) then JNull
    else if stored.JObj? then stored
    else if stored.JStr? then
      match parse(stored.s)
      case Some(j) => j
      case None => JNull
    else JNull
  }

  // ---------------------------------------------------------------------
  // Properties
  // ---------------------------------------------------------------------

  /** A criterion gets a key exactly when both the campaign and the lead give a value for it. */
  lemma CountedCriteriaGetKeys(c: Criteria, lead: LeadData)
    ensures var ms := ExpectedMatches(c, lead);
      ((exists i :: 0 <= i < |ms| && ms[i].0 == "revenue") <==> RevenueCounted(c, lead))
      && ((exists i :: 0 <= i < |ms| && ms[i].0 == "employees") <==> EmployeesCounted(c, lead))
      && ((exists i :: 0 <= i < |ms| && ms[i].0 == "industry") <==> IndustryCounted(c, lead))
      && |ms| <= 3
  {
    var ms := ExpectedMatches(c, lead);
    if RevenueCounted(c, lead) {
      assert ms[0].0 == "revenue";
    }
    if EmployeesCounted(c, lead) {
      var k := if RevenueCounted(c, lead) then 1 else 0;
      assert ms[k].0 == "employees";
    }
    if IndustryCounted(c, lead) {
      assert ms[|ms| - 1].0 == "industry";
    }
  }

  /** Without a minimum and without `equals` a range never matches, whatever its maximum. */
  lemma MaxOnlyNeverMatches(max: Option<int>, v: int)
    ensures !RangeHolds(Range(None, max, None), v)
  {
  }

  /** With a minimum and no `equals`, the range is the closed interval [min, max]
      (unbounded above when there is no maximum). */
  lemma MinMaxIsClosedInterval(min: int, max: Option<int>, v: int)
    ensures RangeHolds(Range(Some(min), max, None), v) <==> min <= v && (max.None? || v <= max.value)
  {
  }

  /** `equals` overrides the bounds: it matches exactly the equal value, even outside [min, max]. */
  lemma EqualsOverrides(r: Range, v: int)
    requires r.equals.Some?
    ensures RangeHolds(r, v) <==> v == r.equals.value
  {
  }

  /** Industry matching ignores the case of both sides. */
  lemma IndustryIgnoresCase(name: string, industry: string)
    ensures IndustryHolds(One(name), industry) <==> IndustryHolds(One(Lower(name)), Lower(industry))
  {
    LowerIdempotent(name);
    LowerIdempotent(industry);
  }

  lemma LowerIdempotent(s: string)
    ensures Lower(Lower(s)) == Lower(s)
  {
    assert forall i :: 0 <= i < |s| ==> LowerChar(LowerChar(s[i])) == LowerChar(s[i]);
  }

  /** Every entry matched exactly when the met count reaches the number of entries. */
  lemma {:induction false} MetCountAll(ms: seq<(string, bool)>)
    ensures MetCount(ms) == |ms| <==> forall i :: 0 <= i < |ms| ==> ms[i].1
  {
    if ms != [] {
      var init := ms[..|ms| - 1];
      MetCountAll(init);
      assert forall i :: 0 <= i < |init| ==> init[i] == ms[i];
    }
  }

  /** `all_met` holds exactly when at least one criterion was checked and all of them matched. */
  lemma AllMetMeansEveryCheckedCriterion(ms: seq<(string, bool)>)
    ensures (MetCount(ms) == |ms| > 0) <==> |ms| > 0 && forall i :: 0 <= i < |ms| ==> ms[i].1
  {
    MetCountAll(ms);
  }

  /** The score is the percentage rounded half up: the nearest integer to 100·matched/total. */
  lemma PercentIsNearest(matched: nat, total: nat)
    requires 0 < total && matched <= total
    ensures var s := Percent(matched, total);
      0 <= s <= 100 && 2 * total * s - total <= 200 * matched < 2 * total * s + total
  {
    var d: nat := 2 * total;
    var q := 200 * matched + total;
    var s := q / d;
    var rem := q % d;
    assert q == d * s + rem && 0 <= rem < d;
    assert d * s == 2 * total * s;
    if s > 100 {
      MulMonotone(d, 101, s);
      assert false;
    }
    if s < 0 {
      MulMonotone(d, s, -1);
      assert false;
    }
  }

  lemma MulMonotone(d: nat, a: int, b: int)
    requires a <= b
    ensures d * a <= d * b
  {
    assert d * b - d * a == d * (b - a);
  }

  /** With at most three criteria the score is one of 0, 33, 50, 67 and 100. */
  lemma ScoreValues(matched: nat, total: nat)
    requires matched <= total <= 3
    ensures Percent(matched, total) in {0, 33, 50, 67, 100}
  {
    if total == 1 {
      assert Percent(matched, total) == 100 * matched;
    } else if total == 2 {
      assert Percent(matched, total) == (200 * matched + 2) / 4;
    } else if total == 3 {
      assert Percent(matched, total) == (200 * matched + 3) / 6;
    }
  }

  /** Keys beyond revenue, employees and industry never change the evaluation. */
  lemma ExtraKeysIgnored(c: Criteria, lead: LeadData, extra: map<string, Json>)
    ensures ExpectedMatches(c.(extra := extra), lead) == ExpectedMatches(c, lead)
  {
  }

  /** A string holding a JSON array comes back as that array, although an array
      stored directly is refused. */
  lemma StringifiedArrayPassesThrough(items: seq<Json>, text: string, parse: JsonParser)
    requires text != "" && parse(text) == Some(JArr(items))
    ensures ParseCompanyCriteria(JStr(text), parse) == JArr(items)
    ensures ParseCompanyCriteria(JArr(items), parse) == JNull
  {
  }
}

=== FILE: deepgram.dfy ===
// The Deepgram real-time transcription helpers (lib/deepgram.ts): decoding
// one streaming result message, and the WebSocket URL handed to Twilio
// Media Streams.

module Deepgram {
  import opened Common

  // ---------------------------------------------------------------------
  // JavaScript property access on parsed JSON
  // ---------------------------------------------------------------------

  /** `v[key]` on a value that is not null: the field of an object, undefined (None) otherwise. */
  function Get(v: Json, key: string): Option<Json>
  {
    if v.JObj? && key in v.fields then Some(v.fields[key]) else None
  }

  /** `v[i]`: an array element, a one-character string, an object's field
      named by the index; undefined (None) otherwise. */
  function Index(v: Json, i: int): Option<Json>
  {
    match v
    case JArr(xs) => if 0 <= i < |xs| then Some(xs[i]) else None
    case JStr(s) => if 0 <= i < |s| then Some(JStr([s[i]])) else None
    case JObj(fields) => if IntToString(i) in fields then Some(fields[IntToString(i)]) else None
    case _ => None
  }

  /** `v.length` of an array or a string; undefined (None) for the rest. */
  function Length(v: Json): Option<int>
  {
    match v
    case JArr(xs) => Some(|xs|)
    case JStr(s) => Some(|s|)
    case _ => None
  }

  /** `a || d` where a may be undefined. */
  function OrElse(a: Option<Json>, d: Json): (r: Json)
    ensures a.Some? && JsonTruthy(a.value) ==> r == a.value
    ensures !(a.Some? && JsonTruthy(a.value)) ==> r == d
  {
    if a.Some? && JsonTruthy(a.value) then a.value else d
  }

  /** `a?.key`: undefined when a is undefined or null. */
  function Chain(a: Option<Json>, key: string): Option<Json>
  {
    if a.None? || a.value == JNull then None else Get(a.value, key)
  }

  /** `a?.[i]`. */
  function ChainIndex(a: Option<Json>, i: int): Option<Json>
  {
    if a.None? || a.value == JNull then None else Index(a.value, i)
  }

  /** `v.toString()` on a value that is not null. */
  function ToStr(v: Json): string
    decreases v
  {
    match v
    case JNull => "null"
    case JBool(b) => if b then "true" else "false"
    case JNum(n) => IntToString(n)
    case JStr(s) => s
    case JArr(xs) => Join(seq(|xs|, i requires 0 <= i < |xs| => if xs[i] == JNull then "" else ToStr(xs[i])), ",")
    case JObj(_) => "[object Object]"
  }

  // ---------------------------------------------------------------------
  // parseTranscriptionResult
  // ---------------------------------------------------------------------

  /** TranscriptionResult; the fields keep the JSON values they were read from. */
  datatype TranscriptionResult = TranscriptionResult(
    transcript: Json,
    confidence: Json,
    speaker: Option<string>,
    isFinal: Json,
    start: Json,
    end: Json)

  /** `data.channel.alternatives[0]` when the checks before it pass: None when
      the message has no channel, no alternatives or an empty list of them. */
  function FirstAlternative(data: Json): (r: Option<Json>)
    ensures r.Some? ==> var channel := Get(data, "channel");
      channel.Some? && JsonTruthy(channel.value)
      && Get(channel.value, "alternatives").Some? && Length(Get(channel.value, "alternatives").value) != Some(0)
  {
    if data == JNull then None
    else
      var channel := Get(data, "channel");
      if channel.None? || !JsonTruthy(channel.value) then None
      else
        var alternatives := Get(channel.value, "alternatives");
        if alternatives.None? || !JsonTruthy(alternatives.value) then None
        else if Length(alternatives.value) == Some(0) then None
        else Index(alternatives.value, 0)
  }

  /** The speaker shown for a result: the first word's speaker as text, or
      nothing when it is missing or renders as ''. */
  function SpeakerOf(alternative: Json): (r: Option<string>)
    ensures r.Some? ==> r.value != ""
  {
    var speaker := Chain(ChainIndex(Chain(Some(alternative), "words"), 0), "speaker");
    if speaker.None? || speaker.value == JNull then None
    else
      var s := ToStr(speaker.value);
      if s == "" then None else Some(s)
  }

  /** parseTranscriptionResult; None where the source returns null, also when
      reading the first alternative throws (it is missing or null). */
  function ParseTranscriptionResult(data: Json): (r: Option<TranscriptionResult>)
    ensures r.None? <==> FirstAlternative(data).None? || FirstAlternative(data).value == JNull
    ensures r.Some? ==> r.value.transcript == OrElse(Get(FirstAlternative(data).value, "transcript"), JStr(""))
    ensures r.Some? ==> r.value.isFinal == OrElse(Get(data, "is_final"), JBool(false))
  {
    var alternative := FirstAlternative(data);
    if alternative.None? || alternative.value == JNull then None
    else
      var alt := alternative.value;
      var words := OrElse(Get(alt, "words"), JArr([]));
      var last := if Length(words).Some? then Index(words, Length(words).value - 1) else None;
      Some(TranscriptionResult(
        OrElse(Get(alt, "transcript"), JStr("")),
        OrElse(Get(alt, "confidence"), JNum(0)),
        SpeakerOf(alt),
        OrElse(Get(data, "is_final"), JBool(false)),
        OrElse(Chain(Index(words, 0), "start"), JNum(0)),
        OrElse(Chain(last, "end"), JNum(0))))
  }

  // ---------------------------------------------------------------------
  // The messages Deepgram sends
  // ---------------------------------------------------------------------

  /** One recognised word. */
  datatype Word = Word(start: int, end: int, speaker: Option<int>)

  function WordJson(w: Word): Json
  {
    var base := map["start" := JNum(w.start), "end" := JNum(w.end)];
    JObj(if w.speaker.Some? then base["speaker" := JNum(w.speaker.value)] else base)
  }

  /** The words of an alternative as JSON. */
  function WordsJson(words: seq<Word>): seq<Json>
  {
    seq(|words|, i requires 0 <= i < |words| => WordJson(words[i]))
  }

  /** The one alternative of a result message. */
  function Alternative(transcript: string, confidence: int, words: seq<Word>): Json
  {
    JObj(map["transcript" := JStr(transcript), "confidence" := JNum(confidence), "words" := JArr(WordsJson(words))])
  }

  /** A result message with one alternative. */
  function Message(transcript: string, confidence: int, words: seq<Word>, isFinal: bool): Json
  {
    JObj(map["channel" := JObj(map["alternatives" := JArr([Alternative(transcript, confidence, words)])]),
             "is_final" := JBool(isFinal)])
  }

  lemma WordFields(w: Word)
    ensures Get(WordJson(w), "start") == Some(JNum(w.start))
    ensures Get(WordJson(w), "end") == Some(JNum(w.end))
    ensures Get(WordJson(w), "speaker") == if w.speaker.Some? then Some(JNum(w.speaker.value)) else None
  {
  }

  lemma MessageParts(transcript: string, confidence: int, words: seq<Word>, isFinal: bool)
    ensures FirstAlternative(Message(transcript, confidence, words, isFinal)) == Some(Alternative(transcript, confidence, words))
    ensures Get(Message(transcript, confidence, words, isFinal), "is_final") == Some(JBool(isFinal))
  {
    var alternatives := JArr([Alternative(transcript, confidence, words)]);
    assert Get(Message(transcript, confidence, words, isFinal), "channel") == Some(JObj(map["alternatives" := alternatives]));
  }

  lemma AlternativeParts(transcript: string, confidence: int, words: seq<Word>)
    ensures var alt := Alternative(transcript, confidence, words);
      Get(alt, "transcript") == Some(JStr(transcript))
      && Get(alt, "confidence") == Some(JNum(confidence))
      && Get(alt, "words") == Some(JArr(WordsJson(words)))
  {
  }

  /** Decoding a message gives back its transcript, confidence and finality,
      the first word's start, the last word's end and the first word's
      speaker; with no words, start and end are 0 and there is no speaker. */
  lemma ParseMessage(transcript: string, confidence: int, words: seq<Word>, isFinal: bool)
    ensures ParseTranscriptionResult(Message(transcript, confidence, words, isFinal)) ==
      Some(TranscriptionResult(
        JStr(transcript), JNum(confidence),
        if words != [] && words[0].speaker.Some? then Some(IntToString(words[0].speaker.value)) else None,
        JBool(isFinal),
        JNum(if words != [] then words[0].start else 0),
        JNum(if words != [] then words[|words| - 1].end else 0)))
  {
    var alt := Alternative(transcript, confidence, words);
    MessageParts(transcript, confidence, words, isFinal);
    AlternativeParts(transcript, confidence, words);
    assert OrElse(Get(alt, "transcript"), JStr("")) == JStr(transcript);
    assert OrElse(Get(alt, "confidence"), JNum(0)) == JNum(confidence);
    assert OrElse(Some(JBool(isFinal)), JBool(false)) == JBool(isFinal);
    WordsDecoded(transcript, confidence, words);
  }

  /** The word-derived fields of a message's alternative. */
  lemma WordsDecoded(transcript: string, confidence: int, words: seq<Word>)
    ensures var alt := Alternative(transcript, confidence, words);
      var ws := OrElse(Get(alt, "words"), JArr([]));
      var last := if Length(ws).Some? then Index(ws, Length(ws).value - 1) else None;
      SpeakerOf(alt) == (if words != [] && words[0].speaker.Some? then Some(IntToString(words[0].speaker.value)) else None)
      && OrElse(Chain(Index(ws, 0), "start"), JNum(0)) == JNum(if words != [] then words[0].start else 0)
      && OrElse(Chain(last, "end"), JNum(0)) == JNum(if words != [] then words[|words| - 1].end else 0)
  {
    var alt := Alternative(transcript, confidence, words);
    var ws := WordsJson(words);
    AlternativeParts(transcript, confidence, words);
    assert OrElse(Get(alt, "words"), JArr([])) == JArr(ws);
    if words != [] {
      WordFields(words[0]);
      WordFields(words[|words| - 1]);
      assert Index(JArr(ws), 0) == Some(WordJson(words[0]));
      assert Index(JArr(ws), |ws| - 1) == Some(WordJson(words[|words| - 1]));
    }
  }

  /** A message without a channel, or with an empty list of alternatives, decodes to nothing. */
  lemma NoAlternativeNoResult(isFinal: bool)
    ensures ParseTranscriptionResult(JObj(map["is_final" := JBool(isFinal)])) == None
    ensures ParseTranscriptionResult(JObj(map["channel" := JObj(map["alternatives" := JArr([])])])) == None
  {
    var empty := JObj(map["channel" := JObj(map["alternatives" := JArr([])])]);
    assert Get(empty, "channel") == Some(JObj(map["alternatives" := JArr([])]));
  }

  /** An alternative with none of the expected fields takes every default. */
  lemma BareAlternativeDefaults()
    ensures ParseTranscriptionResult(JObj(map["channel" := JObj(map["alternatives" := JArr([JObj(map[])])])])) ==
      Some(TranscriptionResult(JStr(""), JNum(0), None, JBool(false), JNum(0), JNum(0)))
  {
    var data := JObj(map["channel" := JObj(map["alternatives" := JArr([JObj(map[])])])]);
    assert FirstAlternative(data) == Some(JObj(map[]));
  }

  // ---------------------------------------------------------------------
  // The streaming URL
  // ---------------------------------------------------------------------

  datatype TranscriptionConfig = TranscriptionConfig(
    language: Option<string>,
    model: Option<string>,
    punctuate: Option<bool>,
    diarize: Option<bool>,
    smartFormat: Option<bool>,
    interimResults: Option<bool>)

  const ListenBase := "wss://api.deepgram.com/v1/listen?"

  /** `${flag !== false}`: only an explicit false switches a feature off. */
  function Flag(b: Option<bool>): (s: string)
    ensures s == "false" <==> b == Some(false)
  {
    if b == Some(false) then "false" else "true"
  }

  function LanguageOf(c: TranscriptionConfig): string
  {
    if Truthy(c.language) then c.language.value else "sv"
  }

  function ModelOf(c: TranscriptionConfig): string
  {
    if Truthy(c.model) then c.model.value else "nova-2"
  }

  /** The query parameters, in the order the URL template lists them. */
  function Parameters(c: TranscriptionConfig): seq<string>
  {
    ["language=" + LanguageOf(c), "model=" + ModelOf(c), "punctuate=" + Flag(c.punctuate),
     "diarize=" + Flag(c.diarize), "smart_format=" + Flag(c.smartFormat),
     "interim_results=" + Flag(c.interimResults)]
  }

  /** The WebSocket URL built in createTranscriptionConnection: the listen
      endpoint, then the parameters with '&' between them. */
  function ListenUrl(c: TranscriptionConfig): (url: string)
    ensures |url| >= |ListenBase| && url[..|ListenBase|] == ListenBase
  {
    ListenBase + Join(Parameters(c), "&")
  }

  /** The URL is the base followed by exactly the six parameters, in a fixed
      order, when the language and model hold no '&'. */
  lemma UrlParameters(c: TranscriptionConfig)
    requires '&' !in LanguageOf(c) && '&' !in ModelOf(c)
    ensures var url := ListenUrl(c);
      |url| >= |ListenBase| && url[..|ListenBase|] == ListenBase
      && Split(url[|ListenBase|..], '&') == Parameters(c)
  {
    var ps := Parameters(c);
    ParametersHoldNoAmpersand(c);
    SplitJoin(ps, '&');
    assert ListenUrl(c)[|ListenBase|..] == Join(ps, "&");
  }

  lemma ParametersHoldNoAmpersand(c: TranscriptionConfig)
    requires '&' !in LanguageOf(c) && '&' !in ModelOf(c)
    ensures forall i :: 0 <= i < |Parameters(c)| ==> '&' !in Parameters(c)[i]
  {
    NoAmpersandIn("language=", LanguageOf(c));
    NoAmpersandIn("model=", ModelOf(c));
    NoAmpersandIn("punctuate=", Flag(c.punctuate));
    NoAmpersandIn("diarize=", Flag(c.diarize));
    NoAmpersandIn("smart_format=", Flag(c.smartFormat));
    NoAmpersandIn("interim_results=", Flag(c.interimResults));
  }

  lemma NoAmpersandIn(name: string, value: string)
    requires '&' !in name && (value == "true" || value == "false" || '&' !in value)
    ensures '&' !in name + value
  {
  }

  /** With an empty configuration the URL asks for Swedish, nova-2 and every feature. */
  lemma DefaultConfiguration(c: TranscriptionConfig)
    requires c == TranscriptionConfig(None, None, None, None, None, None)
    ensures LanguageOf(c) == "sv" && ModelOf(c) == "nova-2"
    ensures Flag(c.punctuate) == "true" && Flag(c.diarize) == "true"
    ensures Flag(c.smartFormat) == "true" && Flag(c.interimResults) == "true"
  {
  }

  /** createTranscriptionConnection: the URL and the temporary key, or None
      when the client is not set up or no key is created. */
  function Connect(clientReady: bool, key: Option<string>, c: TranscriptionConfig): (r: Option<(string, string)>)
    ensures r.Some? <==> clientReady && Truthy(key)
    ensures r.Some? ==> r.value.0 == ListenUrl(c) && r.value.1 == key.value
  {
    if !clientReady || !Truthy(key) then None else Some((ListenUrl(c), key.value))
  }
}

=== FILE: dialer.dfy ===
// The dialer integration service (lib/dialer.ts): the keyed upsert and the
// deactivation of dialer_integrations rows, the listing of an SDR's active
// integrations, the hex rendering of a fresh webhook secret, the webhook URL
// and the per-provider setup instructions.

module Dialer {
  import opened Common
  import opened Store

  // ---------------------------------------------------------------------
  // Listing
  // ---------------------------------------------------------------------

  /** The row filter of the listing: `.eq('sdr_id', sdrId).eq('is_active', true)`. */
  function OwnedActive(sdrId: string): Integration -> bool
  {
    (row: Integration) => row.sdrId == sdrId && row.isActive
  }

  /** The order of the listing: `created_at` descending. */
  function Newest(row: Integration): int
  {
    -row.createdAt
  }

  predicate NewestFirst(rows: seq<Integration>)
  {
    forall i, j :: 0 <= i < j < |rows| ==> rows[i].createdAt >= rows[j].createdAt
  }

  /** getSDRDialerIntegrations: the SDR's active rows, newest first; nothing
      when the query fails. */
  function ListForSdr(rows: seq<Integration>, sdrId: string, queryOk: bool): (r: seq<Integration>)
    ensures forall i :: 0 <= i < |r| ==> r[i].sdrId == sdrId && r[i].isActive
    ensures queryOk ==> multiset(r) == multiset(Filter(rows, OwnedActive(sdrId)))
    ensures !queryOk ==> r == []
    ensures NewestFirst(r)
  {
    if !queryOk then []
    else
      var owned := Filter(rows, OwnedActive(sdrId));
      var r := SortByKey(owned, Newest);
      forall i | 0 <= i < |r|
        ensures r[i].sdrId == sdrId && r[i].isActive
      {
        assert r[i] in multiset(owned);
      }
      r
  }

  /** A row appears in a successful listing exactly when it is the SDR's and active. */
  lemma ListedIffOwnedAndActive(rows: seq<Integration>, sdrId: string, row: Integration)
    ensures row in ListForSdr(rows, sdrId, true) <==> row in rows && row.sdrId == sdrId && row.isActive
  {
    var r := ListForSdr(rows, sdrId, true);
    var owned := Filter(rows, OwnedActive(sdrId));
    assert OwnedActive(sdrId)(row) == (row.sdrId == sdrId && row.isActive);
    if row in rows && OwnedActive(sdrId)(row) {
      FilterKeeps(rows, OwnedActive(sdrId), row);
    }
    if row in owned {
      var k :| 0 <= k < |owned| && owned[k] == row;
    }
    assert row in r <==> row in multiset(r);
    assert row in multiset(r) <==> row in owned;
  }

  // ---------------------------------------------------------------------
  // Upsert and deactivation
  // ---------------------------------------------------------------------

  /** The columns upsertDialerIntegration sends: metadata defaults to `{}`,
      `last_sync_at` is the current time. */
  function PatchOf(sdrId: string, provider: string, accountId: string, phoneNumber: Option<string>,
                   webhookSecret: Option<string>, metadata: Option<map<string, Json>>, now: int): (p: IntegrationPatch)
    ensures p.metadata == (if metadata.Some? then metadata.value else map[])
    ensures p.sdrId == sdrId && p.provider == provider && p.accountId == accountId
  {
    IntegrationPatch(sdrId, provider, accountId, phoneNumber, webhookSecret,
                     if metadata.Some? then metadata.value else map[], now)
  }

  /** No two rows share the conflict key (sdr_id, dialer_provider, provider_account_id). */
  predicate KeysUnique(rows: seq<Integration>)
  {
    forall i, j :: 0 <= i < j < |rows| ==>
      !(rows[i].sdrId == rows[j].sdrId && rows[i].provider == rows[j].provider && rows[i].accountId == rows[j].accountId)
  }

  predicate HasKey(rows: seq<Integration>, p: IntegrationPatch)
  {
    exists i :: 0 <= i < |rows| && SameKey(rows[i], p)
  }

  /** The first row with the conflict key of p, or -1. */
  function KeyIndex(rows: seq<Integration>, p: IntegrationPatch): (k: int)
    ensures -1 <= k < |rows|
    ensures k >= 0 ==> SameKey(rows[k], p)
    ensures k < 0 ==> !HasKey(rows, p)
  {
    if rows == [] then -1
    else if SameKey(rows[0], p) then 0
    else
      var k := KeyIndex(rows[1..], p);
      assert k < 0 ==> forall i :: 1 <= i < |rows| ==> rows[i] == rows[1..][i - 1];
      if k < 0 then -1 else k + 1
  }

  /** The row `.select().single()` returns after the upsert. */
  function UpsertedRow(rows: seq<Integration>, p: IntegrationPatch, newId: string): (row: Integration)
    ensures SameKey(row, p) && row.isActive && row.metadata == p.metadata
    ensures row.lastSyncAt == Some(p.lastSyncAt) && row.phoneNumber == p.phoneNumber
  {
    var k := KeyIndex(rows, p);
    if k >= 0 then Merge(rows[k], p) else Fresh(p, newId)
  }

  /** An existing row with the key is overwritten in place, and nothing is
      added; otherwise exactly one row is added at the end. */
  lemma UpsertOverwritesOrAdds(rows: seq<Integration>, p: IntegrationPatch, newId: string)
    ensures var r := UpsertRows(rows, p, newId);
      if HasKey(rows, p) then
        |r| == |rows| && forall i :: 0 <= i < |rows| ==> r[i] == (if SameKey(rows[i], p) then Merge(rows[i], p) else rows[i])
      else
        r == rows + [Fresh(p, newId)]
  {
  }

  /** After the upsert the table holds the returned row, active, with the sent metadata. */
  lemma UpsertedRowIsStored(rows: seq<Integration>, p: IntegrationPatch, newId: string)
    ensures UpsertedRow(rows, p, newId) in UpsertRows(rows, p, newId)
  {
    var r := UpsertRows(rows, p, newId);
    var k := KeyIndex(rows, p);
    if k >= 0 {
      assert r[k] == Merge(rows[k], p);
    } else {
      assert r[|rows|] == Fresh(p, newId);
    }
  }

  /** The upsert keeps the conflict key unique. */
  lemma UpsertKeepsKeysUnique(rows: seq<Integration>, p: IntegrationPatch, newId: string)
    requires KeysUnique(rows)
    ensures KeysUnique(UpsertRows(rows, p, newId))
  {
    var r := UpsertRows(rows, p, newId);
    if !HasKey(rows, p) {
      forall i, j | 0 <= i < j < |r|
        ensures !(r[i].sdrId == r[j].sdrId && r[i].provider == r[j].provider && r[i].accountId == r[j].accountId)
      {
        if j == |rows| {
          assert !SameKey(rows[i], p);
        }
      }
    }
  }

  /** Upserting the same key twice adds at most one row. */
  lemma RepeatedUpsertAddsOneRow(rows: seq<Integration>, p: IntegrationPatch, q: IntegrationPatch,
                                 id1: string, id2: string)
    requires q.sdrId == p.sdrId && q.provider == p.provider && q.accountId == p.accountId
    ensures |UpsertRows(UpsertRows(rows, p, id1), q, id2)| == |rows| + (if HasKey(rows, p) then 0 else 1)
  {
    var r := UpsertRows(rows, p, id1);
    if HasKey(rows, p) {
      var i :| 0 <= i < |rows| && SameKey(rows[i], p);
      assert SameKey(r[i], q);
    } else {
      assert SameKey(r[|rows|], q);
    }
  }

  /** deactivateDialerIntegration: `is_active` turns false on the row with
      both the id and the SDR, and on no other; nothing else changes. */
  lemma DeactivateOnlyMatching(rows: seq<Integration>, id: string, sdrId: string)
    ensures var r := DeactivateWhere(rows, id, sdrId);
      |r| == |rows|
      && forall i :: 0 <= i < |rows| ==>
           if rows[i].id == id && rows[i].sdrId == sdrId then r[i] == rows[i].(isActive := false) && !r[i].isActive
           else r[i] == rows[i]
  {
  }

  /** A deactivated integration leaves the SDR's listing. */
  lemma DeactivatedIsNotListed(rows: seq<Integration>, id: string, sdrId: string)
    ensures forall row :: row in ListForSdr(DeactivateWhere(rows, id, sdrId), sdrId, true) ==> row.id != id
  {
    var d := DeactivateWhere(rows, id, sdrId);
    forall row | row in ListForSdr(d, sdrId, true)
      ensures row.id != id
    {
      ListedIffOwnedAndActive(d, sdrId, row);
      var k :| 0 <= k < |d| && d[k] == row;
      assert d[k].isActive;
    }
  }

  /** An upserted integration is in its SDR's listing. */
  lemma UpsertedIsListed(rows: seq<Integration>, p: IntegrationPatch, newId: string)
    ensures UpsertedRow(rows, p, newId) in ListForSdr(UpsertRows(rows, p, newId), p.sdrId, true)
  {
    UpsertedRowIsStored(rows, p, newId);
    ListedIffOwnedAndActive(UpsertRows(rows, p, newId), p.sdrId, UpsertedRow(rows, p, newId));
  }

  /** upsertDialerIntegration: the row written, or None when the request fails. */
  method UpsertDialerIntegration(db: Database, p: IntegrationPatch, newId: string, ok: bool)
    returns (row: Option<Integration>)
    modifies db
    ensures ok ==> db.Snapshot() == Apply(old(db.Snapshot()), UpsertIntegration(p, newId))
                   && row == Some(UpsertedRow(old(db.integrations), p, newId))
    ensures !ok ==> db.Snapshot() == old(db.Snapshot()) && row == None
  {
    if !ok {
      return None;
    }
    var written := UpsertedRow(db.integrations, p, newId);
    db.Perform(UpsertIntegration(p, newId));
    row := Some(written);
  }

  /** deactivateDialerIntegration: true unless the request fails, whether or
      not a row matched. */
  method DeactivateDialerIntegration(db: Database, integrationId: string, sdrId: string, ok: bool)
    returns (done: bool)
    modifies db
    ensures done == ok
    ensures ok ==> db.Snapshot() == Apply(old(db.Snapshot()), DeactivateIntegration(integrationId, sdrId))
    ensures !ok ==> db.Snapshot() == old(db.Snapshot())
  {
    if !ok {
      return false;
    }
    db.Perform(DeactivateIntegration(integrationId, sdrId));
    done := true;
  }

  // ---------------------------------------------------------------------
  // Webhook secret
  // ---------------------------------------------------------------------

  type Byte = x: int | 0 <= x < 256

  /** crypto.randomBytes(32) / a Uint8Array of 32. */
  const SecretBytes := 32

  predicate IsLowerHex(c: char)
  {
    '0' <= c <= '9' || 'a' <= c <= 'f'
  }

  function HexDigit(d: int): (c: char)
    requires 0 <= d < 16
    ensures IsLowerHex(c)
  {
    if d < 10 then ('0' as int + d) as char else ('a' as int + d - 10) as char
  }

  function HexValue(c: char): (d: int)
    requires IsLowerHex(c)
    ensures 0 <= d < 16 && HexDigit(d) == c
  {
    if c <= '9' then c as int - '0' as int else c as int - 'a' as int + 10
  }

  /** Number.prototype.toString(16): the base-16 digits without leading zeros. */
  function ToHex(n: nat): (s: string)
    ensures |s| >= 1
  {
    if n < 16 then [HexDigit(n)] else ToHex(n / 16) + [HexDigit(n % 16)]
  }

  /** String.prototype.padStart(len, c). */
  function PadStart(s: string, len: nat, c: char): (r: string)
    ensures |r| == if |s| >= len then |s| else len
  {
    if |s| >= len then s else seq(len - |s|, _ => c) + s
  }

  /** `byte.toString(16).padStart(2, '0')`, the same two digits Buffer's hex encoding gives. */
  function ByteHex(b: Byte): string
  {
    PadStart(ToHex(b), 2, '0')
  }

  /** A byte always renders as its high and its low nibble. */
  lemma ByteHexDigits(b: Byte)
    ensures ByteHex(b) == [HexDigit(b / 16), HexDigit(b % 16)]
  {
    if b < 16 {
      assert ToHex(b) == [HexDigit(b)];
    } else {
      assert ToHex(b / 16) == [HexDigit(b / 16)];
    }
  }

  /** The bytes rendered one after another and joined with ''. */
  function HexOf(bytes: seq<Byte>): (s: string)
    ensures |s| == 2 * |bytes|
    ensures forall i :: 0 <= i < |s| ==> IsLowerHex(s[i])
  {
    if bytes == [] then ""
    else
      ByteHexDigits(bytes[0]);
      ByteHex(bytes[0]) + HexOf(bytes[1..])
  }

  /** generateWebhookSecret, given the random bytes it draws. */
  function WebhookSecret(random: seq<Byte>): (s: string)
    requires |random| == SecretBytes
    ensures |s| == 64 && forall i :: 0 <= i < |s| ==> IsLowerHex(s[i])
  {
    HexOf(random)
  }

  /** The inverse of the encoding: pairs of lowercase hex digits back to bytes. */
  function FromHex(s: string): (r: Option<seq<Byte>>)
    ensures r.Some? ==> 2 * |r.value| == |s|
  {
    if s == [] then Some([])
    else if |s| == 1 || !IsLowerHex(s[0]) || !IsLowerHex(s[1]) then None
    else
      match FromHex(s[2..])
      case None => None
      case Some(rest) => Some([HexValue(s[0]) * 16 + HexValue(s[1])] + rest)
  }

  /** Decoding undoes the encoding. */
  lemma {:induction false} HexRoundTrip(bytes: seq<Byte>)
    ensures FromHex(HexOf(bytes)) == Some(bytes)
  {
    if bytes != [] {
      var b := bytes[0];
      ByteHexDigits(b);
      var s := HexOf(bytes);
      assert s[..2] == [HexDigit(b / 16), HexDigit(b % 16)];
      assert s[2..] == HexOf(bytes[1..]);
      HexRoundTrip(bytes[1..]);
      assert HexValue(s[0]) * 16 + HexValue(s[1]) == b;
      assert [b] + bytes[1..] == bytes;
    }
  }

  /** Encoding undoes the decoding, so every lowercase hex string of even
      length is the rendering of exactly one byte sequence. */
  lemma {:induction false} HexOfFromHex(s: string)
    requires FromHex(s).Some?
    ensures HexOf(FromHex(s).value) == s
  {
    if s != [] {
      var rest := FromHex(s[2..]).value;
      HexOfFromHex(s[2..]);
      var b: Byte := HexValue(s[0]) * 16 + HexValue(s[1]);
      var bytes := FromHex(s).value;
      assert bytes == [b] + rest;
      ByteHexDigits(b);
      assert b / 16 == HexValue(s[0]) && b % 16 == HexValue(s[1]);
      assert bytes[1..] == rest;
      assert s == s[..2] + s[2..];
    }
  }

  /** Different random bytes give different secrets. */
  lemma SecretInjective(a: seq<Byte>, b: seq<Byte>)
    requires |a| == SecretBytes && |b| == SecretBytes && a != b
    ensures WebhookSecret(a) != WebhookSecret(b)
  {
    HexRoundTrip(a);
    HexRoundTrip(b);
  }

  // ---------------------------------------------------------------------
  // Webhook URL and setup instructions
  // ---------------------------------------------------------------------

  const DefaultAppUrl := "https://app.valdi.io"
  const WebhookPath := "/api/webhooks/dialer"

  /** getDialerWebhookUrl; `appUrl` is NEXT_PUBLIC_APP_URL, "" when unset. */
  function WebhookUrl(appUrl: string): (url: string)
    ensures url == (if appUrl != "" then appUrl else DefaultAppUrl) + WebhookPath
  {
    (if appUrl != "" then appUrl else DefaultAppUrl) + WebhookPath
  }

  datatype Setup = Setup(name: string, webhookUrl: string, instructions: seq<string>, requiredFields: seq<string>)

  /** DialerProvider. */
  datatype Provider = Aircall | RingCentral | Twilio | JustCall | Kixie | Other

  /** The key of each provider in the instruction table. */
  function ProviderName(p: Provider): string
  {
    match p
    case Aircall => "aircall"
    case RingCentral => "ringcentral"
    case Twilio => "twilio"
    case JustCall => "justcall"
    case Kixie => "kixie"
    case Other => "other"
  }

  /** `instructions[provider] || instructions.other`: the entry a provider
      string selects, `other` for one the table does not have. */
  function ProviderOf(name: string): (p: Provider)
    ensures p != Other ==> ProviderName(p) == name
  {
    if name == "aircall" then Aircall
    else if name == "ringcentral" then RingCentral
    else if name == "twilio" then Twilio
    else if name == "justcall" then JustCall
    else if name == "kixie" then Kixie
    else Other
  }

  /** Looking a provider up by its own key finds it again. */
  lemma ProviderOfName(p: Provider)
    ensures ProviderOf(ProviderName(p)) == p
  {
  }

  // The second required field of every provider.
  const SecretField := "Webhook Secret"
  const AuthTokenField := "Auth Token"

  // The text before the webhook URL in the line of each provider that shows it.
  const AircallUrlLine := "3. Enter webhook URL: "
  const RingCentralUrlLine := "3. Set webhook URL: "
  const TwilioUrlLine := "3. Set Status Callback URL: "
  const AddUrlLine := "2. Add webhook URL: "
  const OtherUrlLine := "1. Configure your dialer to send webhooks to: "

  /** The instruction record of one provider, for the given webhook URL. */
  function SetupFor(provider: Provider, url: string): Setup
  {
    Setup(DisplayName(provider), url, StepsOf(provider, url), [FirstField(provider), SecondField(provider)])
  }

  /** The name each entry shows. */
  function DisplayName(provider: Provider): string
  {
    match provider
    case Aircall => "Aircall"
    case RingCentral => "RingCentral"
    case Twilio => "Twilio"
    case JustCall => "JustCall"
    case Kixie => "Kixie"
    case Other => "Other Dialer"
  }

  /** The first required field: the provider's account identifier. */
  function FirstField(provider: Provider): string
  {
    match provider
    case Aircall => "User ID"
    case RingCentral => "Extension Number"
    case Twilio => "Account SID"
    case JustCall => "User ID"
    case Kixie => "Phone Number"
    case Other => "Account ID"
  }

  /** The second required field: Twilio asks for its auth token, every other
      provider for the webhook secret. */
  function SecondField(provider: Provider): (r: string)
    ensures r == AuthTokenField <==> provider == Twilio
    ensures r == SecretField <==> provider != Twilio
  {
    if provider == Twilio then AuthTokenField else SecretField
  }

  /** The numbered steps of a provider's entry. */
  function StepsOf(provider: Provider, url: string): (r: seq<string>)
    ensures UrlLine(provider).0 < |r| && r[UrlLine(provider).0] == UrlLine(provider).1 + url
  {
    match provider
    case Aircall => AircallSteps(url)
    case RingCentral => RingCentralSteps(url)
    case Twilio => TwilioSteps(url)
    case JustCall => JustCallSteps(url)
    case Kixie => KixieSteps(url)
    case Other => OtherSteps(url)
  }

  // The fixed lines of each provider's steps.
  const AircallStep1 := "1. Go to Aircall Settings > Integrations > Webhooks"
  const AircallStep2 := "2. Click \"Add Webhook\""
  const AircallStep4 := "4. Select events: \"call.ended\""
  const AircallStep5 := "5. Copy the webhook secret and paste it below"
  const AircallStep6 := "6. Save your Aircall User ID (found in your profile)"
  const RingCentralStep1 := "1. Go to RingCentral Developer Portal"
  const RingCentralStep2 := "2. Create a new webhook subscription"
  const RingCentralStep4 := "4. Subscribe to events: \"CallEnd\""
  const RingCentralStep5 := "5. Copy the webhook secret"
  const RingCentralStep6 := "6. Save your RingCentral extension number"
  const TwilioStep1 := "1. Go to Twilio Console > Phone Numbers"
  const TwilioStep2 := "2. Select your outbound number"
  const TwilioStep4 := "4. Set Status Callback Method: POST"
  const TwilioStep5 := "5. Copy your Account SID"
  const TwilioStep6 := "6. Generate Auth Token for webhook validation"
  const JustCallStep1 := "1. Go to JustCall Settings > Integrations > Webhooks"
  const JustCallStep3 := "3. Select event: \"Call Completed\""
  const JustCallStep4 := "4. Copy webhook secret"
  const JustCallStep5 := "5. Save your JustCall user ID"
  const KixieStep1 := "1. Go to Kixie Settings > Webhooks"
  const KixieStep3 := "3. Select event: \"Call Finished\""
  const KixieStep4 := "4. Copy webhook secret"
  const KixieStep5 := "5. Save your Kixie phone number"
  const OtherStep2 := "2. Ensure webhook includes call recording URL"
  const OtherStep3 := "3. Set webhook secret for security"
  const OtherStep4 := "4. Provide your dialer account identifier"

  function AircallSteps(url: string): (r: seq<string>)
    ensures |r| == 6 && r[2] == AircallUrlLine + url
  {
    [AircallStep1, AircallStep2, AircallUrlLine + url, AircallStep4, AircallStep5, AircallStep6]
  }

  function RingCentralSteps(url: string): (r: seq<string>)
    ensures |r| == 6 && r[2] == RingCentralUrlLine + url
  {
    [RingCentralStep1, RingCentralStep2, RingCentralUrlLine + url, RingCentralStep4, RingCentralStep5, RingCentralStep6]
  }

  function TwilioSteps(url: string): (r: seq<string>)
    ensures |r| == 6 && r[2] == TwilioUrlLine + url
  {
    [TwilioStep1, TwilioStep2, TwilioUrlLine + url, TwilioStep4, TwilioStep5, TwilioStep6]
  }

  function JustCallSteps(url: string): (r: seq<string>)
    ensures |r| == 5 && r[1] == AddUrlLine + url
  {
    [JustCallStep1, AddUrlLine + url, JustCallStep3, JustCallStep4, JustCallStep5]
  }

  function KixieSteps(url: string): (r: seq<string>)
    ensures |r| == 5 && r[1] == AddUrlLine + url
  {
    [KixieStep1, AddUrlLine + url, KixieStep3, KixieStep4, KixieStep5]
  }

  function OtherSteps(url: string): (r: seq<string>)
    ensures |r| == 4 && r[0] == OtherUrlLine + url
  {
    [OtherUrlLine + url, OtherStep2, OtherStep3, OtherStep4]
  }

  /** getDialerSetupInstructions: the provider's entry, or the `other` entry
      for a provider the table does not know. */
  function SetupInstructions(provider: string, appUrl: string): Setup
  {
    SetupFor(ProviderOf(provider), WebhookUrl(appUrl))
  }

  /** The line of a provider's instructions that shows the webhook URL, and its text before the URL. */
  function UrlLine(provider: Provider): (r: (nat, string))
  {
    match provider
    case Aircall => (2, AircallUrlLine)
    case RingCentral => (2, RingCentralUrlLine)
    case Twilio => (2, TwilioUrlLine)
    case JustCall => (1, AddUrlLine)
    case Kixie => (1, AddUrlLine)
    case Other => (0, OtherUrlLine)
  }

  lemma UrlLineIsThere(provider: Provider, url: string)
    ensures var (i, prefix) := UrlLine(provider);
      i < |SetupFor(provider, url).instructions| && SetupFor(provider, url).instructions[i] == prefix + url
  {
  }

  lemma RequiredFieldsShape(provider: Provider, url: string)
    ensures var s := SetupFor(provider, url);
      s.webhookUrl == url && |s.requiredFields| == 2
      && s.requiredFields[1] == (if provider == Twilio then AuthTokenField else SecretField)
  {
  }

  /** Every provider gets the common webhook URL, an instruction that shows
      it, and exactly two required fields, the second being the secret. */
  lemma EverySetupShowsTheUrl(provider: string, appUrl: string)
    ensures var s := SetupInstructions(provider, appUrl);
      s.webhookUrl == WebhookUrl(appUrl)
      && |s.requiredFields| == 2
      && (s.requiredFields[1] == SecretField || s.requiredFields[1] == AuthTokenField)
      && exists i :: 0 <= i < |s.instructions| && Contains(s.instructions[i], s.webhookUrl)
  {
    var url := WebhookUrl(appUrl);
    var known := ProviderOf(provider);
    var s := SetupFor(known, url);
    RequiredFieldsShape(known, url);
    var (i, prefix) := UrlLine(known);
    UrlLineIsThere(known, url);
    ContainsInfix(prefix, url, "");
    assert prefix + url + "" == s.instructions[i];
    assert Contains(s.instructions[i], s.webhookUrl);
  }

  /** An unknown provider gets exactly the `other` entry. */
  lemma UnknownProviderFallsBack(provider: string, appUrl: string)
    requires provider !in {"aircall", "ringcentral", "twilio", "justcall", "kixie"}
    ensures SetupInstructions(provider, appUrl) == SetupInstructions("other", appUrl)
    ensures SetupInstructions(provider, appUrl).name == "Other Dialer"
  {
  }
}

=== FILE: dialer_webhook.dfy ===
// The dialer webhook (app/api/webhooks/dialer/route.ts): a call that ended
// at a dialer provider is turned into a stored recording, a call_recordings
// row, possibly a lead and an outreach attempt, and a fresh last_sync_at on
// the integration.

module DialerWebhook {
  import opened Common
  import opened Store

  /** The two HMAC encodings the providers use. */
  datatype HashScheme = HmacSha256Hex | HmacSha1Base64

  /** digest(scheme, key, message): the encoded HMAC of message under key. */
  type Digest = (HashScheme, string, string) -> string

  datatype SignatureCheck = Accepted | Rejected | Throws

  /** The signature a provider is expected to send for a body. */
  function ExpectedSignature(provider: string, body: string, secret: string, digest: Digest): string
  {
    if provider == "aircall" then digest(HmacSha256Hex, secret, body)
    else if provider == "twilio" then digest(HmacSha1Base64, secret, body)
    else secret
  }

  /** crypto.timingSafeEqual on the UTF-8 bytes of two strings: it throws when
      the byte lengths differ. */
  function TimingSafeEqual(a: string, b: string): (r: SignatureCheck)
    ensures r == Accepted <==> a == b
    ensures r == Throws <==> Utf8Length(a) != Utf8Length(b)
  {
    if Utf8Length(a) != Utf8Length(b) then Throws else if a == b then Accepted else Rejected
  }

  /** verifyWebhookSignature, with the exception timingSafeEqual may raise made explicit. */
  function VerifySignature(provider: string, body: string, signature: Option<string>,
                           secret: string, digest: Digest): (r: SignatureCheck)
    ensures r == Accepted <==>
      Truthy(signature) && signature.value == ExpectedSignature(provider, body, secret, digest)
    ensures r == Throws <==>
      Truthy(signature) && (provider == "aircall" || provider == "twilio")
      && Utf8Length(signature.value) != Utf8Length(ExpectedSignature(provider, body, secret, digest))
  {
    if !Truthy(signature) then Rejected
    else if provider == "aircall" then TimingSafeEqual(signature.value, digest(HmacSha256Hex, secret, body))
    else if provider == "twilio" then TimingSafeEqual(signature.value, digest(HmacSha1Base64, secret, body))
    else if signature.value == secret then Accepted
    else Rejected
  }

  /** The request headers of downloadRecording. */
  function DownloadHeaders(provider: string, accessToken: Option<string>): (h: map<string, string>)
    ensures "User-Agent" in h && h["User-Agent"] == "Valdi/1.0"
    ensures "Authorization" in h <==> (provider == "aircall" || provider == "ringcentral") && Truthy(accessToken)
    ensures "Authorization" in h ==> h["Authorization"] == "Bearer " + accessToken.value
    ensures h.Keys <= {"User-Agent", "Authorization"}
  {
    var base := map["User-Agent" := "Valdi/1.0"];
    if (provider == "aircall" || provider == "ringcentral") && Truthy(accessToken) then
      base["Authorization" := "Bearer " + accessToken.value]
    else base
  }

  /** The object path uploadToStorage writes to. */
  function RecordingObjectPath(sdrId: string, campaignId: string, callId: string, now: nat): string
  {
    "call-recordings/" + sdrId + "/" + campaignId + "/" + callId + "-" + NatToString(now) + ".mp3"
  }

  /** The object path has four '/'-separated segments: bucket folder, SDR, campaign, file. */
  lemma RecordingObjectPathSegments(sdrId: string, campaignId: string, callId: string, now: nat)
    requires '/' !in sdrId && '/' !in campaignId && '/' !in callId
    ensures Split(RecordingObjectPath(sdrId, campaignId, callId, now), '/')
         == ["call-recordings", sdrId, campaignId, callId + "-" + NatToString(now) + ".mp3"]
  {
    var file := callId + "-" + NatToString(now) + ".mp3";
    var parts := ["call-recordings", sdrId, campaignId, file];
    DigitsExclude(NatToString(now), '/');
    assert Join(parts, "/") == RecordingObjectPath(sdrId, campaignId, callId, now) by {
      assert Join(parts[3..], "/") == file;
      assert Join(parts[2..], "/") == campaignId + "/" + file;
      assert Join(parts[1..], "/") == sdrId + "/" + campaignId + "/" + file;
    }
    SplitJoin(parts, '/');
  }

  /** The fields of call_data the handler reads. */
  datatype CallData = CallData(
    id: string,
    to: Option<string>,
    duration: Option<int>,
    recordingUrl: Option<string>,
    userId: Option<string>,
    phoneNumber: Option<string>,
    contactName: Option<string>,
    contactEmail: Option<string>,
    contactPhone: Option<string>)

  datatype Payload = Payload(provider: string, eventType: string, callData: CallData, signature: Option<string>)

  /** The raw body, its parse into a payload (None when JSON.parse throws or
      call_data is missing) and the x-signature header. */
  datatype WebhookRequest = WebhookRequest(rawBody: string, payload: Option<Payload>, signatureHeader: Option<string>)

  /** Everything the handler learns from outside the database tables. */
  datatype WebhookEnv = WebhookEnv(
    digest: Digest,
    fetch: (string, map<string, string>) -> Option<nat>,  // bytes downloaded; None when the fetch fails or is not OK
    uploadOk: bool,                                       // the bucket accepts the upload
    now: nat,                                             // Date.now()
    newLeadId: Option<string>,                            // id of a created lead; None when that insert fails
    newRecordingId: Option<string>,                       // id of the new call_recordings row; None when it fails
    retentionDeadline: Option<int>,                       // auto_deleted_at the database gives a new recording
    outreachId: string,
    outreachOk: bool,
    touchOk: bool)

  datatype WebhookReply =
    | InternalError
    | NotFound
    | BadSignature
    | Skipped
    | NoActiveCampaign
    | DownloadFailed
    | UploadFailed
    | RecordFailed
    | Imported(recordingId: string)

  function Status(r: WebhookReply): int
  {
    match r
    case InternalError => 500
    case NotFound => 404
    case BadSignature => 401
    case Skipped => 200
    case NoActiveCampaign => 400
    case DownloadFailed => 500
    case UploadFailed => 500
    case RecordFailed => 500
    case Imported(_) => 200
  }

  /** The providers the health check lists. */
  const SupportedProviders: seq<string> := ["aircall", "ringcentral", "twilio", "justcall", "kixie"]

  /** `.single()`: a row only when exactly one matches. */
  function Single<T>(rows: seq<T>): (r: Option<T>)
    ensures r.Some? <==> |rows| == 1
    ensures r.Some? ==> r.value == rows[0]
  {
    if |rows| == 1 then Some(rows[0]) else None
  }

  /** `call_data.user_id || call_data.phone_number || ''`. */
  function AccountKey(cd: CallData): (k: string)
    ensures Truthy(cd.userId) ==> k == cd.userId.value
    ensures !Truthy(cd.userId) && Truthy(cd.phoneNumber) ==> k == cd.phoneNumber.value
    ensures k == "" <==> !Truthy(cd.userId) && !Truthy(cd.phoneNumber)
  {
    if Truthy(cd.userId) then cd.userId.value
    else if Truthy(cd.phoneNumber) then cd.phoneNumber.value
    else ""
  }

  predicate MatchesIntegration(row: Integration, provider: string, account: string)
  {
    row.provider == provider && row.accountId == account && row.isActive
  }

  function IntegrationFor(rows: seq<Integration>, provider: string, account: string): (r: Option<Integration>)
    ensures r.Some? <==> |Filter(rows, row => MatchesIntegration(row, provider, account))| == 1
    ensures r.Some? ==> r.value in rows && r.value.provider == provider && r.value.accountId == account
                        && r.value.isActive
  {
    Single(Filter(rows, row => MatchesIntegration(row, provider, account)))
  }

  function CampaignCompany(campaigns: seq<Campaign>, id: string): Option<string>
  {
    if campaigns == [] then None
    else if campaigns[0].id == id then Some(campaigns[0].companyId)
    else CampaignCompany(campaigns[1..], id)
  }

  /** The first approved application of the SDR whose campaign exists, as
      (campaign id, company id). */
  function ApprovedCampaign(apps: seq<Application>, campaigns: seq<Campaign>, sdrId: string)
    : (r: Option<(string, string)>)
    ensures r.Some? ==> exists a :: a in apps && a.sdrId == sdrId && a.status == "approved"
                                     && a.campaignId == r.value.0
    ensures r.Some? ==> CampaignCompany(campaigns, r.value.0) == Some(r.value.1)
    ensures r.None? <==> forall a :: a in apps && a.sdrId == sdrId && a.status == "approved"
                                     ==> CampaignCompany(campaigns, a.campaignId).None?
  {
    if apps == [] then None
    else
      var a := apps[0];
      if a.sdrId == sdrId && a.status == "approved" && CampaignCompany(campaigns, a.campaignId).Some? then
        Some((a.campaignId, CampaignCompany(campaigns, a.campaignId).value))
      else ApprovedCampaign(apps[1..], campaigns, sdrId)
  }

  /** The column and value a lead is searched by: the contact phone, else the contact email. */
  function LeadSearchKey(cd: CallData): (r: Option<(string, string)>)
    ensures r.None? <==> !Truthy(cd.contactPhone) && !Truthy(cd.contactEmail)
    ensures Truthy(cd.contactPhone) ==> r == Some(("phone", cd.contactPhone.value))
    ensures !Truthy(cd.contactPhone) && Truthy(cd.contactEmail) ==> r == Some(("email", cd.contactEmail.value))
  {
    if Truthy(cd.contactPhone) then Some(("phone", cd.contactPhone.value))
    else if Truthy(cd.contactEmail) then Some(("email", cd.contactEmail.value))
    else None
  }

  predicate LeadMatches(l: Lead, campaignId: string, column: string, value: string)
  {
    "campaign_id" in l.cols && l.cols["campaign_id"] == campaignId && column in l.cols && l.cols[column] == value
  }

  function ExistingLead(leads: seq<Lead>, campaignId: string, cd: CallData): (r: Option<Lead>)
    ensures r.Some? ==> LeadSearchKey(cd).Some? && r.value in leads
                        && LeadMatches(r.value, campaignId, LeadSearchKey(cd).value.0, LeadSearchKey(cd).value.1)
    ensures r.Some? <==>
      LeadSearchKey(cd).Some?
      && |Filter(leads, l => LeadMatches(l, campaignId, LeadSearchKey(cd).value.0, LeadSearchKey(cd).value.1))| == 1
  {
    match LeadSearchKey(cd)
    case None => None
    case Some((column, value)) => Single(Filter(leads, l => LeadMatches(l, campaignId, column, value)))
  }

  /** Set a column to a value, or leave it out for null. */
  function SetColumn(cols: map<string, string>, name: string, value: Option<string>): map<string, string>
  {
    if Truthy(value) then cols[name := value.value] else cols
  }

  /** The columns of a lead created from call data. */
  function NewLeadColumns(campaignId: string, companyId: string, cd: CallData): map<string, string>
  {
    var names := if cd.contactName.Some? then SplitName(cd.contactName.value) else (None, None);
    var base := map["campaign_id" := campaignId, "company_id" := companyId, "status" := "contacted"];
    var named := SetColumn(SetColumn(base, "first_name", names.0), "last_name", names.1);
    SetColumn(SetColumn(named, "email", cd.contactEmail), "phone", Or(cd.contactPhone, cd.to))
  }

  /** findOrCreateLead: the lead id and the write it needs. */
  function FindOrCreateLead(leads: seq<Lead>, campaignId: string, companyId: string, cd: CallData,
                            newLeadId: Option<string>): (r: (Option<string>, seq<Write>))
    ensures |r.1| <= 1
  {
    var existing := ExistingLead(leads, campaignId, cd);
    if existing.Some? then (Some(existing.value.id), [])
    else if newLeadId.None? then (None, [])
    else (newLeadId, [InsertLeads([Lead(newLeadId.value, NewLeadColumns(campaignId, companyId, cd))])])
  }

  /** `call_data.duration || null`. */
  function KnownDuration(d: Option<int>): Option<int>
  {
    if d.Some? && d.value != 0 then d else None
  }

  function ImportedRecording(id: string, integration: Integration, campaignId: string, path: string,
                             cd: CallData, bytes: nat, deadline: Option<int>): Recording
  {
    Recording(id, None, integration.sdrId, campaignId, Some(path), cd.id + ".mp3", Some(bytes),
              Some("audio/mpeg"), KnownDuration(cd.duration), None, "pending", Some(cd.id),
              Some(integration.id), deadline)
  }

  function CallAttempt(id: string, leadId: string, integration: Integration, campaignId: string,
                       recordingId: string, provider: string, cd: CallData): (o: Outreach)
    ensures o.leadId == leadId && o.callRecordingId == recordingId && o.attemptType == "call"
    ensures o.status == "connected" <==> cd.duration.Some? && cd.duration.value > 0
    ensures o.status != "connected" ==> o.status == "no_answer"
  {
    Outreach(id, leadId, integration.sdrId, campaignId, "call",
             if cd.duration.Some? && cd.duration.value > 0 then "connected" else "no_answer",
             KnownDuration(cd.duration), recordingId, cd.id, integration.id,
             "Auto-imported from " + provider)
  }

  /** What the handler decides before its first write: a reply, or the
      request admitted with everything the writes need. */
  datatype Admission =
    | Refused(reply: WebhookReply)
    | Admitted(p: Payload, integration: Integration, campaignId: string, companyId: string,
               bytes: nat, path: string)

  /** The signature check of a found integration: none without a secret, else
      verifyWebhookSignature on the x-signature header or the payload's signature. */
  function GateCheck(req: WebhookRequest, p: Payload, integration: Integration, env: WebhookEnv): SignatureCheck
  {
    if Truthy(integration.webhookSecret) then
      VerifySignature(p.provider, req.rawBody, Or(req.signatureHeader, p.signature),
                      integration.webhookSecret.value, env.digest)
    else Accepted
  }

  /** Only an ended call with a recording URL is imported. */
  predicate EndedWithRecording(p: Payload)
  {
    p.eventType == "call.ended" && Truthy(p.callData.recordingUrl)
  }

  /** Parse, integration lookup, signature check, event filter, campaign
      lookup, download and upload, in the handler's order. */
  function Admit(t: Tables, req: WebhookRequest, env: WebhookEnv): (a: Admission)
    ensures a.Refused? ==> !a.reply.RecordFailed? && !a.reply.Imported?
    ensures a.Admitted? ==> a.path !in t.storage
  {
    if req.payload.None? then Refused(InternalError)
    else
      var p := req.payload.value;
      var cd := p.callData;
      var found := IntegrationFor(t.integrations, p.provider, AccountKey(cd));
      if found.None? then Refused(NotFound)
      else
        var integration := found.value;
        var check := GateCheck(req, p, integration, env);
        if check == Throws then Refused(InternalError)
        else if check == Rejected then Refused(BadSignature)
        else if !EndedWithRecording(p) then Refused(Skipped)
        else
          var app := ApprovedCampaign(t.applications, t.campaigns, integration.sdrId);
          if app.None? then Refused(NoActiveCampaign)
          else
            var bytes := env.fetch(cd.recordingUrl.value, DownloadHeaders(p.provider, integration.accessToken));
            if bytes.None? then Refused(DownloadFailed)
            else
              var path := RecordingObjectPath(integration.sdrId, app.value.0, cd.id, env.now);
              if !env.uploadOk || path in t.storage then Refused(UploadFailed)
              else Admitted(p, integration, app.value.0, app.value.1, bytes.value, path)
  }

  /** The outreach attempt an import writes, if any. */
  function AttemptWrites(a: Admission, leadId: Option<string>, rid: string, env: WebhookEnv): (ws: seq<Write>)
    requires a.Admitted?
    ensures |ws| <= 1
  {
    if leadId.Some? && env.outreachOk then
      [InsertOutreach(CallAttempt(env.outreachId, leadId.value, a.integration, a.campaignId, rid,
                                  a.p.provider, a.p.callData))]
    else []
  }

  function TouchWrites(a: Admission, env: WebhookEnv): (ws: seq<Write>)
    requires a.Admitted?
  {
    if env.touchOk then [TouchIntegration(a.integration.id, env.now)] else []
  }

  function RecordingOf(a: Admission, rid: string, env: WebhookEnv): Recording
    requires a.Admitted?
  {
    ImportedRecording(rid, a.integration, a.campaignId, a.path, a.p.callData, a.bytes, env.retentionDeadline)
  }

  function LeadOf(t: Tables, a: Admission, env: WebhookEnv): (Option<string>, seq<Write>)
    requires a.Admitted?
  {
    FindOrCreateLead(t.leads, a.campaignId, a.companyId, a.p.callData, env.newLeadId)
  }

  /** The writes after admission: upload, lead, recording row, outreach attempt, last_sync_at. */
  function Ingest(t: Tables, a: Admission, env: WebhookEnv): (r: (WebhookReply, seq<Write>))
    requires a.Admitted?
    ensures r.1 != [] && r.1[0] == PutObject(a.path)
    ensures r.0.Imported? <==> env.newRecordingId.Some?
    ensures r.0.RecordFailed? <==> env.newRecordingId.None?
  {
    var lead := LeadOf(t, a, env);
    var stored := [PutObject(a.path)] + lead.1;
    if env.newRecordingId.None? then (RecordFailed, stored)
    else
      var rid := env.newRecordingId.value;
      (Imported(rid), stored + [InsertRecording(RecordingOf(a, rid, env))]
                      + AttemptWrites(a, lead.0, rid, env) + TouchWrites(a, env))
  }

  /** The handler on the tables: its reply and the writes it makes, in order. */
  function HandleWebhook(t: Tables, req: WebhookRequest, env: WebhookEnv): (r: (WebhookReply, seq<Write>))
    ensures r.1 != [] <==> r.0.RecordFailed? || r.0.Imported?
    ensures r.1 != [] ==> r.1[0].PutObject? && r.1[0].path !in t.storage
  {
    var a := Admit(t, req, env);
    if a.Refused? then (a.reply, []) else Ingest(t, a, env)
  }

  /** POST on the database: the decisions, then the writes one by one. */
  method Post(db: Database, req: WebhookRequest, env: WebhookEnv) returns (reply: WebhookReply)
    modifies db
    ensures reply == HandleWebhook(old(db.Snapshot()), req, env).0
    ensures db.Snapshot() == ApplyAll(old(db.Snapshot()), HandleWebhook(old(db.Snapshot()), req, env).1)
  {
    var a := Admit(db.Snapshot(), req, env);
    if a.Refused? {
      return a.reply;
    }
    reply := RunIngest(db, a, env);
  }

  /** The writes of an admitted request, one by one. */
  method RunIngest(db: Database, a: Admission, env: WebhookEnv) returns (reply: WebhookReply)
    requires a.Admitted?
    modifies db
    ensures reply == Ingest(old(db.Snapshot()), a, env).0
    ensures db.Snapshot() == ApplyAll(old(db.Snapshot()), Ingest(old(db.Snapshot()), a, env).1)
  {
    ghost var start := db.Snapshot();
    var lead, done := RunStored(db, a, env);
    if env.newRecordingId.None? {
      return RecordFailed;
    }
    var rid := env.newRecordingId.value;
    done := db.Run(InsertRecording(RecordingOf(a, rid, env)), start, done);
    var attempt := AttemptWrites(a, lead.0, rid, env);
    if attempt != [] {
      done := db.Run(attempt[0], start, done);
      assert attempt == [attempt[0]];
    }
    var touch := TouchWrites(a, env);
    if touch != [] {
      done := db.Run(touch[0], start, done);
      assert touch == [touch[0]];
    }
    assert done == [PutObject(a.path)] + lead.1 + [InsertRecording(RecordingOf(a, rid, env))] + attempt + touch;
    reply := Imported(rid);
  }

  /** The upload, then the lead insert when the lead is new. */
  method RunStored(db: Database, a: Admission, env: WebhookEnv)
    returns (lead: (Option<string>, seq<Write>), ghost done: seq<Write>)
    requires a.Admitted?
    modifies db
    ensures lead == LeadOf(old(db.Snapshot()), a, env)
    ensures done == [PutObject(a.path)] + lead.1
    ensures db.Snapshot() == ApplyAll(old(db.Snapshot()), done)
  {
    ghost var start := db.Snapshot();
    lead := LeadOf(db.Snapshot(), a, env);
    done := db.Run(PutObject(a.path), start, []);
    if lead.1 != [] {
      done := db.Run(lead.1[0], start, done);
      assert lead.1 == [lead.1[0]];
    }
  }

  // ---------------------------------------------------------------------
  // Properties
  // ---------------------------------------------------------------------

  /** Every reply except a failed recording insert and a successful import
      comes before any write. */
  lemma EarlyRepliesWriteNothing(t: Tables, req: WebhookRequest, env: WebhookEnv)
    ensures var (reply, writes) := HandleWebhook(t, req, env);
      !reply.RecordFailed? && !reply.Imported? ==> writes == []
  {
  }

  /** 404 exactly when no single active integration has the provider and account. */
  lemma NotFoundIffNoSingleIntegration(t: Tables, req: WebhookRequest, env: WebhookEnv)
    requires req.payload.Some?
    ensures HandleWebhook(t, req, env).0 == NotFound <==>
      |Filter(t.integrations, row => MatchesIntegration(row, req.payload.value.provider,
                                                       AccountKey(req.payload.value.callData)))| != 1
  {
  }

  /** Once the payload parsed and its integration was found, each refusal
      happens exactly when its own guard fails and every guard before it passed. */
  lemma RefusalLadder(t: Tables, req: WebhookRequest, env: WebhookEnv)
    requires req.payload.Some?
    requires IntegrationFor(t.integrations, req.payload.value.provider, AccountKey(req.payload.value.callData)).Some?
    ensures var p := req.payload.value;
      var integration := IntegrationFor(t.integrations, p.provider, AccountKey(p.callData)).value;
      var check := GateCheck(req, p, integration, env);
      var app := ApprovedCampaign(t.applications, t.campaigns, integration.sdrId);
      var a := Admit(t, req, env);
      (a == Refused(InternalError) <==> check == Throws)
      && (a == Refused(BadSignature) <==> check == Rejected)
      && (a == Refused(Skipped) <==> check == Accepted && !EndedWithRecording(p))
      && (a == Refused(NoActiveCampaign) <==> check == Accepted && EndedWithRecording(p) && app.None?)
      && (a == Refused(DownloadFailed) <==>
            check == Accepted && EndedWithRecording(p) && app.Some?
            && env.fetch(p.callData.recordingUrl.value, DownloadHeaders(p.provider, integration.accessToken)).None?)
      && (a == Refused(UploadFailed) <==>
            check == Accepted && EndedWithRecording(p) && app.Some?
            && env.fetch(p.callData.recordingUrl.value, DownloadHeaders(p.provider, integration.accessToken)).Some?
            && (!env.uploadOk || RecordingObjectPath(integration.sdrId, app.value.0, p.callData.id, env.now) in t.storage))
      && (a.Admitted? <==>
            check == Accepted && EndedWithRecording(p) && app.Some?
            && env.fetch(p.callData.recordingUrl.value, DownloadHeaders(p.provider, integration.accessToken)).Some?
            && env.uploadOk && RecordingObjectPath(integration.sdrId, app.value.0, p.callData.id, env.now) !in t.storage)
  {
  }

  /** A body that does not parse is a 500, before any lookup. */
  lemma UnparsedBodyIsServerError(t: Tables, req: WebhookRequest, env: WebhookEnv)
    requires req.payload.None?
    ensures Admit(t, req, env) == Refused(InternalError)
    ensures HandleWebhook(t, req, env) == (InternalError, [])
    ensures Status(HandleWebhook(t, req, env).0) == 500
  {
  }

  /** An aircall or twilio integration with a secret, sent a signature whose
      UTF-8 length differs from the expected one: timingSafeEqual throws and the
      reply is a 500, not a 401. */
  lemma WrongLengthSignatureIsServerError(t: Tables, req: WebhookRequest, env: WebhookEnv)
    requires req.payload.Some?
    requires var p := req.payload.value;
      var found := IntegrationFor(t.integrations, p.provider, AccountKey(p.callData));
      var sent := Or(req.signatureHeader, p.signature);
      found.Some? && Truthy(found.value.webhookSecret)
      && (p.provider == "aircall" || p.provider == "twilio") && Truthy(sent)
      && Utf8Length(sent.value)
         != Utf8Length(ExpectedSignature(p.provider, req.rawBody, found.value.webhookSecret.value, env.digest))
    ensures HandleWebhook(t, req, env) == (InternalError, [])
    ensures Status(HandleWebhook(t, req, env).0) == 500
  {
    RefusalLadder(t, req, env);
  }

  /** Past the signature gate, an integration with a secret saw exactly the expected signature. */
  lemma SignatureGate(t: Tables, req: WebhookRequest, env: WebhookEnv)
    requires req.payload.Some?
    ensures var reply := HandleWebhook(t, req, env).0;
      var p := req.payload.value;
      var found := IntegrationFor(t.integrations, p.provider, AccountKey(p.callData));
      reply != InternalError && reply != NotFound && reply != BadSignature ==>
        found.Some? &&
        (Truthy(found.value.webhookSecret) ==>
           var sent := Or(req.signatureHeader, p.signature);
           Truthy(sent)
           && sent.value == ExpectedSignature(p.provider, req.rawBody, found.value.webhookSecret.value, env.digest))
  {
  }

  /** The state after the upload and the lead step. */
  lemma StoredEffect(t: Tables, a: Admission, env: WebhookEnv)
    requires a.Admitted?
    ensures var lead := LeadOf(t, a, env);
      var after := ApplyAll(t, [PutObject(a.path)] + lead.1);
      after == t.(storage := t.storage + {a.path},
                  leads := t.leads + (if lead.1 == [] then [] else lead.1[0].leads))
  {
    var lead := LeadOf(t, a, env);
    var t1 := Apply(t, PutObject(a.path));
    assert ApplyAll(t, [PutObject(a.path)]) == t1;
    if lead.1 != [] {
      assert lead.1 == [lead.1[0]];
      ApplyAllSnoc(t, [PutObject(a.path)], lead.1[0]);
    } else {
      assert [PutObject(a.path)] + lead.1 == [PutObject(a.path)];
    }
  }

  /** A failed recording insert leaves the uploaded object in the bucket with no
      row for it: nothing removes it again. */
  lemma OrphanObjectOnRecordFailure(t: Tables, req: WebhookRequest, env: WebhookEnv)
    requires HandleWebhook(t, req, env).0 == RecordFailed
    ensures var a := Admit(t, req, env);
      var after := ApplyAll(t, HandleWebhook(t, req, env).1);
      a.Admitted? && a.path !in t.storage && after.storage == t.storage + {a.path}
      && after.recordings == t.recordings
  {
    StoredEffect(t, Admit(t, req, env), env);
  }

  /** The state after a successful import, every table spelled out: the
      object, the recording row, a created lead, the outreach attempt and
      last_sync_at change, and nothing else does. */
  lemma ImportEffect(t: Tables, req: WebhookRequest, env: WebhookEnv)
    requires HandleWebhook(t, req, env).0.Imported?
    ensures var a := Admit(t, req, env);
      a.Admitted? &&
      var lead := LeadOf(t, a, env);
      var rid := env.newRecordingId.value;
      var after := ApplyAll(t, HandleWebhook(t, req, env).1);
      a.path !in t.storage
      && after == t.(storage := t.storage + {a.path},
                     recordings := t.recordings + [RecordingOf(a, rid, env)],
                     leads := t.leads + (if lead.1 == [] then [] else lead.1[0].leads),
                     outreach := t.outreach + (if lead.0.Some? && env.outreachOk
                                               then [AttemptWrites(a, lead.0, rid, env)[0].attempt] else []),
                     integrations := if env.touchOk then TouchWhere(t.integrations, a.integration.id, env.now)
                                     else t.integrations)
  {
    IngestEffect(t, Admit(t, req, env), env);
  }

  /** The state after the writes of an admitted request with a recording id:
      every table, including the integrations touched by last_sync_at. */
  lemma IngestEffect(t: Tables, a: Admission, env: WebhookEnv)
    requires a.Admitted? && env.newRecordingId.Some?
    ensures var lead := LeadOf(t, a, env);
      var rid := env.newRecordingId.value;
      var after := ApplyAll(t, Ingest(t, a, env).1);
      after == t.(storage := t.storage + {a.path},
                  recordings := t.recordings + [RecordingOf(a, rid, env)],
                  leads := t.leads + (if lead.1 == [] then [] else lead.1[0].leads),
                  outreach := t.outreach + (if lead.0.Some? && env.outreachOk
                                            then [AttemptWrites(a, lead.0, rid, env)[0].attempt] else []),
                  integrations := if env.touchOk then TouchWhere(t.integrations, a.integration.id, env.now)
                                  else t.integrations)
  {
    var lead := LeadOf(t, a, env);
    var rid := env.newRecordingId.value;
    var stored := [PutObject(a.path)] + lead.1;
    StoredEffect(t, a, env);
    var w := InsertRecording(RecordingOf(a, rid, env));
    ApplyAllSnoc(t, stored, w);
    var ws := stored + [w];
    var attempt := AttemptWrites(a, lead.0, rid, env);
    var touch := TouchWrites(a, env);
    if attempt != [] {
      assert attempt == [attempt[0]];
      ApplyAllSnoc(t, ws, attempt[0]);
    } else {
      assert ws + attempt == ws;
    }
    var ws2 := ws + attempt;
    if touch != [] {
      assert touch == [touch[0]];
      ApplyAllSnoc(t, ws2, touch[0]);
    } else {
      assert ws2 + touch == ws2;
    }
    assert Ingest(t, a, env).1 == ws2 + touch;
  }

  /** A successful import adds exactly one call_recordings row, pointing at the
      uploaded object, with the call's id as file name and dialer_call_id and
      transcription pending. */
  lemma ImportAddsOneRecording(t: Tables, req: WebhookRequest, env: WebhookEnv)
    requires HandleWebhook(t, req, env).0.Imported?
    ensures var after := ApplyAll(t, HandleWebhook(t, req, env).1);
      var cd := req.payload.value.callData;
      |after.recordings| == |t.recordings| + 1
      && after.recordings[..|t.recordings|] == t.recordings
      && var r := after.recordings[|t.recordings|];
         r.id == HandleWebhook(t, req, env).0.recordingId
         && r.storagePath.Some? && r.storagePath.value in after.storage && r.storagePath.value !in t.storage
         && r.fileName == cd.id + ".mp3" && r.dialerCallId == Some(cd.id)
         && r.transcriptionStatus == "pending" && r.mimeType == Some("audio/mpeg")
         && (r.durationSeconds.Some? <==> cd.duration.Some? && cd.duration.value != 0)
  {
    ImportEffect(t, req, env);
  }

  /** Nothing the handler decides depends on call_recordings: a redelivered
      call is imported again, since no existing row is looked for. */
  lemma RecordingsNeverConsulted(t: Tables, rows: seq<Recording>, req: WebhookRequest, env: WebhookEnv)
    ensures HandleWebhook(t.(recordings := rows), req, env) == HandleWebhook(t, req, env)
  {
    assert Admit(t.(recordings := rows), req, env) == Admit(t, req, env);
  }

  lemma {:induction false} CountAppendOne<T>(xs: seq<T>, x: T, p: T -> bool)
    ensures Count(xs + [x], p) == Count(xs, p) + (if p(x) then 1 else 0)
  {
    if xs != [] {
      assert (xs + [x])[1..] == xs[1..] + [x];
      CountAppendOne(xs[1..], x, p);
    } else {
      assert [x][1..] == [];
    }
  }

  /** Each import adds one more row with the call's dialer_call_id, however many were there. */
  lemma ImportAddsDuplicateRows(t: Tables, req: WebhookRequest, env: WebhookEnv)
    requires HandleWebhook(t, req, env).0.Imported?
    ensures var after := ApplyAll(t, HandleWebhook(t, req, env).1);
      var callId := Some(req.payload.value.callData.id);
      Count(after.recordings, (r: Recording) => r.dialerCallId == callId)
        == Count(t.recordings, (r: Recording) => r.dialerCallId == callId) + 1
  {
    ImportEffect(t, req, env);
    var after := ApplyAll(t, HandleWebhook(t, req, env).1);
    var callId := Some(req.payload.value.callData.id);
    var p := (r: Recording) => r.dialerCallId == callId;
    CountAppendOne(t.recordings, after.recordings[|t.recordings|], p);
  }

  /** An outreach attempt is written only for a known lead, and it is
      'connected' exactly when the call lasted. */
  lemma OutreachNeedsLead(t: Tables, req: WebhookRequest, env: WebhookEnv)
    requires HandleWebhook(t, req, env).0.Imported?
    ensures var after := ApplyAll(t, HandleWebhook(t, req, env).1);
      var a := Admit(t, req, env);
      var cd := req.payload.value.callData;
      a.Admitted?
      && (|after.outreach| == |t.outreach| + 1 <==> LeadOf(t, a, env).0.Some? && env.outreachOk)
      && (|after.outreach| == |t.outreach| + 1 ==>
            var o := after.outreach[|t.outreach|];
            o.attemptType == "call" && o.leadId == LeadOf(t, a, env).0.value
            && o.callRecordingId == HandleWebhook(t, req, env).0.recordingId
            && (o.status == "connected" <==> cd.duration.Some? && cd.duration.value > 0))
      && (|after.outreach| != |t.outreach| + 1 ==> after.outreach == t.outreach)
  {
    ImportEffect(t, req, env);
  }

  /** A known lead is reused: exactly one lead of the campaign with the contact
      phone (or, without a phone, the contact email) gives its id and no write. */
  lemma LeadReused(leads: seq<Lead>, campaignId: string, companyId: string, cd: CallData, newLeadId: Option<string>)
    requires LeadSearchKey(cd).Some?
    requires var (column, value) := LeadSearchKey(cd).value;
      |Filter(leads, l => LeadMatches(l, campaignId, column, value))| == 1
    ensures var r := FindOrCreateLead(leads, campaignId, companyId, cd, newLeadId);
      var (column, value) := LeadSearchKey(cd).value;
      r.1 == [] && r.0 == Some(Filter(leads, l => LeadMatches(l, campaignId, column, value))[0].id)
  {
  }

  /** A created lead is 'contacted', belongs to the campaign and company, and
      its phone is the contact phone or else the dialled number. */
  lemma CreatedLeadColumns(campaignId: string, companyId: string, cd: CallData)
    ensures var cols := NewLeadColumns(campaignId, companyId, cd);
      cols["status"] == "contacted" && cols["campaign_id"] == campaignId && cols["company_id"] == companyId
      && ("phone" in cols <==> Truthy(cd.contactPhone) || Truthy(cd.to))
      && ("phone" in cols ==> cols["phone"] == (if Truthy(cd.contactPhone) then cd.contactPhone.value else cd.to.value))
  {
  }

  /** The first and last name of a created lead, put back together, give the contact name. */
  lemma CreatedLeadName(campaignId: string, companyId: string, cd: CallData)
    ensures var cols := NewLeadColumns(campaignId, companyId, cd);
      "first_name" in cols && "last_name" in cols ==>
        cd.contactName.Some? && cd.contactName.value == cols["first_name"] + " " + cols["last_name"]
  {
    if cd.contactName.Some? {
      SplitNameRejoins(cd.contactName.value);
    }
  }
}

=== FILE: disputes.dfy ===
// Dispute creation (app/api/disputes/create/route.ts): the dispute row is
// inserted, then the meeting it names is forced to `disputed`.

module Disputes {
  import opened Common
  import opened Store
  import opened Validations

  /** The session user, if any, and the request body (None when it is not JSON). */
  datatype DisputeRequest = DisputeRequest(sessionUser: Option<string>, body: Option<Json>)

  datatype DisputeEnv = DisputeEnv(
    newDisputeId: Option<string>,   // id of the inserted row; None when the insert fails
    updateOk: bool)                 // the meeting update succeeds

  datatype DisputeReply =
    | Unauthorized
    | ValidationError
    | InternalError
    | InsertFailed
    | Created(dispute: Dispute)

  function Status(r: DisputeReply): int
  {
    match r
    case Unauthorized => 401
    case ValidationError => 400
    case InternalError => 500
    case InsertFailed => 500
    case Created(_) => 201
  }

  function NewDispute(id: string, user: string, o: Fields): Dispute
    requires DisputeValid(o)
  {
    Dispute(id, o["meeting_id"].s, user, o["dispute_type"].s, o["reason"].s, "open")
  }

  /** The handler on the tables: its reply and the writes it makes, in order. */
  function HandleDispute(req: DisputeRequest, env: DisputeEnv): (r: (DisputeReply, seq<Write>))
    ensures r.0.Created? <==> req.sessionUser.Some? && req.body.Some?
                               && Parses(req.body.value, DisputeValid) && env.newDisputeId.Some?
    ensures req.sessionUser.None? ==> r == (Unauthorized, [])
    ensures req.sessionUser.Some? && req.body.None? ==> r == (InternalError, [])
    ensures req.sessionUser.Some? && req.body.Some? ==>
      (r == (ValidationError, []) <==> !Parses(req.body.value, DisputeValid))
      && (r == (InsertFailed, []) <==> Parses(req.body.value, DisputeValid) && env.newDisputeId.None?)
    ensures !r.0.Created? ==> r.1 == []
  {
    if req.sessionUser.None? then (Unauthorized, [])
    else if req.body.None? then (InternalError, [])
    else if !Parses(req.body.value, DisputeValid) then (ValidationError, [])
    else
      var o := req.body.value.fields;
      if env.newDisputeId.None? then (InsertFailed, [])
      else
        var d := NewDispute(env.newDisputeId.value, req.sessionUser.value, o);
        (Created(d), [InsertDispute(d)] + (if env.updateOk then [UpdateMeeting(d.meetingId, Disputed, None)] else []))
  }

  method Post(db: Database, req: DisputeRequest, env: DisputeEnv) returns (reply: DisputeReply)
    modifies db
    ensures reply == HandleDispute(req, env).0
    ensures db.Snapshot() == ApplyAll(old(db.Snapshot()), HandleDispute(req, env).1)
  {
    ghost var start := db.Snapshot();
    ghost var done: seq<Write> := [];
    if req.sessionUser.None? {
      return Unauthorized;
    }
    if req.body.None? {
      return InternalError;
    }
    if !Parses(req.body.value, DisputeValid) {
      return ValidationError;
    }
    if env.newDisputeId.None? {
      return InsertFailed;
    }
    var d := NewDispute(env.newDisputeId.value, req.sessionUser.value, req.body.value.fields);
    done := db.Run(InsertDispute(d), start, done);
    if env.updateOk {
      done := db.Run(UpdateMeeting(d.meetingId, Disputed, None), start, done);
    }
    reply := Created(d);
  }

  // ---------------------------------------------------------------------
  // Properties
  // ---------------------------------------------------------------------

  /** Every reply but 201 comes with no write at all. */
  lemma FailuresWriteNothing(req: DisputeRequest, env: DisputeEnv)
    ensures var (reply, writes) := HandleDispute(req, env);
      !reply.Created? ==> writes == []
  {
  }

  /** The dispute row is open, raised by the session user, and copies the validated fields. */
  lemma CreatedDisputeRow(req: DisputeRequest, env: DisputeEnv)
    ensures var (reply, writes) := HandleDispute(req, env);
      reply.Created? ==>
        var o := req.body.value.fields;
        var d := reply.dispute;
        d.status == "open" && d.raisedBy == req.sessionUser.value
        && d.meetingId == o["meeting_id"].s && IsUuid(d.meetingId)
        && d.disputeType in DisputeTypes && d.reason == o["reason"].s
        && writes[0] == InsertDispute(d)
  {
  }

  /** After a successful insert and update, the named meeting is `disputed`
      whatever its status was, and no other meeting or column changes. */
  lemma MeetingForcedToDisputed(t: Tables, req: DisputeRequest, env: DisputeEnv)
    requires env.updateOk
    ensures var (reply, writes) := HandleDispute(req, env);
      var after := ApplyAll(t, writes);
      reply.Created? ==>
        |after.meetings| == |t.meetings|
        && after.disputes == t.disputes + [reply.dispute]
        && forall i :: 0 <= i < |t.meetings| ==>
             after.meetings[i] == (if t.meetings[i].id == reply.dispute.meetingId
                                   then t.meetings[i].(status := Disputed) else t.meetings[i])
  {
    var (reply, writes) := HandleDispute(req, env);
    if reply.Created? {
      ApplyAllPair(t, writes[0], writes[1]);
    }
  }

  /** A failed meeting update is ignored: the reply is still 201 and only the dispute is new. */
  lemma UpdateFailureIgnored(t: Tables, req: DisputeRequest, env: DisputeEnv)
    requires !env.updateOk
    ensures var (reply, writes) := HandleDispute(req, env);
      reply.Created? ==> ApplyAll(t, writes) == t.(disputes := t.disputes + [reply.dispute])
  {
    var (reply, writes) := HandleDispute(req, env);
    if reply.Created? {
      assert writes == [InsertDispute(reply.dispute)];
      assert ApplyAll(t, writes) == ApplyAll(Apply(t, writes[0]), []);
    }
  }
}

=== FILE: gdpr_cleanup.dfy ===
// Retention cleanup (lib/gdpr-cleanup.ts): recordings whose deletion
// deadline has passed lose their stored object and are redacted in place,
// keeping the row for audit; and the cron endpoint that runs it
// (app/api/cron/gdpr-cleanup/route.ts).

module GdprCleanup {
  import opened Common
  import opened Store

  /** The outcomes of the three requests a run makes, and the current time. */
  datatype CleanupEnv = CleanupEnv(now: int, fetchOk: bool, removeOk: bool, updateOk: bool)

  datatype CleanupResult = CleanupResult(deleted: nat, errors: nat)

  /** The select's filters: a deadline that is set and not after now, and a stored object. */
  predicate Expired(r: Recording, now: int)
  {
    r.autoDeletedAt.Some? && r.autoDeletedAt.value <= now && r.storagePath.Some?
  }

  function Selection(rows: seq<Recording>, now: int): (sel: seq<Recording>)
    ensures forall r :: r in sel <==> r in rows && Expired(r, now)
  {
    var sel := Filter(rows, r => Expired(r, now));
    forall r | r in rows && Expired(r, now) ensures r in sel {
      FilterKeeps(rows, r => Expired(r, now), r);
    }
    sel
  }

  /** The storage paths of the selection (all present, by the select's filter). */
  function Paths(sel: seq<Recording>): (ps: seq<string>)
    requires forall r :: r in sel ==> r.storagePath.Some?
    ensures |ps| == |sel|
    ensures forall i :: 0 <= i < |sel| ==> ps[i] == sel[i].storagePath.value
  {
    seq(|sel|, i requires 0 <= i < |sel| => sel[i].storagePath.value)
  }

  function Ids(sel: seq<Recording>): set<string>
  {
    set r | r in sel :: r.id
  }

  /** cleanupExpiredRecordings on the tables: the counters it returns and the writes it makes. */
  function Cleanup(t: Tables, env: CleanupEnv): (r: (CleanupResult, seq<Write>))
    ensures r.0.deleted <= |Selection(t.recordings, env.now)|
    ensures r.0.deleted > 0 <==> exists w :: w in r.1 && w.RemoveObjects?
  {
    var sel := Selection(t.recordings, env.now);
    var n := |sel|;
    if !env.fetchOk then (CleanupResult(0, 1), [])
    else if n == 0 then (CleanupResult(0, 0), [])
    else
      var writes := (if env.removeOk then [RemoveObjects(Paths(sel))] else [])
                    + (if env.updateOk then [RedactRecordings(Ids(sel))] else []);
      assert env.removeOk ==> writes[0] in writes && writes[0].RemoveObjects?;
      assert !env.removeOk ==> forall w :: w in writes ==> w.RedactRecordings?;
      (CleanupResult(if env.removeOk then n else 0,
                     (if env.removeOk then 0 else n) + (if env.updateOk then 0 else n)),
       writes)
  }

  /** The run itself, counting successes and failures as it goes. */
  method CleanupExpiredRecordings(db: Database, env: CleanupEnv) returns (result: CleanupResult)
    modifies db
    ensures result == Cleanup(old(db.Snapshot()), env).0
    ensures db.Snapshot() == ApplyAll(old(db.Snapshot()), Cleanup(old(db.Snapshot()), env).1)
  {
    ghost var start := db.Snapshot();
    ghost var done: seq<Write> := [];
    var deleted := 0;
    var errors := 0;
    if !env.fetchOk {
      return CleanupResult(0, 1);
    }
    var expired := Selection(db.recordings, env.now);
    if |expired| == 0 {
      return CleanupResult(0, 0);
    }
    var filePaths := Paths(expired);
    if |filePaths| > 0 {
      if env.removeOk {
        done := db.Run(RemoveObjects(filePaths), start, done);
        deleted := deleted + |filePaths|;
      } else {
        errors := errors + |filePaths|;
      }
    }
    if env.updateOk {
      done := db.Run(RedactRecordings(Ids(expired)), start, done);
    } else {
      errors := errors + |expired|;
    }
    result := CleanupResult(deleted, errors);
  }

  // ---------------------------------------------------------------------
  // Properties
  // ---------------------------------------------------------------------

  /** A failed select reports one error and an empty selection reports nothing; neither writes. */
  lemma NothingToDo(t: Tables, env: CleanupEnv)
    ensures !env.fetchOk ==> Cleanup(t, env) == (CleanupResult(0, 1), [])
    ensures env.fetchOk && (forall r :: r in t.recordings ==> !Expired(r, env.now))
            ==> Cleanup(t, env) == (CleanupResult(0, 0), [])
  {
    if env.fetchOk && (forall r :: r in t.recordings ==> !Expired(r, env.now)) {
      var sel := Selection(t.recordings, env.now);
      if sel != [] {
        assert sel[0] in sel;
      }
    }
  }

  /** Each selected recording is counted once as deleted or as an error for
      the removal, and once more as an error if the redaction fails. */
  lemma Counters(t: Tables, env: CleanupEnv)
    requires env.fetchOk
    ensures var n := |Selection(t.recordings, env.now)|;
      var r := Cleanup(t, env).0;
      r.deleted + r.errors == (if env.updateOk then n else 2 * n)
      && (n > 0 ==> (env.removeOk <==> r.deleted == n))
  {
  }

  /** The redaction runs even when the removal failed: the rows then point at
      nothing while the objects stay in the bucket. */
  lemma RedactsDespiteRemovalFailure(t: Tables, env: CleanupEnv)
    requires env.fetchOk && !env.removeOk && env.updateOk
    ensures var after := ApplyAll(t, Cleanup(t, env).1);
      after.storage == t.storage && |after.recordings| == |t.recordings|
      && forall i :: 0 <= i < |t.recordings| && Expired(t.recordings[i], env.now) ==>
           after.recordings[i].storagePath.None?
  {
    var sel := Selection(t.recordings, env.now);
    var after := ApplyAll(t, Cleanup(t, env).1);
    if |sel| > 0 {
      assert Cleanup(t, env).1 == [RedactRecordings(Ids(sel))];
      ApplyAllOne(t, RedactRecordings(Ids(sel)));
      forall i | 0 <= i < |t.recordings| && Expired(t.recordings[i], env.now)
        ensures after.recordings[i].storagePath.None?
      {
        assert t.recordings[i] in sel;
      }
    }
  }

  /** The bucket after a run whose requests all succeed: exactly the selected objects are gone. */
  lemma SuccessfulRunStorage(t: Tables, env: CleanupEnv)
    requires env.fetchOk && env.removeOk && env.updateOk
    ensures var sel := Selection(t.recordings, env.now);
      ApplyAll(t, Cleanup(t, env).1).storage == t.storage - (set r | r in sel :: r.storagePath.value)
  {
    var sel := Selection(t.recordings, env.now);
    if |sel| > 0 {
      var ws := Cleanup(t, env).1;
      ApplyAllPair(t, ws[0], ws[1]);
      PathSet(sel);
    }
  }

  /** The paths of a selection, as a set: its rows' storage paths. */
  lemma PathSet(sel: seq<Recording>)
    requires forall r :: r in sel ==> r.storagePath.Some?
    ensures (set p | p in Paths(sel)) == (set r | r in sel :: r.storagePath.value)
  {
    var paths := Paths(sel);
    forall p | p in paths ensures p in (set r | r in sel :: r.storagePath.value) {
      var i :| 0 <= i < |paths| && paths[i] == p;
      assert sel[i] in sel;
    }
    forall r | r in sel ensures r.storagePath.value in paths {
      var i :| 0 <= i < |sel| && sel[i] == r;
      assert paths[i] == r.storagePath.value;
    }
  }

  /** On a table with unique ids, a row's id is among the selected ids exactly when the row is selected. */
  lemma SelectedIds(rows: seq<Recording>, now: int, i: int)
    requires UniqueIds(rows) && 0 <= i < |rows|
    ensures rows[i].id in Ids(Selection(rows, now)) <==> Expired(rows[i], now)
  {
    var sel := Selection(rows, now);
    if Expired(rows[i], now) {
      assert rows[i] in sel;
    }
  }

  /** With a non-empty selection and a successful redaction, the rows end up as RedactWhere makes them. */
  lemma RedactionWrites(t: Tables, env: CleanupEnv)
    requires env.fetchOk && env.updateOk && |Selection(t.recordings, env.now)| > 0
    ensures var sel := Selection(t.recordings, env.now);
      ApplyAll(t, Cleanup(t, env).1).recordings == RedactWhere(t.recordings, Ids(sel))
  {
    var sel := Selection(t.recordings, env.now);
    var redact := RedactRecordings(Ids(sel));
    if env.removeOk {
      assert Cleanup(t, env).1 == [RemoveObjects(Paths(sel)), redact];
      ApplyAllPair(t, RemoveObjects(Paths(sel)), redact);
    } else {
      assert Cleanup(t, env).1 == [redact];
      ApplyAllOne(t, redact);
    }
  }

  /** The rows after a run whose redaction succeeds, on a table with unique
      ids: the selected rows lose their path, name and transcription and keep
      every other column; the other rows are untouched. */
  lemma RedactionEffect(t: Tables, env: CleanupEnv)
    requires env.fetchOk && env.updateOk
    requires UniqueIds(t.recordings)
    ensures var after := ApplyAll(t, Cleanup(t, env).1);
      |after.recordings| == |t.recordings|
      && forall i :: 0 <= i < |t.recordings| ==>
           var r := t.recordings[i];
           var s := after.recordings[i];
           (Expired(r, env.now) ==> s == r.(storagePath := None, fileName := Tombstone, transcription := None))
           && (!Expired(r, env.now) ==> s == r)
  {
    var sel := Selection(t.recordings, env.now);
    var after := ApplyAll(t, Cleanup(t, env).1);
    if |sel| > 0 {
      RedactionWrites(t, env);
      forall i | 0 <= i < |t.recordings| ensures (t.recordings[i].id in Ids(sel) <==> Expired(t.recordings[i], env.now)) {
        SelectedIds(t.recordings, env.now, i);
      }
    }
  }

  /** Once a run has redacted, a second run at the same time selects nothing. */
  lemma SecondRunSelectsNothing(t: Tables, env: CleanupEnv)
    requires env.fetchOk && env.updateOk
    ensures Selection(ApplyAll(t, Cleanup(t, env).1).recordings, env.now) == []
  {
    var sel := Selection(t.recordings, env.now);
    var after := ApplyAll(t, Cleanup(t, env).1);
    if |sel| > 0 {
      RedactionWrites(t, env);
      forall i | 0 <= i < |after.recordings| ensures !Expired(after.recordings[i], env.now) {
        assert Expired(t.recordings[i], env.now) ==> t.recordings[i] in sel;
      }
    }
    FilterNone(after.recordings, r => Expired(r, env.now));
  }

  // ---------------------------------------------------------------------
  // Expiration statistics
  // ---------------------------------------------------------------------

  const Week := 7 * 24 * 60 * 60 * 1000

  datatype ExpirationStats = ExpirationStats(total: nat, expiringSoon: nat, expired: nat)

  /** Whether each of the three counting queries succeeds; a failed one counts 0. */
  datatype StatsEnv = StatsEnv(now: int, allOk: bool, soonOk: bool, expiredOk: bool)

  predicate Stored(r: Recording)
  {
    r.storagePath.Some?
  }

  predicate ExpiringSoon(r: Recording, now: int)
  {
    r.autoDeletedAt.Some? && now <= r.autoDeletedAt.value <= now + Week && r.storagePath.Some?
  }

  function RecordingExpirationStats(rows: seq<Recording>, env: StatsEnv): (s: ExpirationStats)
    ensures s.expired <= s.total || !env.allOk
    ensures s.expiringSoon <= s.total || !env.allOk
  {
    CountImplies(rows, r => Expired(r, env.now), Stored);
    CountImplies(rows, r => ExpiringSoon(r, env.now), Stored);
    ExpirationStats(
      if env.allOk then Count(rows, Stored) else 0,
      if env.soonOk then Count(rows, r => ExpiringSoon(r, env.now)) else 0,
      if env.expiredOk then Count(rows, r => Expired(r, env.now)) else 0)
  }

  lemma {:induction false} CountImplies<T>(xs: seq<T>, p: T -> bool, q: T -> bool)
    requires forall x :: p(x) ==> q(x)
    ensures Count(xs, p) <= Count(xs, q)
  {
    if xs != [] {
      CountImplies(xs[1..], p, q);
    }
  }

  /** The expired count is the number of rows a cleanup run at the same time selects. */
  lemma ExpiredIsCleanupSelection(rows: seq<Recording>, env: StatsEnv)
    requires env.expiredOk
    ensures RecordingExpirationStats(rows, env).expired == |Selection(rows, env.now)|
  {
    CountIsFilterLength(rows, r => Expired(r, env.now));
  }

  /** A deadline equal to now is counted both as expired and as expiring soon. */
  lemma DeadlineNowCountsTwice(r: Recording, now: int)
    requires r.autoDeletedAt == Some(now) && r.storagePath.Some?
    ensures var s := RecordingExpirationStats([r], StatsEnv(now, true, true, true));
      s == ExpirationStats(1, 1, 1)
  {
  }

  // ---------------------------------------------------------------------
  // The cron endpoint
  // ---------------------------------------------------------------------

  /** The request proceeds when no CRON_SECRET is set, or the header is exactly `Bearer <secret>`. */
  predicate CronAuthorized(cronSecret: Option<string>, authorization: Option<string>)
  {
    !Truthy(cronSecret) || authorization == Some("Bearer " + cronSecret.value)
  }

  datatype CronReply = CronUnauthorized | CronSucceeded(deleted: nat, errors: nat) | CronFailed

  function CronStatus(r: CronReply): int
  {
    match r
    case CronUnauthorized => 401
    case CronSucceeded(_, _) => 200
    case CronFailed => 500
  }

  /** GET as a function of the guard and of the cleanup's outcome (None when it throws). */
  function CronGet(cronSecret: Option<string>, authorization: Option<string>,
                   outcome: Option<CleanupResult>): (r: CronReply)
    ensures r == CronUnauthorized <==> !CronAuthorized(cronSecret, authorization)
    ensures r.CronSucceeded? ==> outcome == Some(CleanupResult(r.deleted, r.errors))
  {
    if !CronAuthorized(cronSecret, authorization) then CronUnauthorized
    else if outcome.None? then CronFailed
    else CronSucceeded(outcome.value.deleted, outcome.value.errors)
  }

  /** The endpoint against the database: the cleanup runs only past the guard. */
  method CronRun(db: Database, cronSecret: Option<string>, authorization: Option<string>, env: CleanupEnv)
    returns (reply: CronReply)
    modifies db
    ensures reply == CronGet(cronSecret, authorization, Some(Cleanup(old(db.Snapshot()), env).0))
    ensures !CronAuthorized(cronSecret, authorization) ==> db.Snapshot() == old(db.Snapshot())
    ensures CronAuthorized(cronSecret, authorization) ==>
      db.Snapshot() == ApplyAll(old(db.Snapshot()), Cleanup(old(db.Snapshot()), env).1)
  {
    if !CronAuthorized(cronSecret, authorization) {
      return CronUnauthorized;
    }
    var result := CleanupExpiredRecordings(db, env);
    reply := CronSucceeded(result.deleted, result.errors);
  }

  /** With no secret configured every request runs; with one, a wrong or missing header never does. */
  lemma CronGuard(secret: string, header: Option<string>, outcome: Option<CleanupResult>)
    ensures CronGet(None, header, outcome) != CronUnauthorized
    ensures CronGet(Some(""), header, outcome) != CronUnauthorized
    ensures secret != "" && header != Some("Bearer " + secret) ==>
      CronGet(Some(secret), header, outcome) == CronUnauthorized
  {
  }
}

=== FILE: i18n.dfy ===
// The locale constants of the internationalisation setup (i18n.ts).

module I18n {
  /** `locales`. */
  const Locales: set<string> := {"en", "sv"}

  /** `defaultLocale`. */
  const DefaultLocale := "sv"

  /** The `Locale` type: one of the configured locales. */
  type Locale = s: string | s == "en" || s == "sv" witness "sv"
}

=== FILE: language_switcher.dfy ===
// The language switcher (components/shared/LanguageSwitcher.tsx): the
// locale cookie and the rewrite of the current path to the chosen locale.

module LanguageSwitcher {
  import opened Common
  import opened I18n

  /** One year, in seconds. */
  const CookieMaxAge: nat := 60 * 60 * 24 * 365

  /** The cookie that remembers the chosen locale. */
  function LocaleCookie(locale: Locale): string
  {
    "NEXT_LOCALE=" + locale + "; path=/; max-age=" + NatToString(CookieMaxAge)
  }

  /** The cookie names the locale, is site-wide and lives 31536000 seconds. */
  lemma CookieLastsOneYear(locale: Locale)
    ensures var c := LocaleCookie(locale);
      var tail := NatToString(CookieMaxAge);
      c == "NEXT_LOCALE=" + locale + "; path=/; max-age=" + tail
      && IsDigits(tail) && DigitsValue(tail) == 31536000
  {
    DigitsValueOfNatToString(CookieMaxAge);
  }

  /** The segments after the rewrite: segment 1 replaced when it is a locale,
      the new locale inserted at 1 otherwise. */
  function Relocalized(segments: seq<string>, newLocale: Locale): (r: seq<string>)
    requires |segments| >= 1
    ensures |r| >= 2 && r[1] == newLocale
    ensures |r| == |segments| || |r| == |segments| + 1
  {
    if |segments| > 1 && segments[1] != "" && segments[1] in Locales then segments[1 := newLocale]
    else segments[..1] + [newLocale] + segments[1..]
  }

  /** switchLocale: nothing when the locale does not change; otherwise the
      cookie to set and the path to go to. */
  method SwitchLocale(pathname: string, current: Locale, newLocale: Locale)
    returns (cookie: Option<string>, newPath: Option<string>)
    ensures newLocale == current ==> cookie == None && newPath == None
    ensures newLocale != current ==>
      cookie == Some(LocaleCookie(newLocale))
      && newPath == Some(Join(Relocalized(Split(pathname, '/'), newLocale), "/"))
  {
    if newLocale == current {
      return None, None;
    }
    cookie := Some(LocaleCookie(newLocale));
    var segments := Split(pathname, '/');
    if |segments| > 1 && segments[1] != "" && segments[1] in Locales {
      segments := segments[1 := newLocale];
    } else {
      segments := segments[..1] + [newLocale] + segments[1..];
    }
    newPath := Some(Join(segments, "/"));
  }

  /** The path switchLocale goes to. */
  function SwitchedPath(pathname: string, newLocale: Locale): string
  {
    Join(Relocalized(Split(pathname, '/'), newLocale), "/")
  }

  /** The rewritten path splits back into the rewritten segments. */
  lemma SwitchedPathSegments(pathname: string, newLocale: Locale)
    ensures Split(SwitchedPath(pathname, newLocale), '/') == Relocalized(Split(pathname, '/'), newLocale)
  {
    var segments := Split(pathname, '/');
    var r := Relocalized(segments, newLocale);
    assert '/' !in newLocale;
    forall i | 0 <= i < |r|
      ensures '/' !in r[i]
    {
      if !(|segments| > 1 && segments[1] != "" && segments[1] in Locales) && i > 1 {
        assert r[i] == segments[i - 1];
      }
    }
    SplitJoin(r, '/');
  }

  /** The new locale is always the first segment of the new path. */
  lemma NewLocaleLeads(pathname: string, newLocale: Locale)
    ensures var parts := Split(SwitchedPath(pathname, newLocale), '/');
      |parts| >= 2 && parts[1] == newLocale
  {
    SwitchedPathSegments(pathname, newLocale);
  }

  /** Every other segment keeps its value and its order: a locale segment is
      replaced, otherwise the old segments follow the new locale (and the new
      path splits into these segments, by SwitchedPathSegments). */
  lemma OtherSegmentsKept(pathname: string, newLocale: Locale)
    ensures var before := Split(pathname, '/');
      var parts := Relocalized(before, newLocale);
      if |before| > 1 && before[1] != "" && before[1] in Locales then
        |parts| == |before| && parts[0] == before[0] && parts[2..] == before[2..]
      else
        parts[..1] + parts[2..] == before
  {
    var before := Split(pathname, '/');
    var parts := Relocalized(before, newLocale);
    if !(|before| > 1 && before[1] != "" && before[1] in Locales) {
      assert parts[..1] == before[..1] && parts[2..] == before[1..];
      assert before == before[..1] + before[1..];
    }
  }

  /** The site root gains a locale segment: `/` becomes `/en/`. */
  lemma RootGetsLocale()
    ensures SwitchedPath("/", "en") == "/en/"
  {
    assert "/" == "" + ['/'] + "";
    SplitConcat("", "", '/');
    assert Split("", '/') == [""];
    assert Relocalized(["", ""], "en") == ["", "en", ""];
  }

  /** getLanguageName. */
  function LanguageName(locale: Locale): (name: string)
    ensures name == "Svenska" <==> locale == "sv"
  {
    if locale == "sv" then "Svenska" else "English"
  }

  /** Each locale has its own name. */
  lemma LanguageNamesDiffer(a: Locale, b: Locale)
    requires a != b
    ensures LanguageName(a) != LanguageName(b)
  {
  }
}

=== FILE: leads_page.dfy ===
// The lead upload page (app/company/leads/upload/page.tsx): the header and
// preview rows shown for a chosen CSV file, the column mapping guessed from
// the header names, and the guard in front of the upload.

module LeadsPage {
  import opened Common
  import opened LeadsUpload

  /** What handleFileSelect shows: the header cells and up to five data rows. */
  datatype CsvPreview = CsvPreview(headers: seq<string>, rows: seq<seq<string>>)

  const PreviewSize: nat := 5

  /** Each line cut into trimmed cells. */
  function CellRows(lines: seq<string>): (rows: seq<seq<string>>)
    ensures |rows| == |lines|
    ensures forall i :: 0 <= i < |lines| ==> rows[i] == Cells(lines[i])
  {
    seq(|lines|, i requires 0 <= i < |lines| => Cells(lines[i]))
  }

  /** `lines[0]` and `lines.slice(1, 6)`, each line cut into trimmed cells.
      None when there is no line: `lines[0].split` then throws and nothing
      is shown. */
  function Preview(lines: seq<string>): (r: Option<CsvPreview>)
    ensures r.Some? <==> |lines| >= 1
    ensures r.Some? ==> r.value.headers == Cells(lines[0])
    ensures r.Some? ==> |r.value.rows| == Min(PreviewSize, |lines| - 1)
    ensures r.Some? ==> forall i :: 0 <= i < |r.value.rows| ==> r.value.rows[i] == Cells(lines[i + 1])
  {
    if lines == [] then None
    else Some(CsvPreview(Cells(lines[0]), CellRows(lines[1..Min(PreviewSize + 1, |lines|)])))
  }

  /** The preview of a chosen file: its non-blank lines, previewed. */
  function PreviewOf(text: string): (r: Option<CsvPreview>)
    ensures r.Some? <==> exists l :: l in Split(text, '\n') && !IsBlank(l)
  {
    var lines := Lines(text);
    assert lines != [] ==> lines[0] in lines;
    Preview(Lines(text))
  }

  // ---------------------------------------------------------------------
  // Auto-mapping
  // ---------------------------------------------------------------------

  /** The lead field a header suggests: the first rule whose words occur in
      the lower-cased header, or None. */
  function FieldFor(header: string): Option<string>
  {
    var h := Lower(header);
    if Contains(h, "first") || Contains(h, "fname") then Some("first_name")
    else if Contains(h, "last") || Contains(h, "lname") || Contains(h, "surname") then Some("last_name")
    else if Contains(h, "email") || Contains(h, "mail") then Some("email")
    else if Contains(h, "phone") || Contains(h, "tel") then Some("phone")
    else if Contains(h, "title") || Contains(h, "job") then Some("title")
    else if Contains(h, "company") then Some("company_name")
    else if Contains(h, "linkedin") then Some("linkedin_url")
    else None
  }

  /** The mapping after the headers so far: each header sets its field, so a
      later header overwrites an earlier one for the same field. */
  function AutoMapOf(headers: seq<string>): map<string, string>
  {
    if headers == [] then map[]
    else
      var m := AutoMapOf(headers[..|headers| - 1]);
      var h := headers[|headers| - 1];
      match FieldFor(h)
      case Some(f) => m[f := h]
      case None => m
  }

  /** `headers.forEach(...)` filling `autoMapping`. */
  method AutoMap(headers: seq<string>) returns (mapping: map<string, string>)
    ensures mapping == AutoMapOf(headers)
  {
    mapping := map[];
    var i := 0;
    while i < |headers|
      invariant 0 <= i <= |headers|
      invariant mapping == AutoMapOf(headers[..i])
    {
      var header := headers[i];
      var field := FieldFor(header);
      assert headers[..i + 1][..i] == headers[..i];
      if field.Some? {
        mapping := mapping[field.value := header];
      }
      i := i + 1;
    }
    assert headers[..i] == headers;
  }

  /** handleUpload goes ahead only with both a file and a campaign. */
  predicate UploadStarts(hasFile: bool, campaignId: string)
  {
    hasFile && campaignId != ""
  }

  /** The form handleUpload posts: the file's text, the chosen campaign and
      the mapping, stringified as a JSON object. */
  function UploadForm(file: Option<string>, campaignId: string, mapping: map<string, string>): LeadForm
  {
    LeadForm(file, Some(campaignId), Some(JObj(map k | k in mapping :: JStr(mapping[k]))))
  }

  // ---------------------------------------------------------------------
  // Properties
  // ---------------------------------------------------------------------

  /** A field is mapped exactly when some header suggests it. */
  lemma {:induction false} MappedIffSuggested(headers: seq<string>, f: string)
    ensures f in AutoMapOf(headers) <==> exists i :: 0 <= i < |headers| && FieldFor(headers[i]) == Some(f)
  {
    if headers != [] {
      var init := headers[..|headers| - 1];
      MappedIffSuggested(init, f);
      assert forall i :: 0 <= i < |init| ==> init[i] == headers[i];
    }
  }

  /** When several headers suggest a field, the last of them wins. */
  lemma {:induction false} LastHeaderWins(headers: seq<string>, f: string, i: nat)
    requires i < |headers| && FieldFor(headers[i]) == Some(f)
    requires forall j :: i < j < |headers| ==> FieldFor(headers[j]) != Some(f)
    ensures f in AutoMapOf(headers) && AutoMapOf(headers)[f] == headers[i]
  {
    var last := |headers| - 1;
    if i < last {
      var init := headers[..last];
      assert forall j :: i < j < |init| ==> init[j] == headers[j];
      LastHeaderWins(init, f, i);
    }
  }

  /** Every mapped value is one of the headers, and it suggests the field it is mapped to. */
  lemma {:induction false} MappedHeadersSuggestTheirField(headers: seq<string>)
    ensures forall f :: f in AutoMapOf(headers) ==>
      AutoMapOf(headers)[f] in headers && FieldFor(AutoMapOf(headers)[f]) == Some(f)
  {
    if headers != [] {
      var init := headers[..|headers| - 1];
      MappedHeadersSuggestTheirField(init);
      assert forall h :: h in init ==> h in headers;
    }
  }

  /** Rule order decides overlaps: a header suggests a later field only when
      it holds none of the words of the earlier rules, so "Company Email"
      is an email column and "Job Mail" is not a title one. */
  lemma EarlierRulesWin(header: string)
    ensures var h := Lower(header);
      (Contains(h, "email") || Contains(h, "mail")) && FieldFor(header) != Some("email") ==>
        FieldFor(header) in {Some("first_name"), Some("last_name")}
    ensures FieldFor(header) in {Some("title"), Some("company_name")} ==>
      var h := Lower(header);
      !Contains(h, "email") && !Contains(h, "mail") && !Contains(h, "phone") && !Contains(h, "tel")
  {
  }

  /** Every suggestion is one of the seven lead columns the page knows. */
  lemma SuggestedFieldsAreLeadColumns(header: string)
    ensures FieldFor(header).Some? ==>
      FieldFor(header).value in {"first_name", "last_name", "email", "phone", "title", "company_name", "linkedin_url"}
  {
  }

  lemma LowerHotel()
    ensures Lower("Hotel") == "hotel"
  {
    var r := Lower("Hotel");
    assert r[0] == LowerChar('H') == 'h';
    assert r[1] == 'o' && r[2] == 't' && r[3] == 'e' && r[4] == 'l';
    assert r == "hotel";
  }

  lemma HotelNameWords()
    ensures var h := "hotel";
      !Contains(h, "first") && !Contains(h, "fname")
      && !Contains(h, "last") && !Contains(h, "lname") && !Contains(h, "surname")
  {
    var h := "hotel";
    NotContainsChar(h, "first", 0);
    NotContainsChar(h, "fname", 0);
    NotContainsChar(h, "last", 2);
    NotContainsChar(h, "lname", 1);
    NotContainsChar(h, "surname", 0);
  }

  lemma HotelContactWords()
    ensures var h := "hotel";
      !Contains(h, "email") && !Contains(h, "mail")
      && !Contains(h, "phone") && Contains(h, "tel")
  {
    var h := "hotel";
    ContainsAt(h, "tel", 2);
    NotContainsChar(h, "email", 1);
    NotContainsChar(h, "mail", 0);
    NotContainsChar(h, "phone", 0);
  }

  /** "Hotel" is a phone column, through the 'tel' inside it. */
  lemma HotelIsPhone()
    ensures FieldFor("Hotel") == Some("phone")
  {
    LowerHotel();
    HotelNameWords();
    HotelContactWords();
  }

  /** The page's guard and the route's agree: for a signed-in company user,
      the page starts an upload exactly when the route would not answer its
      form with 400 for a missing field. */
  lemma UploadNeedsFileAndCampaign(file: Option<string>, campaignId: string, mapping: map<string, string>,
                                   env: LeadUploadEnv)
    ensures var req := LeadUploadRequest(true, Some("company"), Some(UploadForm(file, campaignId, mapping)));
      UploadStarts(file.Some?, campaignId) <==> LeadsUpload.Admit(req, env) != Some(MissingFields)
  {
  }
}

=== FILE: leads_upload.dfy ===
// The CSV lead import (app/api/leads/upload/route.ts): a naive split of the
// file into lines and of each line into comma-separated cells (no quoting),
// one lead per line after the header, columns picked through the mapping the
// company chose, and inserts in consecutive batches of at most 100.

module LeadsUpload {
  import opened Common
  import opened Store

  // ---------------------------------------------------------------------
  // Splitting the file
  // ---------------------------------------------------------------------

  /** `text.split('\n').filter(line => line.trim())` */
  function Lines(text: string): (r: seq<string>)
    ensures forall i :: 0 <= i < |r| ==> !IsBlank(r[i])
    ensures forall l :: l in r <==> l in Split(text, '\n') && !IsBlank(l)
  {
    var parts := Split(text, '\n');
    forall l | l in parts && !IsBlank(l) ensures l in Filter(parts, l => !IsBlank(l)) {
      FilterKeeps(parts, l => !IsBlank(l), l);
    }
    Filter(parts, l => !IsBlank(l))
  }

  /** Lines keep their order: the non-blank first line comes first, before
      the lines of the rest of the text, and a blank one is dropped. */
  lemma LinesInOrder(line: string, rest: string)
    requires '\n' !in line
    ensures Lines(line + "\n" + rest) == (if IsBlank(line) then [] else [line]) + Lines(rest)
    ensures Lines(line) == (if IsBlank(line) then [] else [line])
  {
    SplitConcat(line, rest, '\n');
    SplitNoSep(line, '\n');
    FilterAppend([line], Split(rest, '\n'), l => !IsBlank(l));
  }

  /** `line.split(',').map(v => v.trim())` */
  function Cells(line: string): (r: seq<string>)
    ensures |r| == |Split(line, ',')|
    ensures forall i :: 0 <= i < |r| ==> r[i] == Trim(Split(line, ',')[i])
    ensures forall i :: 0 <= i < |r| ==> r[i] == [] || (!IsSpace(r[i][0]) && !IsSpace(r[i][|r[i]| - 1]))
  {
    var parts := Split(line, ',');
    seq(|parts|, i requires 0 <= i < |parts| => Trim(parts[i]))
  }

  /** A line of trimmed cells without commas reads back as those cells. */
  lemma CellsOfJoin(cells: seq<string>)
    requires |cells| >= 1
    requires forall i :: 0 <= i < |cells| ==> ',' !in cells[i] && Trim(cells[i]) == cells[i]
    ensures Cells(Join(cells, ",")) == cells
  {
    SplitJoin(cells, ',');
  }

  // ---------------------------------------------------------------------
  // One lead
  // ---------------------------------------------------------------------

  /** The properties of an array-like value: "0", "1", ... each naming its element. */
  function IndexKeys(items: seq<Json>): map<string, Json>
  {
    if items == [] then map[]
    else IndexKeys(items[..|items| - 1])[NatToString(|items| - 1) := items[|items| - 1]]
  }

  /** An array-like value has no property but its indices. */
  lemma {:induction false} IndexKeysOnly(items: seq<Json>, k: string) returns (i: nat)
    requires k in IndexKeys(items)
    ensures i < |items| && k == NatToString(i)
  {
    var n := |items| - 1;
    if k == NatToString(n) {
      i := n;
    } else {
      i := IndexKeysOnly(items[..n], k);
    }
  }

  /** Element i of an array-like value is the property named by its index. */
  lemma {:induction false} IndexKeysValue(items: seq<Json>, i: nat)
    requires i < |items|
    ensures NatToString(i) in IndexKeys(items) && IndexKeys(items)[NatToString(i)] == items[i]
  {
    var n := |items| - 1;
    if i < n {
      IndexKeysValue(items[..n], i);
      if NatToString(i) == NatToString(n) {
        NatToStringInjective(i, n);
      }
    }
  }

  /** The characters of a string, each as a one-character string. */
  function CharStrings(s: string): (r: seq<Json>)
    ensures |r| == |s| && forall i :: 0 <= i < |s| ==> r[i] == JStr([s[i]])
  {
    seq(|s|, i requires 0 <= i < |s| => JStr([s[i]]))
  }

  /** `Object.keys(mapping)` with `mapping[field]`: the fields of an object,
      the index keys of an array or of a string's characters, and nothing for
      a boolean or a number. */
  function MappingFields(mapping: Json): map<string, Json>
  {
    match mapping
    case JObj(fields) => fields
    case JArr(items) => IndexKeys(items)
    case JStr(s) => IndexKeys(CharStrings(s))
    case _ => map[]
  }

  /** An array mapping maps field "i" to its i-th entry, a string mapping to
      its i-th character; no other field is read from either, and a boolean
      or a number maps nothing. */
  lemma MappingFieldsOfArrayLike(mapping: Json, i: nat, k: string)
    ensures mapping.JArr? && i < |mapping.items| ==>
      NatToString(i) in MappingFields(mapping) && MappingFields(mapping)[NatToString(i)] == mapping.items[i]
    ensures mapping.JStr? && i < |mapping.s| ==>
      NatToString(i) in MappingFields(mapping) && MappingFields(mapping)[NatToString(i)] == JStr([mapping.s[i]])
    ensures (mapping.JArr? || mapping.JStr?) && k in MappingFields(mapping) ==> exists j: nat :: k == NatToString(j)
    ensures !(mapping.JObj? || mapping.JArr? || mapping.JStr?) ==> MappingFields(mapping) == map[]
  {
    if mapping.JArr? {
      if i < |mapping.items| {
        IndexKeysValue(mapping.items, i);
      }
      if k in MappingFields(mapping) {
        var j := IndexKeysOnly(mapping.items, k);
      }
    }
    if mapping.JStr? {
      if i < |mapping.s| {
        IndexKeysValue(CharStrings(mapping.s), i);
      }
      if k in MappingFields(mapping) {
        var j := IndexKeysOnly(CharStrings(mapping.s), k);
      }
    }
  }

  /** `values[headers.indexOf(column)]` when that is a non-empty cell. */
  function MappedCell(headers: seq<string>, values: seq<string>, column: Json): (r: Option<string>)
    ensures r.Some? <==> column.JStr? && column.s in headers
                         && IndexOf(headers, column.s) < |values| && values[IndexOf(headers, column.s)] != ""
    ensures r.Some? ==> r.value == values[IndexOf(headers, column.s)] && r.value != ""
  {
    if !column.JStr? then None
    else
      var c := IndexOf(headers, column.s);
      if 0 <= c < |values| && values[c] != "" then Some(values[c]) else None
  }

  /** The fixed columns every lead starts with. */
  function BaseColumns(campaignId: string, companyId: string): map<string, string>
  {
    map["campaign_id" := campaignId, "company_id" := companyId, "status" := "new"]
  }

  /** The columns the mapping fills in, before the name rule. */
  function MappedColumns(headers: seq<string>, values: seq<string>, mapping: Json,
                         campaignId: string, companyId: string): map<string, string>
  {
    var fields := MappingFields(mapping);
    BaseColumns(campaignId, companyId)
      + map f | f in fields && MappedCell(headers, values, fields[f]).Some? :: MappedCell(headers, values, fields[f]).value
  }

  /** A column is truthy when it is present and non-empty. */
  predicate Has(lead: map<string, string>, column: string)
  {
    column in lead && lead[column] != ""
  }

  /** Unless first and last name are both set, a `name` column is split into
      them at the first space and removed. A null half leaves the column out. */
  function NameRule(lead: map<string, string>): (r: map<string, string>)
    ensures Has(r, "name") ==> Has(r, "first_name") && Has(r, "last_name")
  {
    if Has(lead, "first_name") && Has(lead, "last_name") then lead
    else if Has(lead, "name") then
      var (first, last) := SplitName(lead["name"]);
      (lead - {"name", "first_name", "last_name"})
        + (if first.Some? then map["first_name" := first.value] else map[])
        + (if last.Some? then map["last_name" := last.value] else map[])
    else lead
  }

  /** The lead built from one data line. */
  function LeadColumns(headers: seq<string>, line: string, mapping: Json,
                       campaignId: string, companyId: string): (r: map<string, string>)
    ensures "campaign_id" in r && "company_id" in r && "status" in r
  {
    var mapped := MappedColumns(headers, Cells(line), mapping, campaignId, companyId);
    NameRuleKeepsOthers(mapped, "campaign_id");
    NameRuleKeepsOthers(mapped, "company_id");
    NameRuleKeepsOthers(mapped, "status");
    NameRule(mapped)
  }

  /** The body of the loop over the data lines, for one header line, mapping,
      campaign and company. */
  function LineBuilder(headers: seq<string>, mapping: Json, campaignId: string, companyId: string)
    : string -> map<string, string>
  {
    line => LeadColumns(headers, line, mapping, campaignId, companyId)
  }

  /** The leads of the data lines, one per line, in file order. */
  function LeadsFrom(build: string -> map<string, string>, dataLines: seq<string>): (leads: seq<map<string, string>>)
    ensures |leads| == |dataLines|
  {
    if dataLines == [] then []
    else LeadsFrom(build, dataLines[..|dataLines| - 1]) + [build(dataLines[|dataLines| - 1])]
  }

  /** The loop over the data lines: `for (let i = 1; i < lines.length; i++)`. */
  method BuildLeads(lines: seq<string>, build: string -> map<string, string>)
    returns (leads: seq<map<string, string>>)
    ensures leads == LeadsFrom(build, if lines == [] then [] else lines[1..])
  {
    leads := [];
    if lines == [] {
      return;
    }
    var i := 1;
    while i < |lines|
      invariant 1 <= i <= |lines|
      invariant leads == LeadsFrom(build, lines[1..i])
    {
      var lead := build(lines[i]);
      assert lines[1..i + 1][..i - 1] == lines[1..i];
      leads := leads + [lead];
      i := i + 1;
    }
    assert lines[1..i] == lines[1..];
  }

  // ---------------------------------------------------------------------
  // Batches
  // ---------------------------------------------------------------------

  const BatchSize: nat := 100

  /** The number of batches `for (i = 0; i < n; i += 100)` runs. */
  function BatchCount(n: nat): nat
  {
    (n + BatchSize - 1) / BatchSize
  }

  /** `leads.slice(100·j, 100·j + 100)` */
  function Batch(rows: seq<Lead>, j: nat): (b: seq<Lead>)
    requires j < BatchCount(|rows|)
    ensures 1 <= |b| <= BatchSize
  {
    rows[BatchSize * j .. Min(BatchSize * j + BatchSize, |rows|)]
  }

  /** The inserts of the first k batches. */
  function BatchWrites(rows: seq<Lead>, k: nat): seq<Write>
    requires k <= BatchCount(|rows|)
  {
    seq(k, j requires 0 <= j < k => InsertLeads(Batch(rows, j)))
  }

  /** How many batches succeed: all of them, or those before the first that fails. */
  function Succeeding(n: nat, failingBatch: Option<nat>): (k: nat)
    ensures k <= BatchCount(n)
  {
    if failingBatch.Some? && failingBatch.value < BatchCount(n) then failingBatch.value else BatchCount(n)
  }

  // ---------------------------------------------------------------------
  // The handler
  // ---------------------------------------------------------------------

  /** The multipart form. `mapping` is JSON.parse of the field: None when that
      throws, JNull when the field is absent. */
  datatype LeadForm = LeadForm(file: Option<string>, campaignId: Option<string>, mapping: Option<Json>)

  datatype LeadUploadRequest = LeadUploadRequest(
    hasSession: bool,
    userType: Option<string>,   // profiles.user_type of the session user
    form: Option<LeadForm>)     // None when the body is not a readable form

  datatype LeadUploadEnv = LeadUploadEnv(
    companyId: Option<string>,   // the companies row of the user
    failingBatch: Option<nat>,   // the first batch whose insert fails, if any
    newIds: nat -> string)       // the id the database gives the k-th lead

  datatype LeadUploadReply =
    | Unauthorized
    | Forbidden
    | MissingFields
    | CompanyNotFound
    | BatchFailed
    | Uploaded(count: nat)
    | InternalError

  function Status(r: LeadUploadReply): int
  {
    match r
    case Unauthorized => 401
    case Forbidden => 403
    case MissingFields => 400
    case CompanyNotFound => 404
    case BatchFailed => 500
    case Uploaded(_) => 200
    case InternalError => 500
  }

  /** The rows the database receives: the built leads with their new ids. */
  function Rows(leads: seq<map<string, string>>, newIds: nat -> string): (r: seq<Lead>)
    ensures |r| == |leads|
    ensures forall k :: 0 <= k < |r| ==> r[k].id == newIds(k) && r[k].cols == leads[k]
  {
    seq(|leads|, k requires 0 <= k < |leads| => Lead(newIds(k), leads[k]))
  }

  /** The guards, in the handler's order; None when the request passes them all. */
  function Admit(req: LeadUploadRequest, env: LeadUploadEnv): (r: Option<LeadUploadReply>)
    ensures r.None? <==>
      req.hasSession && req.userType == Some("company") && req.form.Some?
      && req.form.value.mapping.Some? && req.form.value.file.Some?
      && Truthy(req.form.value.campaignId) && JsonTruthy(req.form.value.mapping.value)
      && env.companyId.Some? && |Lines(req.form.value.file.value)| >= 1
    ensures !req.hasSession ==> r == Some(Unauthorized)
    ensures req.hasSession && req.userType != Some("company") ==> r == Some(Forbidden)
    ensures req.hasSession && req.userType == Some("company") && (req.form.None? || req.form.value.mapping.None?)
            ==> r == Some(InternalError)
    ensures req.hasSession && req.userType == Some("company") && req.form.Some? && req.form.value.mapping.Some? ==>
      var form := req.form.value;
      var fieldsMissing := form.file.None? || !Truthy(form.campaignId) || !JsonTruthy(form.mapping.value);
      (r == Some(MissingFields) <==> fieldsMissing)
      && (r == Some(CompanyNotFound) <==> !fieldsMissing && env.companyId.None?)
      && (r == Some(InternalError) <==> !fieldsMissing && env.companyId.Some? && |Lines(form.file.value)| == 0)
  {
    if !req.hasSession then Some(Unauthorized)
    else if req.userType != Some("company") then Some(Forbidden)
    else if req.form.None? || req.form.value.mapping.None? then Some(InternalError)
    else
      var form := req.form.value;
      if form.file.None? || !Truthy(form.campaignId) || !JsonTruthy(form.mapping.value) then Some(MissingFields)
      else if env.companyId.None? then Some(CompanyNotFound)
      else if |Lines(form.file.value)| == 0 then Some(InternalError)
      else None
  }

  /** The leads the handler builds for an admitted request. */
  function LeadsOf(form: LeadForm, companyId: string): (leads: seq<map<string, string>>)
    requires form.file.Some? && form.campaignId.Some? && form.mapping.Some? && |Lines(form.file.value)| >= 1
    ensures |leads| == |Lines(form.file.value)| - 1
  {
    var lines := Lines(form.file.value);
    LeadsFrom(LineBuilder(Cells(lines[0]), form.mapping.value, form.campaignId.value, companyId), lines[1..])
  }

  /** The batch inserts of the rows: the reply and the inserts that succeed. */
  function Import(rows: seq<Lead>, failingBatch: Option<nat>): (r: (LeadUploadReply, seq<Write>))
    ensures r.0 == BatchFailed || r.0 == Uploaded(|rows|)
    ensures |r.1| <= BatchCount(|rows|)
    ensures r.0.Uploaded? <==> |r.1| == BatchCount(|rows|)
  {
    var k := Succeeding(|rows|, failingBatch);
    (if k < BatchCount(|rows|) then BatchFailed else Uploaded(|rows|), BatchWrites(rows, k))
  }

  /** The handler on the tables: its reply and the writes it makes, in order. */
  function HandleLeadUpload(req: LeadUploadRequest, env: LeadUploadEnv): (r: (LeadUploadReply, seq<Write>))
    ensures r.1 != [] ==> Admit(req, env).None?
    ensures r.0.Uploaded? ==> Admit(req, env).None? && r.0.count == |Lines(req.form.value.file.value)| - 1
  {
    if Admit(req, env).Some? then (Admit(req, env).value, [])
    else Import(Rows(LeadsOf(req.form.value, env.companyId.value), env.newIds), env.failingBatch)
  }

  /** The batch loop: insert consecutive slices of 100 until one fails. */
  method InsertBatches(db: Database, rows: seq<Lead>, failingBatch: Option<nat>,
                       ghost start: Tables, ghost done: seq<Write>)
    returns (reply: LeadUploadReply, ghost after: seq<Write>)
    requires db.Snapshot() == ApplyAll(start, done)
    modifies db
    ensures reply == Import(rows, failingBatch).0
    ensures after == done + Import(rows, failingBatch).1
    ensures db.Snapshot() == ApplyAll(start, after)
  {
    var inserted: seq<Lead> := [];
    after := done;
    var i := 0;
    var j := 0;
    BatchesLeft(|rows|, 0);
    while i < |rows|
      invariant i == BatchSize * j && j <= BatchCount(|rows|)
      invariant j < BatchCount(|rows|) <==> i < |rows|
      invariant inserted == rows[..Min(i, |rows|)]
      invariant failingBatch.Some? ==> j <= failingBatch.value
      invariant after == done + BatchWrites(rows, j)
      invariant db.Snapshot() == ApplyAll(start, after)
      decreases |rows| - i
    {
      if failingBatch == Some(j) {
        return BatchFailed, after;
      }
      var batch := rows[i .. Min(i + BatchSize, |rows|)];
      BatchStep(rows, j);
      after := db.Run(InsertLeads(batch), start, after);
      inserted := inserted + batch;
      i := i + BatchSize;
      j := j + 1;
      BatchesLeft(|rows|, j);
    }
    assert rows[..Min(i, |rows|)] == rows;
    reply := Uploaded(|inserted|);
  }

  /** A batch is left to run exactly while its first row exists. */
  lemma BatchesLeft(n: nat, j: nat)
    ensures j < BatchCount(n) <==> BatchSize * j < n
    ensures j == BatchCount(n) ==> n <= BatchSize * j
  {
    var q := (n + BatchSize - 1) / BatchSize;
    var r := (n + BatchSize - 1) % BatchSize;
    assert n + BatchSize - 1 == BatchSize * q + r;
  }

  /** One more batch extends both the inserts and the inserted prefix by that batch. */
  lemma BatchStep(rows: seq<Lead>, j: nat)
    requires j < BatchCount(|rows|)
    ensures BatchWrites(rows, j + 1) == BatchWrites(rows, j) + [InsertLeads(Batch(rows, j))]
    ensures rows[..Min(BatchSize * j, |rows|)] + Batch(rows, j) == rows[..Min(BatchSize * j + BatchSize, |rows|)]
  {
    BatchesLeft(|rows|, j);
    assert BatchWrites(rows, j + 1) == BatchWrites(rows, j) + [InsertLeads(Batch(rows, j))];
  }

  method Post(db: Database, req: LeadUploadRequest, env: LeadUploadEnv) returns (reply: LeadUploadReply)
    modifies db
    ensures reply == HandleLeadUpload(req, env).0
    ensures db.Snapshot() == ApplyAll(old(db.Snapshot()), HandleLeadUpload(req, env).1)
  {
    ghost var start := db.Snapshot();
    ghost var done: seq<Write> := [];
    var refused := Admit(req, env);
    if refused.Some? {
      assert HandleLeadUpload(req, env).1 == [];
      return refused.value;
    }
    var form := req.form.value;
    var lines := Lines(form.file.value);
    var headers := Cells(lines[0]);
    var leads := BuildLeads(lines, LineBuilder(headers, form.mapping.value, form.campaignId.value, env.companyId.value));
    assert leads == LeadsOf(form, env.companyId.value);
    var rows := Rows(leads, env.newIds);
    assert HandleLeadUpload(req, env) == Import(rows, env.failingBatch);
    reply, done := InsertBatches(db, rows, env.failingBatch, start, done);
    assert done == Import(rows, env.failingBatch).1;
  }

  // ---------------------------------------------------------------------
  // Properties
  // ---------------------------------------------------------------------

  /** The first k batches insert exactly the first 100·k rows (or all of
      them), in order, and touch nothing else. */
  lemma {:induction false} BatchesInsertPrefix(t: Tables, rows: seq<Lead>, k: nat)
    requires k <= BatchCount(|rows|)
    ensures ApplyAll(t, BatchWrites(rows, k)) == t.(leads := t.leads + rows[..Min(BatchSize * k, |rows|)])
  {
    if k == 0 {
      assert rows[..0] == [];
      assert t.leads + [] == t.leads;
    } else {
      var j := k - 1;
      BatchesInsertPrefix(t, rows, j);
      BatchStep(rows, j);
      ApplyAllSnoc(t, BatchWrites(rows, j), InsertLeads(Batch(rows, j)));
      assert BatchSize * j + BatchSize == BatchSize * k;
    }
  }

  /** A successful import inserts every row, in order, and reports their
      number; a failing batch keeps the batches before it and nothing after. */
  lemma ImportEffect(t: Tables, rows: seq<Lead>, failingBatch: Option<nat>)
    ensures var (reply, writes) := Import(rows, failingBatch);
      (reply.Uploaded? || reply.BatchFailed?)
      && (reply.Uploaded? ==> reply.count == |rows| && ApplyAll(t, writes) == t.(leads := t.leads + rows))
      && (reply.BatchFailed? ==>
            ApplyAll(t, writes) == t.(leads := t.leads + rows[..BatchSize * failingBatch.value]))
  {
    var k := Succeeding(|rows|, failingBatch);
    BatchesInsertPrefix(t, rows, k);
    if k == BatchCount(|rows|) {
      assert rows[..Min(BatchSize * k, |rows|)] == rows;
    }
  }

  /** An admitted request imports one row per data line of the file. */
  lemma OneLeadPerLine(req: LeadUploadRequest, env: LeadUploadEnv)
    requires Admit(req, env).None?
    ensures var rows := Rows(LeadsOf(req.form.value, env.companyId.value), env.newIds);
      HandleLeadUpload(req, env) == Import(rows, env.failingBatch)
      && |rows| == |Lines(req.form.value.file.value)| - 1
  {
  }

  /** Every refusal, including a file without a non-blank line, writes nothing. */
  lemma RefusalsWriteNothing(req: LeadUploadRequest, env: LeadUploadEnv)
    ensures var (reply, writes) := HandleLeadUpload(req, env);
      Admit(req, env).Some? ==> writes == [] && Status(reply) != 200
  {
    var a := Admit(req, env);
    if a.Some? {
      assert HandleLeadUpload(req, env) == (a.value, []);
      assert a.value in {Unauthorized, Forbidden, InternalError, MissingFields, CompanyNotFound};
    }
  }

  /** A file whose lines are all blank ends in 500, after every other guard has passed. */
  lemma BlankFileIsServerError(req: LeadUploadRequest, env: LeadUploadEnv)
    requires req.hasSession && req.userType == Some("company") && req.form.Some?
    requires req.form.value.mapping.Some? && JsonTruthy(req.form.value.mapping.value)
    requires Truthy(req.form.value.campaignId) && env.companyId.Some?
    requires req.form.value.file.Some? && IsBlank(req.form.value.file.value)
    ensures HandleLeadUpload(req, env) == (InternalError, [])
  {
    var text := req.form.value.file.value;
    var parts := Split(text, '\n');
    forall i | 0 <= i < |parts|
      ensures IsBlank(parts[i])
    {
      SplitPartIsBlank(text, i);
    }
    FilterNone(parts, l => !IsBlank(l));
  }

  /** Every part of a split of a blank text is blank. */
  lemma {:induction false} SplitPartIsBlank(text: string, i: nat)
    requires IsBlank(text) && i < |Split(text, '\n')|
    ensures IsBlank(Split(text, '\n')[i])
  {
    SplitPartsAreInfixes(text, '\n', i);
    var p := Split(text, '\n')[i];
    assert forall k :: 0 <= k < |p| ==> p[k] in p;
  }

  /** Each character of a part of a split is a character of the text. */
  lemma {:induction false} SplitPartsAreInfixes(s: string, sep: char, i: nat)
    requires i < |Split(s, sep)|
    ensures forall c :: c in Split(s, sep)[i] ==> c in s
  {
    if s != [] {
      var rest := Split(s[1..], sep);
      if s[0] == sep {
        if i > 0 {
          SplitPartsAreInfixes(s[1..], sep, i - 1);
        }
      } else {
        SplitPartsAreInfixes(s[1..], sep, i);
        if i == 0 {
          assert Split(s, sep)[0] == [s[0]] + rest[0];
        } else {
          assert Split(s, sep)[i] == rest[i];
        }
      }
    }
  }

  /** Lead i is built from data line i alone. */
  lemma {:induction false} LeadsFromAt(build: string -> map<string, string>, dataLines: seq<string>, i: nat)
    requires i < |dataLines|
    ensures LeadsFrom(build, dataLines)[i] == build(dataLines[i])
  {
    var init := dataLines[..|dataLines| - 1];
    if i < |init| {
      LeadsFromAt(build, init, i);
    }
  }

  /** An admitted request builds lead i from data line i + 1 of the file, with the header line's cells. */
  lemma LeadOfLine(form: LeadForm, companyId: string, i: nat)
    requires form.file.Some? && form.campaignId.Some? && form.mapping.Some? && |Lines(form.file.value)| >= 1
    requires i < |LeadsOf(form, companyId)|
    ensures var lines := Lines(form.file.value);
      LeadsOf(form, companyId)[i]
      == LeadColumns(Cells(lines[0]), lines[i + 1], form.mapping.value, form.campaignId.value, companyId)
  {
    var lines := Lines(form.file.value);
    LeadsFromAt(LineBuilder(Cells(lines[0]), form.mapping.value, form.campaignId.value, companyId), lines[1..], i);
  }

  /** The name rule touches only the name columns. */
  lemma NameRuleKeepsOthers(lead: map<string, string>, c: string)
    requires c != "name" && c != "first_name" && c != "last_name"
    ensures c in NameRule(lead) <==> c in lead
    ensures c in lead ==> NameRule(lead)[c] == lead[c]
  {
  }

  /** Without a mapping for them, every lead has the campaign, the company and status `new`. */
  lemma FixedColumns(headers: seq<string>, line: string, mapping: Json, campaignId: string, companyId: string)
    requires forall f :: f in MappingFields(mapping) ==> f != "campaign_id" && f != "company_id" && f != "status"
    ensures var lead := LeadColumns(headers, line, mapping, campaignId, companyId);
      "campaign_id" in lead && lead["campaign_id"] == campaignId
      && "company_id" in lead && lead["company_id"] == companyId
      && "status" in lead && lead["status"] == "new"
  {
    var mapped := MappedColumns(headers, Cells(line), mapping, campaignId, companyId);
    assert mapped["campaign_id"] == campaignId && mapped["company_id"] == companyId && mapped["status"] == "new";
    NameRuleKeepsOthers(mapped, "campaign_id");
    NameRuleKeepsOthers(mapped, "company_id");
    NameRuleKeepsOthers(mapped, "status");
  }

  /** A mapped field other than the name columns is set exactly when its header
      is found (first occurrence) and that line's cell is non-empty, and then
      holds the cell. */
  lemma MappedFieldRule(headers: seq<string>, line: string, mapping: Json,
                        campaignId: string, companyId: string, f: string)
    requires f in MappingFields(mapping)
    requires f != "name" && f != "first_name" && f != "last_name"
    requires f != "campaign_id" && f != "company_id" && f != "status"
    ensures var lead := LeadColumns(headers, line, mapping, campaignId, companyId);
      var cell := MappedCell(headers, Cells(line), MappingFields(mapping)[f]);
      (f in lead <==> cell.Some?) && (f in lead ==> lead[f] == cell.value)
  {
    var mapped := MappedColumns(headers, Cells(line), mapping, campaignId, companyId);
    var cell := MappedCell(headers, Cells(line), MappingFields(mapping)[f]);
    assert f in mapped <==> cell.Some?;
    assert f in mapped ==> mapped[f] == cell.value;
    NameRuleKeepsOthers(mapped, f);
  }

  /** A mapping sent as an array sets columns named by its indices: the
      array ["Email"] fills a column "0" with each line's Email cell. */
  lemma ArrayMappingSetsIndexColumn(line: string, campaignId: string, companyId: string)
    requires ',' !in line && Trim(line) == line && line != ""
    ensures var lead := LeadColumns(["Email"], line, JArr([JStr("Email")]), campaignId, companyId);
      "0" in lead && lead["0"] == line
  {
    var mapping := JArr([JStr("Email")]);
    MappingFieldsOfArrayLike(mapping, 0, "0");
    assert NatToString(0) == "0";
    SplitNoSep(line, ',');
    assert Cells(line) == [line];
    MappedFieldRule(["Email"], line, mapping, campaignId, companyId, "0");
  }

  /** When first and last name are not both mapped, a `name` column becomes
      first name = its first space-separated token and last name = the rest,
      and the `name` column itself is dropped. */
  lemma NameIsSplit(lead: map<string, string>)
    requires Has(lead, "name") && !(Has(lead, "first_name") && Has(lead, "last_name"))
    ensures var r := NameRule(lead);
      var parts := Split(lead["name"], ' ');
      "name" !in r
      && ("first_name" in r <==> parts[0] != "") && ("first_name" in r ==> r["first_name"] == parts[0])
      && ("last_name" in r <==> Join(parts[1..], " ") != "")
      && ("last_name" in r ==> r["last_name"] == Join(parts[1..], " "))
      && forall c :: c !in {"name", "first_name", "last_name"} ==> (c in r <==> c in lead) && (c in r ==> r[c] == lead[c])
  {
  }

  /** When both first and last name are set, a mapped `name` column is kept as it is. */
  lemma NameKeptBesideBothNames(lead: map<string, string>)
    requires Has(lead, "first_name") && Has(lead, "last_name")
    ensures NameRule(lead) == lead
  {
  }

  /** The first k batches, one after the other. */
  function Joined(rows: seq<Lead>, k: nat): seq<Lead>
    requires k <= BatchCount(|rows|)
  {
    if k == 0 then [] else Joined(rows, k - 1) + Batch(rows, k - 1)
  }

  /** The first k batches are the first 100·k rows, or all of them. */
  lemma {:induction false} JoinedIsPrefix(rows: seq<Lead>, k: nat)
    requires k <= BatchCount(|rows|)
    ensures Joined(rows, k) == rows[..Min(BatchSize * k, |rows|)]
  {
    if k > 0 {
      JoinedIsPrefix(rows, k - 1);
      BatchStep(rows, k - 1);
    }
  }

  /** Batches up to j concatenate to the rows before 100·(j + 1); batch j
      starts inside the rows, and it is the last exactly when it reaches their
      end, where the batches concatenate to all the rows in order. */
  lemma BatchesCoverRows(rows: seq<Lead>, j: nat)
    requires j < BatchCount(|rows|)
    ensures Joined(rows, j + 1) == rows[..Min(BatchSize * (j + 1), |rows|)]
    ensures BatchSize * j < |rows|
    ensures j + 1 == BatchCount(|rows|) <==> BatchSize * (j + 1) >= |rows|
    ensures j + 1 == BatchCount(|rows|) ==> Joined(rows, j + 1) == rows
  {
    JoinedIsPrefix(rows, j + 1);
    BatchesLeft(|rows|, j + 1);
  }
}

=== FILE: meetings_page.dfy ===
// The company's meetings page (app/company/meetings/page.tsx): the
// criteria shown per meeting with their checked marks, the approve and
// reject actions and the status update they send, the status filter, the
// counters, and the label of a rejection reason.

module MeetingsPage {
  import opened Common
  import opened Store
  import Qualification
  import Checklist

  // ---------------------------------------------------------------------
  // Criteria and checklist marks
  // ---------------------------------------------------------------------

  /** meeting_criteria as the page receives it: already an array, or text. */
  datatype CriteriaColumn = ListColumn(items: seq<string>) | TextColumn(text: string)

  /** An array of strings as a JSON array. */
  function Strings(items: seq<string>): (r: seq<Json>)
    ensures |r| == |items|
    ensures forall i :: 0 <= i < |items| ==> r[i] == JStr(items[i])
  {
    seq(|items|, i requires 0 <= i < |items| => JStr(items[i]))
  }

  /** getQualificationCriteria: an array as it is, text through JSON.parse,
      and text that does not parse as the one criterion. The parsed value is
      not checked to be an array of strings. */
  function CriteriaOf(col: CriteriaColumn, parse: JsonParser): (r: Json)
    ensures col.ListColumn? ==> r == JArr(Strings(col.items))
    ensures col.TextColumn? && parse(col.text).Some? ==> r == parse(col.text).value
    ensures col.TextColumn? && parse(col.text).None? ==> r == JArr([JStr(col.text)])
  {
    match col
    case ListColumn(items) => JArr(Strings(items))
    case TextColumn(text) =>
      match parse(text)
      case Some(j) => j
      case None => JArr([JStr(text)])
  }

  /** `meeting.qualification_checklist?.[idx] || false`. */
  predicate CheckedAt(checklist: Option<seq<bool>>, idx: nat)
  {
    checklist.Some? && idx < |checklist.value| && checklist.value[idx]
  }

  /** The checked mark of each listed criterion; None when the criteria
      value is not an array, where `.map` throws and the page fails. */
  function Marks(criteria: Json, checklist: Option<seq<bool>>): (r: Option<seq<bool>>)
    ensures r.Some? <==> criteria.JArr?
    ensures r.Some? ==> |r.value| == |criteria.items|
    ensures r.Some? ==> forall i :: 0 <= i < |r.value| ==>
      (r.value[i] <==> checklist.Some? && i < |checklist.value| && checklist.value[i])
  {
    if criteria.JArr? then Some(seq(|criteria.items|, i requires 0 <= i < |criteria.items| => CheckedAt(checklist, i)))
    else None
  }

  // ---------------------------------------------------------------------
  // Actions and the status update
  // ---------------------------------------------------------------------

  datatype Action = ApproveMeeting | RejectMeeting

  /** The buttons under a meeting: approve and reject, only while pending. */
  function Actions(m: Meeting): (r: seq<Action>)
    ensures r != [] <==> m.status == Pending
    ensures r != [] ==> r == [ApproveMeeting, RejectMeeting]
  {
    if m.status == Pending then [ApproveMeeting, RejectMeeting] else []
  }

  /** updateMeetingStatus's `updateData`: the status always, and the
      rejection reason only for a rejection that has a non-empty reason. */
  function StatusUpdate(meetingId: string, newStatus: MeetingStatus, reason: Option<string>): (w: Write)
    ensures w.UpdateMeeting? && w.meetingId == meetingId && w.newStatus == newStatus
    ensures w.reason.Some? <==> newStatus == NotQualified && Truthy(reason)
    ensures w.reason.Some? ==> w.reason == reason
  {
    UpdateMeeting(meetingId, newStatus, if newStatus == NotQualified && Truthy(reason) then reason else None)
  }

  // ---------------------------------------------------------------------
  // Filter and counters
  // ---------------------------------------------------------------------

  /** The filter buttons: all, or one status (the page offers pending,
      qualified and not_qualified). */
  datatype StatusFilter = All | Only(status: MeetingStatus)

  function HasStatus(s: MeetingStatus): Meeting -> bool
  {
    (m: Meeting) => m.status == s
  }

  /** filteredMeetings. */
  function Filtered(ms: seq<Meeting>, f: StatusFilter): (r: seq<Meeting>)
    ensures f.All? ==> r == ms
    ensures |r| <= |ms|
  {
    if f.All? then ms else Filter(ms, HasStatus(f.status))
  }

  datatype Stats = Stats(total: nat, pending: nat, qualified: nat, notQualified: nat)

  /** stats: the list length and three per-status counts. */
  function StatsOf(ms: seq<Meeting>): (r: Stats)
    ensures r.total == |ms|
    ensures r.pending <= r.total && r.qualified <= r.total && r.notQualified <= r.total
  {
    Stats(|ms|, Count(ms, HasStatus(Pending)), Count(ms, HasStatus(Qualified)), Count(ms, HasStatus(NotQualified)))
  }

  // ---------------------------------------------------------------------
  // Rejection reasons
  // ---------------------------------------------------------------------

  /** The label shown for a stored reason code; unknown codes read 'Annat'. */
  function ReasonLabel(code: string): (shown: string)
    ensures shown == "Annat" <==> code !in {"wrong_person", "no_need", "no_budget", "no_show", "poor_quality"}
  {
    if code == "wrong_person" then "Fel person / inte beslutsfattare"
    else if code == "no_need" then "Inget aktivt behov"
    else if code == "no_budget" then "Ingen budget"
    else if code == "no_show" then "Mötet hände inte"
    else if code == "poor_quality" then "Dålig kvalitet"
    else "Annat"
  }

  /** The reason line under a meeting: only for a not-qualified meeting with
      a non-empty stored reason. */
  function ShownReason(m: Meeting): (r: Option<string>)
    ensures r.Some? <==> m.status == NotQualified && Truthy(m.rejectionReason)
    ensures r.Some? ==> r.value == ReasonLabel(m.rejectionReason.value)
  {
    if m.status == NotQualified && Truthy(m.rejectionReason) then Some(ReasonLabel(m.rejectionReason.value))
    else None
  }

  // ---------------------------------------------------------------------
  // The page's state
  // ---------------------------------------------------------------------

  /** The parts of the page's state its actions change: the filter, the
      meeting whose rejection dialog is open, and the chosen reason. */
  class MeetingsView {
    var filter: StatusFilter
    var rejectingId: Option<string>
    var rejectionReason: string

    constructor ()
      ensures filter == All && rejectingId == None && rejectionReason == ""
    {
      filter := All;
      rejectingId := None;
      rejectionReason := "";
    }

    /** A filter button. */
    method SetFilter(f: StatusFilter)
      modifies this
      ensures filter == f
      ensures rejectingId == old(rejectingId) && rejectionReason == old(rejectionReason)
    {
      filter := f;
    }

    /** "Neka Möte": opens the dialog for that meeting. */
    method StartRejecting(meetingId: string)
      modifies this
      ensures rejectingId == Some(meetingId)
      ensures filter == old(filter) && rejectionReason == old(rejectionReason)
    {
      rejectingId := Some(meetingId);
    }

    /** The reason select; its first option is the empty value. */
    method ChooseReason(code: string)
      modifies this
      ensures rejectionReason == code
      ensures filter == old(filter) && rejectingId == old(rejectingId)
    {
      rejectionReason := code;
    }

    /** "Avbryt": closes the dialog and clears the reason. */
    method Cancel()
      modifies this
      ensures rejectingId == None && rejectionReason == ""
      ensures filter == old(filter)
    {
      rejectingId := None;
      rejectionReason := "";
    }

    /** updateMeetingStatus: one update of the meetings row; on success the
        dialog closes, on an error (`ok` false) nothing changes. */
    method UpdateMeetingStatus(db: Database, meetingId: string, newStatus: MeetingStatus,
                               reason: Option<string>, ok: bool)
      requires newStatus == Qualified || newStatus == NotQualified
      modifies this, db
      ensures db.Snapshot() == (if ok then Apply(old(db.Snapshot()), StatusUpdate(meetingId, newStatus, reason))
                                else old(db.Snapshot()))
      ensures ok ==> rejectingId == None && rejectionReason == ""
      ensures !ok ==> rejectingId == old(rejectingId) && rejectionReason == old(rejectionReason)
      ensures filter == old(filter)
    {
      var update := StatusUpdate(meetingId, newStatus, reason);
      if ok {
        db.Perform(update);
        rejectingId := None;
        rejectionReason := "";
      }
    }

    /** The approve button: an update to qualified with no reason. */
    method Approve(db: Database, meetingId: string, ok: bool)
      modifies this, db
      ensures db.Snapshot() == (if ok then Apply(old(db.Snapshot()), UpdateMeeting(meetingId, Qualified, None))
                                else old(db.Snapshot()))
      ensures ok ==> rejectingId == None && rejectionReason == ""
      ensures !ok ==> rejectingId == old(rejectingId) && rejectionReason == old(rejectionReason)
      ensures filter == old(filter)
    {
      UpdateMeetingStatus(db, meetingId, Qualified, None, ok);
    }

    /** "Bekräfta Nekande": with a chosen reason, an update to not_qualified
        carrying it; with none, an alert and no update. */
    method ConfirmRejection(db: Database, ok: bool)
      requires rejectingId.Some?
      modifies this, db
      ensures old(rejectionReason) == "" ==>
        db.Snapshot() == old(db.Snapshot()) && rejectingId == old(rejectingId) && rejectionReason == ""
      ensures old(rejectionReason) != "" ==>
        db.Snapshot() == (if ok then Apply(old(db.Snapshot()), UpdateMeeting(old(rejectingId.value), NotQualified, Some(old(rejectionReason))))
                          else old(db.Snapshot()))
      ensures old(rejectionReason) != "" && ok ==> rejectingId == None && rejectionReason == ""
      ensures old(rejectionReason) != "" && !ok ==>
        rejectingId == old(rejectingId) && rejectionReason == old(rejectionReason)
      ensures filter == old(filter)
    {
      if rejectionReason != "" {
        UpdateMeetingStatus(db, rejectingId.value, NotQualified, Some(rejectionReason), ok);
      }
    }
  }

  // ---------------------------------------------------------------------
  // Properties
  // ---------------------------------------------------------------------

  /** The update changes the status of the meetings with that id, and their
      reason only when it sends one; every other row and table is kept. */
  lemma UpdateTouchesOnlyThatMeeting(t: Tables, meetingId: string, newStatus: MeetingStatus, reason: Option<string>)
    ensures var after := Apply(t, StatusUpdate(meetingId, newStatus, reason));
      after == t.(meetings := after.meetings)
      && |after.meetings| == |t.meetings|
      && forall i :: 0 <= i < |t.meetings| ==>
           after.meetings[i] == (if t.meetings[i].id != meetingId then t.meetings[i]
                                 else if newStatus == NotQualified && Truthy(reason)
                                 then t.meetings[i].(status := newStatus, rejectionReason := reason)
                                 else t.meetings[i].(status := newStatus))
  {
  }

  /** Once approved or rejected, a meeting offers no action any more. */
  lemma DecidedMeetingOffersNothing(t: Tables, meetingId: string, newStatus: MeetingStatus, reason: Option<string>, i: nat)
    requires newStatus == Qualified || newStatus == NotQualified
    requires i < |t.meetings| && t.meetings[i].id == meetingId
    ensures var after := Apply(t, StatusUpdate(meetingId, newStatus, reason));
      Actions(after.meetings[i]) == []
  {
  }

  /** A reason chosen in the dialog is what the meeting then shows. */
  lemma ChosenReasonIsShown(t: Tables, meetingId: string, code: string, i: nat)
    requires code != ""
    requires i < |t.meetings| && t.meetings[i].id == meetingId
    ensures var after := Apply(t, StatusUpdate(meetingId, NotQualified, Some(code)));
      ShownReason(after.meetings[i]) == Some(ReasonLabel(code))
  {
  }

  /** A disputed meeting shows no reason line, even with a stored reason. */
  lemma DisputedHidesReason(m: Meeting)
    requires m.status == Disputed
    ensures ShownReason(m) == None
  {
  }

  /** The select's last option, "other", and any code the page does not
      know, read 'Annat'; every known code has its own label. */
  lemma ReasonLabels(code: string, other: string)
    requires code in {"wrong_person", "no_need", "no_budget", "no_show", "poor_quality"}
    requires other in {"wrong_person", "no_need", "no_budget", "no_show", "poor_quality"}
    ensures ReasonLabel("other") == "Annat"
    ensures code != other ==> ReasonLabel(code) != ReasonLabel(other)
  {
  }

  /** A filter on one status keeps exactly the meetings with that status. */
  lemma FilterKeepsExactlyThatStatus(ms: seq<Meeting>, s: MeetingStatus, m: Meeting)
    ensures m in Filtered(ms, Only(s)) <==> m in ms && m.status == s
  {
    if m in ms && m.status == s {
      FilterKeeps(ms, HasStatus(s), m);
    }
    if m in Filtered(ms, Only(s)) {
      var r := Filtered(ms, Only(s));
      var k :| 0 <= k < |r| && r[k] == m;
      assert HasStatus(s)(r[k]);
    }
  }

  /** Filtering keeps the order: it distributes over concatenation. */
  lemma FilterKeepsOrder(a: seq<Meeting>, b: seq<Meeting>, f: StatusFilter)
    ensures Filtered(a + b, f) == Filtered(a, f) + Filtered(b, f)
  {
    if f.Only? {
      FilterAppend(a, b, HasStatus(f.status));
    }
  }

  /** The counter of a status is the length of that status's filtered list. */
  lemma CountersMatchFilters(ms: seq<Meeting>)
    ensures StatsOf(ms).pending == |Filtered(ms, Only(Pending))|
    ensures StatsOf(ms).qualified == |Filtered(ms, Only(Qualified))|
    ensures StatsOf(ms).notQualified == |Filtered(ms, Only(NotQualified))|
  {
    CountIsFilterLength(ms, HasStatus(Pending));
    CountIsFilterLength(ms, HasStatus(Qualified));
    CountIsFilterLength(ms, HasStatus(NotQualified));
  }

  /** The four status counts add up to the list length. */
  lemma {:induction false} StatusCountsAddUp(ms: seq<Meeting>)
    ensures Count(ms, HasStatus(Pending)) + Count(ms, HasStatus(Qualified))
            + Count(ms, HasStatus(NotQualified)) + Count(ms, HasStatus(Disputed)) == |ms|
  {
    if ms != [] {
      StatusCountsAddUp(ms[1..]);
    }
  }

  /** The three counters never exceed the total, and they add up to it
      exactly when no meeting is disputed. */
  lemma CountersBelowTotal(ms: seq<Meeting>)
    ensures var s := StatsOf(ms);
      s.pending + s.qualified + s.notQualified <= s.total
    ensures var s := StatsOf(ms);
      s.pending + s.qualified + s.notQualified == s.total <==> forall i :: 0 <= i < |ms| ==> ms[i].status != Disputed
  {
    StatusCountsAddUp(ms);
    CountZero(ms, HasStatus(Disputed));
  }

  /** The page's mark agrees with the checklist component whenever the
      meeting has a checklist, and reads unchecked everywhere without one. */
  lemma MarksAgreeWithComponent(items: seq<Json>, checklist: Option<seq<bool>>)
    ensures var r := Marks(JArr(items), checklist);
      r.Some? && forall i :: 0 <= i < |items| ==>
        r.value[i] == (checklist.Some? && Checklist.IsChecked(checklist.value, i))
  {
  }

  /** A clean criteria array reads the same on this page and in the
      qualification engine. */
  lemma {:induction false} CleanListsAgreeWithEngine(items: seq<string>, parse: JsonParser)
    requires forall i :: 0 <= i < |items| ==> !IsBlank(items[i])
    ensures var r := CriteriaOf(ListColumn(items), parse);
      Qualification.ParseMeetingCriteria(r, parse) == items
  {
    NonBlankOfStrings(items);
  }

  lemma {:induction false} NonBlankOfStrings(items: seq<string>)
    requires forall i :: 0 <= i < |items| ==> !IsBlank(items[i])
    ensures Qualification.NonBlankStrings(Strings(items)) == items
  {
    NonBlankOfClean(Strings(items), items);
  }

  lemma {:induction false} NonBlankOfClean(js: seq<Json>, items: seq<string>)
    requires |js| == |items|
    requires forall i :: 0 <= i < |js| ==> js[i] == JStr(items[i]) && !IsBlank(items[i])
    ensures Qualification.NonBlankStrings(js) == items
  {
    if js != [] {
      NonBlankCons(js[0], js[1..]);
      assert js == [js[0]] + js[1..];
      assert js[0].s == items[0] && !IsBlank(items[0]);
      var js', items' := js[1..], items[1..];
      forall i | 0 <= i < |js'|
        ensures js'[i] == JStr(items'[i]) && !IsBlank(items'[i])
      {
        assert js'[i] == js[i + 1] && items'[i] == items[i + 1];
      }
      NonBlankOfClean(js', items');
      assert items == [items[0]] + items';
    }
  }

  lemma NonBlankCons(j: Json, js: seq<Json>)
    ensures Qualification.NonBlankStrings([j] + js)
      == (if j.JStr? && !IsBlank(j.s) then [j.s] else []) + Qualification.NonBlankStrings(js)
  {
    assert ([j] + js)[1..] == js;
  }

  /** Unlike the engine, the page shows blank text that does not parse as a
      criterion of its own. */
  lemma BlankTextDiffersFromEngine(parse: JsonParser)
    requires parse("").None?
    ensures CriteriaOf(TextColumn(""), parse) == JArr([JStr("")])
    ensures Qualification.ParseMeetingCriteria(JStr(""), parse) == []
  {
  }
}

=== FILE: middleware.dfy ===
// The request middleware (middleware.ts): static and API paths pass
// through, the locale is read from the first path segment, and the
// company, SDR and admin areas are reserved to signed-in users of the
// matching profile type.

module Middleware {
  import opened Common
  import opened I18n

  /** `NextResponse.next()`, the response of the locale middleware, or a
      redirect to `/<locale>/login`. */
  datatype Response = PassThrough | IntlResponse | RedirectToLogin(locale: string)

  /** The path, the session's user if any, and the `user_type` of that user's
      profile (None when there is no session or no profile row). */
  datatype MiddlewareRequest = MiddlewareRequest(path: string, session: Option<string>, userType: Option<string>)

  /** API routes, Next.js assets, the favicon and any path with a dot skip the middleware. */
  predicate Bypassed(path: string)
  {
    StartsWith(path, "/api") || StartsWith(path, "/_next") || StartsWith(path, "/favicon.ico") || '.' in path
  }

  /** `pathname.split('/')[1] || defaultLocale`. */
  function LocaleOf(path: string): (locale: string)
    ensures locale != "" && '/' !in locale
  {
    var parts := Split(path, '/');
    var segment := if |parts| > 1 then parts[1] else "";
    if segment != "" then segment else DefaultLocale
  }

  /** One protected area: the path marker and the profile type it requires. */
  datatype Area = Area(marker: string, role: string)

  /** The areas, in the order the middleware checks them. */
  const Areas: seq<Area> := [Area("/company", "company"), Area("/sdr", "sdr"), Area("/admin", "admin")]

  /** The check of one area lets the request on: the path is outside it, or
      there is a session whose profile has the area's type. */
  predicate Admits(a: Area, req: MiddlewareRequest)
  {
    !Contains(req.path, a.marker) || (req.session.Some? && req.userType == Some(a.role))
  }

  /** The middleware; `intlResponds` says whether the locale middleware
      produced a response. */
  function Decide(req: MiddlewareRequest, intlResponds: bool): (r: Response)
    ensures r.RedirectToLogin? ==> r.locale in Locales
  {
    if Bypassed(req.path) then PassThrough
    else if !intlResponds then PassThrough
    else
      var locale := LocaleOf(req.path);
      if locale !in Locales then IntlResponse
      else if !Admits(Areas[0], req) then RedirectToLogin(locale)
      else if !Admits(Areas[1], req) then RedirectToLogin(locale)
      else if !Admits(Areas[2], req) then RedirectToLogin(locale)
      else IntlResponse
  }

  /** The redirect target; the page it leads to reads the same locale. */
  function LoginPath(locale: string): (path: string)
    ensures locale != "" && '/' !in locale ==> LocaleOf(path) == locale
  {
    LoginPathSegments(locale);
    "/" + locale + "/login"
  }

  /** The login path splits into an empty segment, the locale and "login". */
  lemma LoginPathSegments(locale: string)
    ensures '/' !in locale ==> Split("/" + locale + "/login", '/') == ["", locale, "login"]
  {
    if '/' !in locale {
      assert "/" + locale + "/login" == "" + "/" + (locale + "/" + "login");
      SplitConcat("", locale + "/" + "login", '/');
      SplitConcat(locale, "login", '/');
      SplitNoSep("login", '/');
    }
  }

  // ---------------------------------------------------------------------
  // Properties
  // ---------------------------------------------------------------------

  /** Bypassed paths pass through untouched, whoever asks. */
  lemma BypassedPathsPassThrough(req: MiddlewareRequest, intlResponds: bool)
    requires Bypassed(req.path)
    ensures Decide(req, intlResponds) == PassThrough
  {
  }

  /** The locale is the first segment of an absolute path, or `sv` when that
      segment is empty. */
  lemma LocaleIsFirstSegment(segment: string, rest: string)
    requires '/' !in segment
    requires rest == "" || rest[0] == '/'
    ensures LocaleOf("/" + segment + rest) == if segment != "" then segment else DefaultLocale
  {
    var path := "/" + segment + rest;
    assert path == "" + ['/'] + (segment + rest);
    SplitConcat("", segment + rest, '/');
    if rest == "" {
      assert segment + rest == segment;
      SplitNoSep(segment, '/');
    } else {
      assert segment + rest == segment + ['/'] + rest[1..];
      SplitConcat(segment, rest[1..], '/');
    }
  }

  /** A first segment that is not a locale gets the locale middleware's
      response, with no session or role check. */
  lemma UnknownLocaleSkipsRoleChecks(req: MiddlewareRequest)
    requires !Bypassed(req.path) && LocaleOf(req.path) !in Locales
    ensures Decide(req, true) == IntlResponse
  {
  }

  /** Past the bypass and the locale check, the request goes on exactly when
      every area admits it, and is otherwise sent to the login page of its locale. */
  lemma PassesIffEveryAreaAdmits(req: MiddlewareRequest)
    requires !Bypassed(req.path) && LocaleOf(req.path) in Locales
    ensures Decide(req, true) == IntlResponse <==> forall i :: 0 <= i < |Areas| ==> Admits(Areas[i], req)
    ensures Decide(req, true) != IntlResponse ==> Decide(req, true) == RedirectToLogin(LocaleOf(req.path))
  {
    if Decide(req, true) == IntlResponse {
      forall i | 0 <= i < |Areas|
        ensures Admits(Areas[i], req)
      {
        assert i == 0 || i == 1 || i == 2;
      }
    }
  }

  /** A path inside two areas never passes: no profile has two types. */
  lemma TwoAreasNeverPass(req: MiddlewareRequest, i: nat, j: nat)
    requires !Bypassed(req.path) && LocaleOf(req.path) in Locales
    requires i < j < |Areas|
    requires Contains(req.path, Areas[i].marker) && Contains(req.path, Areas[j].marker)
    ensures Decide(req, true) == RedirectToLogin(LocaleOf(req.path))
  {
    PassesIffEveryAreaAdmits(req);
    assert !(Admits(Areas[i], req) && Admits(Areas[j], req));
  }

  /** Without a session, a path inside an area always goes to the login page. */
  lemma NoSessionNoArea(req: MiddlewareRequest, i: nat)
    requires !Bypassed(req.path) && LocaleOf(req.path) in Locales
    requires req.session.None? && i < |Areas| && Contains(req.path, Areas[i].marker)
    ensures Decide(req, true) == RedirectToLogin(LocaleOf(req.path))
  {
    PassesIffEveryAreaAdmits(req);
    assert !Admits(Areas[i], req);
  }

  /** A path outside every area passes, signed in or not. */
  lemma OpenPathsPass(req: MiddlewareRequest)
    requires !Bypassed(req.path) && LocaleOf(req.path) in Locales
    requires forall i :: 0 <= i < |Areas| ==> !Contains(req.path, Areas[i].marker)
    ensures Decide(req, true) == IntlResponse
  {
    PassesIffEveryAreaAdmits(req);
  }
}

=== FILE: qualification.dfy ===
// The qualification engine (lib/qualification.ts): the campaign's meeting
// criteria are parsed, the language model is asked for one score per
// criterion, and its answer is folded into an overall score, a
// qualified/not-qualified verdict and the lists of met and unmet criteria.

module Qualification {
  import opened Common

  // ---------------------------------------------------------------------
  // Criteria
  // ---------------------------------------------------------------------

  /** The string entries of a JSON array that are not blank, in order. */
  function NonBlankStrings(items: seq<Json>): (r: seq<string>)
    ensures forall s :: s in r ==> !IsBlank(s)
  {
    if items == [] then []
    else
      var rest := NonBlankStrings(items[1..]);
      if items[0].JStr? && !IsBlank(items[0].s) then [items[0].s] + rest else rest
  }

  /** The criteria are exactly the non-blank string entries of the array. */
  lemma {:induction false} NonBlankStringsMembers(items: seq<Json>, s: string)
    ensures s in NonBlankStrings(items) <==> JStr(s) in items && !IsBlank(s)
  {
    if items != [] {
      NonBlankStringsMembers(items[1..], s);
      assert items == [items[0]] + items[1..];
    }
  }

  /** parseMeetingCriteria: meeting_criteria as stored, either a JSON array or a
      string that may hold one. */
  function ParseMeetingCriteria(stored: Json, parse: JsonParser): (r: seq<string>)
    ensures forall s :: s in r ==> !IsBlank(s)
    ensures stored.JArr? ==> r == NonBlankStrings(stored.items)
    ensures stored.JStr? && parse(stored.s).Some? && parse(stored.s).value.JArr?
            ==> r == NonBlankStrings(parse(stored.s).value.items)
    ensures stored.JStr? && parse(stored.s).Some? && !parse(stored.s).value.JArr? ==> r == []
    ensures stored.JStr? && parse(stored.s).None? ==> r == (if IsBlank(stored.s) then [] else [stored.s])
    ensures !stored.JArr? && !stored.JStr? ==> r == []
  {
    match stored
    case JArr(items) => NonBlankStrings(items)
    case JStr(text) =>
      (match parse(text)
       case Some(JArr(items)) => NonBlankStrings(items)
       case Some(_) => []
       case None => if IsBlank(text) then [] else [text])
    case _ => []
  }

  /** A string that is not JSON becomes the single criterion, untrimmed. */
  lemma UnparseableTextIsOneCriterion(text: string, parse: JsonParser)
    requires parse(text).None? && !IsBlank(text)
    ensures ParseMeetingCriteria(JStr(text), parse) == [text]
  {
  }

  /** A stored array and the same array sent as JSON text give the same criteria. */
  lemma TextAndArrayAgree(items: seq<Json>, text: string, parse: JsonParser)
    requires parse(text) == Some(JArr(items))
    ensures ParseMeetingCriteria(JStr(text), parse) == ParseMeetingCriteria(JArr(items), parse)
  {
  }

  // ---------------------------------------------------------------------
  // Threshold
  // ---------------------------------------------------------------------

  const DefaultThreshold := 70
  const MetScore := 70

  /** `override ?? campaign ?? 70`: only a missing value falls through. */
  function ResolveThreshold(override: Option<int>, campaign: Option<int>): int
  {
    if override.Some? then override.value else if campaign.Some? then campaign.value else DefaultThreshold
  }

  /** A zero override is kept (unlike `||`, `??` does not treat 0 as missing). */
  lemma ZeroOverrideIsKept(campaign: Option<int>)
    ensures ResolveThreshold(Some(0), campaign) == 0
    ensures ResolveThreshold(None, None) == 70
  {
  }

  // ---------------------------------------------------------------------
  // The model's answer
  // ---------------------------------------------------------------------

  /** The parsed answer: its numeric top-level fields, its criteria_scores
      object if any, and its meeting_readiness if any. */
  datatype ModelOutput = ModelOutput(
    numbers: map<string, int>,
    criteriaScores: Option<map<string, int>>,
    readiness: Option<string>)

  /** The key the prompt asks the model to score the i-th criterion under. */
  function ScoreKey(i: nat): string
  {
    "criterion_" + NatToString(i) + "_score"
  }

  lemma ScoreKeyInjective(i: nat, j: nat)
    requires ScoreKey(i) == ScoreKey(j)
    ensures i == j
  {
    var a := ScoreKey(i);
    assert a[10..|a| - 6] == NatToString(i);
    assert ScoreKey(j)[10..|ScoreKey(j)| - 6] == NatToString(j);
    NatToStringInjective(i, j);
  }

  /** A missing property reads as undefined, which is falsy like 0. */
  function Field(m: map<string, int>, key: string): int
  {
    if key in m then m[key] else 0
  }

  /** `Math.max(0, Math.min(100, x))`. */
  function Clamp(x: int): (r: int)
    ensures 0 <= r <= 100
    ensures 0 <= x <= 100 ==> r == x
    ensures x < 0 ==> r == 0
    ensures x > 100 ==> r == 100
  {
    if x < 0 then 0 else if x > 100 then 100 else x
  }

  /** `result[criterion_i_score] || result.criteria_scores?.[c] || result[c] || 0`, clamped. */
  function ScoreAt(out: ModelOutput, i: nat, criterion: string): (s: int)
    ensures 0 <= s <= 100
  {
    var byKey := Field(out.numbers, ScoreKey(i));
    var byTable := if out.criteriaScores.Some? then Field(out.criteriaScores.value, criterion) else 0;
    var byName := Field(out.numbers, criterion);
    Clamp(if byKey != 0 then byKey else if byTable != 0 then byTable else byName)
  }

  /** A zero under the requested key counts as no answer: the next source is used. */
  lemma ZeroScoreFallsThrough(out: ModelOutput, i: nat, criterion: string, table: map<string, int>)
    requires ScoreKey(i) in out.numbers && out.numbers[ScoreKey(i)] == 0
    requires out.criteriaScores == Some(table) && criterion in table && 0 < table[criterion] <= 100
    ensures ScoreAt(out, i, criterion) == table[criterion]
  {
  }

  // ---------------------------------------------------------------------
  // Aggregation, as a specification over prefixes of the criteria list
  // ---------------------------------------------------------------------

  function Total(cs: seq<string>, out: ModelOutput): (t: int)
    ensures 0 <= t <= 100 * |cs|
  {
    if cs == [] then 0 else Total(cs[..|cs| - 1], out) + ScoreAt(out, |cs| - 1, cs[|cs| - 1])
  }

  function Met(cs: seq<string>, out: ModelOutput): seq<string>
  {
    if cs == [] then []
    else Met(cs[..|cs| - 1], out) + (if ScoreAt(out, |cs| - 1, cs[|cs| - 1]) >= MetScore then [cs[|cs| - 1]] else [])
  }

  function Unmet(cs: seq<string>, out: ModelOutput): seq<string>
  {
    if cs == [] then []
    else Unmet(cs[..|cs| - 1], out) + (if ScoreAt(out, |cs| - 1, cs[|cs| - 1]) >= MetScore then [] else [cs[|cs| - 1]])
  }

  /** criteria_scores: one entry per criterion text, assigned in list order. */
  function ScoreTable(cs: seq<string>, out: ModelOutput): map<string, int>
  {
    if cs == [] then map[] else ScoreTable(cs[..|cs| - 1], out)[cs[|cs| - 1] := ScoreAt(out, |cs| - 1, cs[|cs| - 1])]
  }

  /** Math.round: the nearest integer, halves rounded up. */
  function MathRound(x: real): (r: int)
    ensures x - 0.5 < r as real <= x + 0.5
  {
    (x + 0.5).Floor
  }

  datatype QualificationScore = QualificationScore(
    overallScore: int,
    criteriaScores: map<string, int>,
    isQualified: bool,
    meetingReadiness: string,
    criteriaMet: seq<string>,
    criteriaUnmet: seq<string>)

  /** Math.round(total / n), the displayed overall score, on the exact mean:
      floor(total / n + 1/2), which is floor((2·total + n) / 2n). */
  function RoundedMean(total: int, n: nat): int
    requires n > 0
  {
    (2 * total + n) / (2 * n)
  }

  /** `total / n >= threshold`, compared on the exact mean. */
  predicate MeanReaches(total: int, n: nat, threshold: int)
    requires n > 0
  {
    total as real / n as real >= threshold as real
  }

  /** The score the engine reports for a non-empty criteria list. */
  function Assess(cs: seq<string>, out: ModelOutput, threshold: int): QualificationScore
    requires |cs| > 0
  {
    var qualified := MeanReaches(Total(cs, out), |cs|, threshold);
    QualificationScore(
      RoundedMean(Total(cs, out), |cs|),
      ScoreTable(cs, out),
      qualified,
      if Truthy(out.readiness) then out.readiness.value
      else if qualified then "ready" else "not_ready",
      Met(cs, out),
      Unmet(cs, out))
  }

  /** The forEach over the criteria, with its accumulators. */
  method ScoreCriteria(cs: seq<string>, out: ModelOutput, threshold: int) returns (r: QualificationScore)
    requires |cs| > 0
    ensures r == Assess(cs, out, threshold)
  {
    var table: map<string, int> := map[];
    var total := 0;
    var met: seq<string> := [];
    var unmet: seq<string> := [];
    var i := 0;
    while i < |cs|
      invariant 0 <= i <= |cs|
      invariant table == ScoreTable(cs[..i], out)
      invariant total == Total(cs[..i], out)
      invariant met == Met(cs[..i], out)
      invariant unmet == Unmet(cs[..i], out)
    {
      assert cs[..i + 1][..i] == cs[..i];
      var score := ScoreAt(out, i, cs[i]);
      table := table[cs[i] := score];
      total := total + score;
      if score >= MetScore {
        met := met + [cs[i]];
      } else {
        unmet := unmet + [cs[i]];
      }
      i := i + 1;
    }
    assert cs[..i] == cs;
    var qualified := MeanReaches(total, |cs|, threshold);
    var readiness := if Truthy(out.readiness) then out.readiness.value
                     else if qualified then "ready" else "not_ready";
    r := QualificationScore(RoundedMean(total, |cs|), table, qualified, readiness, met, unmet);
  }

  /** analyzeQualification once the model has answered: None for an empty
      criteria list or an answer that could not be read. */
  method AnalyzeQualification(stored: Json, parse: JsonParser, campaignThreshold: Option<int>,
                              override: Option<int>, answer: Option<ModelOutput>)
    returns (r: Option<QualificationScore>)
    ensures var cs := ParseMeetingCriteria(stored, parse);
      r.None? <==> |cs| == 0 || answer.None?
    ensures var cs := ParseMeetingCriteria(stored, parse);
      r.Some? ==> r.value == Assess(cs, answer.value, ResolveThreshold(override, campaignThreshold))
  {
    var threshold := ResolveThreshold(override, campaignThreshold);
    var cs := ParseMeetingCriteria(stored, parse);
    if |cs| == 0 || answer.None? {
      return None;
    }
    var score := ScoreCriteria(cs, answer.value, threshold);
    r := Some(score);
  }

  // ---------------------------------------------------------------------
  // Properties
  // ---------------------------------------------------------------------

  lemma ScaleLe(a: real, b: real, c: real)
    requires c > 0.0
    ensures a <= b <==> a * c <= b * c
  {
  }

  /** Math.round of a mean: the integer r with r - 1/2 <= total/n < r + 1/2. */
  lemma RoundedMeanIsNearest(total: int, n: nat)
    requires n > 0
    ensures var r := RoundedMean(total, n);
      2 * n * r - n <= 2 * total < 2 * n * r + n
  {
    var d := 2 * n;
    var q := 2 * total + n;
    var r := q / d;
    var rem := q % d;
    assert q == d * r + rem && 0 <= rem < d;
  }

  /** The mean reaches the threshold exactly when total >= threshold * n. */
  lemma MeanReachesIff(total: int, n: nat, threshold: int)
    requires n > 0
    ensures MeanReaches(total, n, threshold) <==> total >= threshold * n
  {
    var N := n as real;
    var m := total as real / N;
    assert m * N == total as real;
    ScaleLe(threshold as real, m, N);
    assert (threshold * n) as real == (threshold as real) * N;
  }

  /** The overall score is the mean of the criterion scores rounded half up. */
  lemma OverallIsRoundedMean(cs: seq<string>, out: ModelOutput, threshold: int)
    requires |cs| > 0
    ensures var r := Assess(cs, out, threshold).overallScore;
      2 * |cs| * r - |cs| <= 2 * Total(cs, out) < 2 * |cs| * r + |cs|
  {
    RoundedMeanIsNearest(Total(cs, out), |cs|);
  }

  /** A mean of scores in 0..100 rounds to a value in 0..100. */
  lemma RoundedMeanInRange(total: int, n: nat)
    requires n > 0 && 0 <= total <= 100 * n
    ensures 0 <= RoundedMean(total, n) <= 100
  {
    var r := RoundedMean(total, n);
    RoundedMeanIsNearest(total, n);
    assert n * (2 * r - 1) <= n * 200;
    MulLeCancel(n, 2 * r - 1, 200);
    assert n * 0 < n * (2 * r + 1);
    MulLtCancel(n, 0, 2 * r + 1);
  }

  /** The overall score stays within 0..100. */
  lemma OverallInRange(cs: seq<string>, out: ModelOutput, threshold: int)
    requires |cs| > 0
    ensures 0 <= Assess(cs, out, threshold).overallScore <= 100
  {
    RoundedMeanInRange(Total(cs, out), |cs|);
  }

  lemma MulPositive(n: nat, k: int)
    requires n > 0 && k > 0
    ensures n * k >= n
  {
  }

  lemma MulLeCancel(n: nat, a: int, b: int)
    requires n > 0 && n * a <= n * b
    ensures a <= b
  {
    if a > b {
      MulPositive(n, a - b);
    }
  }

  lemma MulLtCancel(n: nat, a: int, b: int)
    requires n > 0 && n * a < n * b
    ensures a < b
  {
    if a >= b {
      MulPositive(n, a - b + 1);
    }
  }

  /** is_qualified compares the exact mean, i.e. total >= threshold * n. */
  lemma QualifiedIffTotalReachesThreshold(cs: seq<string>, out: ModelOutput, threshold: int)
    requires |cs| > 0
    ensures Assess(cs, out, threshold).isQualified <==> Total(cs, out) >= threshold * |cs|
  {
    MeanReachesIff(Total(cs, out), |cs|, threshold);
  }

  /** The rounded score can reach the threshold while the verdict is "not
      qualified": scores 70 and 69 display as 70 but their mean is 69.5. */
  lemma RoundedScoreCanMislead()
    ensures var out := ModelOutput(map["criterion_0_score" := 70, "criterion_1_score" := 69], None, None);
      var r := Assess(["Budget", "Authority"], out, 70);
      r.overallScore == 70 && !r.isQualified && r.meetingReadiness == "not_ready"
  {
    var out := ModelOutput(map["criterion_0_score" := 70, "criterion_1_score" := 69], None, None);
    var cs := ["Budget", "Authority"];
    assert ScoreKey(0) == "criterion_0_score";
    assert ScoreKey(1) == "criterion_1_score";
    assert ScoreAt(out, 0, "Budget") == 70;
    assert ScoreAt(out, 1, "Authority") == 69;
    assert cs[..1] == ["Budget"] && cs[..1][..0] == [];
    assert Total(cs, out) == 139;
    OverallIsRoundedMean(cs, out, 70);
    QualifiedIffTotalReachesThreshold(cs, out, 70);
  }

  /** Scores 90, 40 and 100 average to 76.67, shown as 77; with the default
      threshold the call qualifies, while only two criteria count as met. */
  lemma ThreeScoreExample()
    ensures var out := ModelOutput(map["criterion_0_score" := 90, "criterion_1_score" := 40, "criterion_2_score" := 100], None, None);
      var r := Assess(["Budget", "Authority", "Need"], out, 70);
      r.overallScore == 77 && r.isQualified && r.criteriaMet == ["Budget", "Need"] && r.criteriaUnmet == ["Authority"]
  {
    var out := ModelOutput(map["criterion_0_score" := 90, "criterion_1_score" := 40, "criterion_2_score" := 100], None, None);
    var cs := ["Budget", "Authority", "Need"];
    assert ScoreKey(0) == "criterion_0_score";
    assert ScoreKey(1) == "criterion_1_score";
    assert ScoreKey(2) == "criterion_2_score";
    assert ScoreAt(out, 0, "Budget") == 90;
    assert ScoreAt(out, 1, "Authority") == 40;
    assert ScoreAt(out, 2, "Need") == 100;
    assert cs[..2] == ["Budget", "Authority"] && cs[..2][..1] == ["Budget"] && cs[..2][..1][..0] == [];
    assert Total(cs, out) == 230;
    assert cs[..2][1] == "Authority" && cs[..2][..1][0] == "Budget";
    assert Met(cs[..2][..1][..0], out) == [] && Unmet(cs[..2][..1][..0], out) == [];
    assert Met(cs[..2][..1], out) == ["Budget"];
    assert Unmet(cs[..2][..1], out) == [];
    assert Met(cs[..2], out) == ["Budget"];
    assert Unmet(cs[..2], out) == ["Authority"];
    assert Met(cs, out) == ["Budget", "Need"];
    assert Unmet(cs, out) == ["Authority"];
    RoundedMeanIsNearest(230, 3);
    MeanReachesIff(230, 3, 70);
  }

  /** Met and unmet split the criteria list: together they are a permutation of it. */
  lemma {:induction false} MetUnmetPartition(cs: seq<string>, out: ModelOutput)
    ensures multiset(Met(cs, out)) + multiset(Unmet(cs, out)) == multiset(cs)
  {
    if cs != [] {
      var n := |cs| - 1;
      var init := cs[..n];
      var x := cs[n];
      MetUnmetPartition(init, out);
      assert cs == init + [x];
      var kept: seq<string> := if ScoreAt(out, n, x) >= MetScore then [x] else [];
      var dropped: seq<string> := if ScoreAt(out, n, x) >= MetScore then [] else [x];
      assert Met(cs, out) == Met(init, out) + kept;
      assert Unmet(cs, out) == Unmet(init, out) + dropped;
      SplitSnoc(Met(init, out), Unmet(init, out), init, kept, dropped, x);
    }
  }

  /** Adding x to one side of a split of `init` splits `init + [x]`. */
  lemma SplitSnoc<T>(m: seq<T>, u: seq<T>, init: seq<T>, kept: seq<T>, dropped: seq<T>, x: T)
    requires multiset(m) + multiset(u) == multiset(init)
    requires (kept == [x] && dropped == []) || (kept == [] && dropped == [x])
    ensures multiset(m + kept) + multiset(u + dropped) == multiset(init + [x])
  {
  }

  /** Each criterion is counted once: the two lists are as long as the criteria list. */
  lemma MetUnmetCount(cs: seq<string>, out: ModelOutput)
    ensures |Met(cs, out)| + |Unmet(cs, out)| == |cs|
  {
    MetUnmetPartition(cs, out);
    assert |multiset(Met(cs, out)) + multiset(Unmet(cs, out))| == |multiset(cs)|;
  }

  /** A criterion is listed as met exactly when one of its occurrences scored at least 70. */
  lemma {:induction false} MetMeansScored(cs: seq<string>, out: ModelOutput, c: string)
    ensures c in Met(cs, out) <==> exists i :: 0 <= i < |cs| && cs[i] == c && ScoreAt(out, i, c) >= MetScore
  {
    if cs != [] {
      var n := |cs| - 1;
      var init := cs[..n];
      MetMeansScored(init, out, c);
      assert forall i :: 0 <= i < n ==> init[i] == cs[i];
      if ScoreAt(out, n, cs[n]) >= MetScore && cs[n] == c {
        assert c in Met(cs, out);
      }
    }
  }

  /** A criterion is listed as unmet exactly when one of its occurrences scored below 70. */
  lemma {:induction false} UnmetMeansScoredLow(cs: seq<string>, out: ModelOutput, c: string)
    ensures c in Unmet(cs, out) <==> exists i :: 0 <= i < |cs| && cs[i] == c && ScoreAt(out, i, c) < MetScore
  {
    if cs != [] {
      var n := |cs| - 1;
      var init := cs[..n];
      UnmetMeansScoredLow(init, out, c);
      assert forall i :: 0 <= i < n ==> init[i] == cs[i];
      if ScoreAt(out, n, cs[n]) < MetScore && cs[n] == c {
        assert c in Unmet(cs, out);
      }
    }
  }

  /** criteria_scores has one key per criterion text. */
  lemma {:induction false} ScoreTableKeys(cs: seq<string>, out: ModelOutput)
    ensures forall c :: c in ScoreTable(cs, out) <==> c in cs
  {
    if cs != [] {
      var n := |cs| - 1;
      ScoreTableKeys(cs[..n], out);
      assert cs == cs[..n] + [cs[n]];
    }
  }

  /** A repeated criterion keeps the score of its last occurrence. */
  lemma {:induction false} ScoreTableKeepsLast(cs: seq<string>, out: ModelOutput, i: nat)
    requires i < |cs| && cs[i] !in cs[i + 1..]
    ensures cs[i] in ScoreTable(cs, out) && ScoreTable(cs, out)[cs[i]] == ScoreAt(out, i, cs[i])
  {
    var n := |cs| - 1;
    if i < n {
      var init := cs[..n];
      assert cs[n] in cs[i + 1..];
      assert init[i + 1..] == cs[i + 1..n];
      ScoreTableKeepsLast(init, out, i);
    }
  }

  // ---------------------------------------------------------------------
  // The prompt
  // ---------------------------------------------------------------------

  function NumberedCriterion(i: nat, c: string): string
  {
    NatToString(i + 1) + ". " + c
  }

  function KeyTemplateLine(i: nat, c: string): string
  {
    "\"" + ScoreKey(i) + "\": <0-100>, // Score for: " + c
  }

  const CriterionRule := ": Score 0-100 based on whether this criterion was clearly met in the conversation. Use "

  function CriterionInstruction(i: nat, c: string): string
  {
    "- " + c + CriterionRule + ScoreKey(i) + " as the key."
  }

  function Lines(cs: seq<string>, line: (nat, string) -> string): (r: seq<string>)
    ensures |r| == |cs|
    ensures forall i :: 0 <= i < |cs| ==> r[i] == line(i, cs[i])
  {
    seq(|cs|, i requires 0 <= i < |cs| => line(i, cs[i]))
  }

  /** The fixed wording of the prompt, between the parts that depend on the
      call. The proofs below hold for any wording; `SourceWording` is the
      wording buildQualificationPrompt uses. */
  datatype Wording = Wording(
    intro: string,
    criteriaHeading: string,
    transcriptHeading: string,
    templateOpening: string,
    templateClosing: string,
    guidelineBands: string)

  const SourceWording := Wording(
    "Analyze this sales call transcript and provide a qualification score based on the company's specific criteria.\n\nCampaign ICP: ",
    "\n\nCompany's Qualification Criteria (score each one 0-100):\n",
    "\n\nCall Transcript:\n",
    "\n\nReturn a JSON object with this structure:\n{\n  ",
    "\n  \"confidence\": <0-1>,\n  \"reasoning\": \"<explanation of how each criterion was evaluated>\",\n  \"key_quotes\": [\"<quote1>\", \"<quote2>\"], // Quotes that support qualification\n  \"objections\": [\"<objection1>\", \"<objection2>\"], // Objections raised\n  \"next_steps\": [\"<step1>\", \"<step2>\"], // Next steps discussed\n  \"meeting_readiness\": \"<ready|not_ready|needs_follow_up>\"\n}\n\nScoring Guidelines:\n",
    "\n\nFor each criterion:\n- Score 80-100: Criterion was clearly and explicitly met\n- Score 50-79: Criterion was partially met or implied\n- Score 20-49: Criterion was mentioned but not confirmed\n- Score 0-19: Criterion was not addressed or explicitly not met\n\nBe strict but fair. Only score highly if criteria are clearly met with evidence from the transcript.")

  /** The prompt up to the JSON template's first key line. */
  function PromptHead(w: Wording, transcript: string, icp: string, cs: seq<string>): string
  {
    w.intro + icp + w.criteriaHeading + Join(Lines(cs, NumberedCriterion), "\n")
      + w.transcriptHeading + transcript + w.templateOpening
  }

  /** The prompt after the template's key lines. */
  function PromptTail(w: Wording, cs: seq<string>): string
  {
    w.templateClosing + Join(Lines(cs, CriterionInstruction), "\n") + w.guidelineBands
  }

  /** buildQualificationPrompt, with the wording `SourceWording`. */
  function QualificationPrompt(w: Wording, transcript: string, icp: string, cs: seq<string>): string
  {
    PromptHead(w, transcript, icp, cs) + Join(Lines(cs, KeyTemplateLine), "\n  ") + PromptTail(w, cs)
  }

  /** For every criterion, the prompt's JSON template holds its key line. */
  lemma PromptRequestsScoredKey(w: Wording, transcript: string, icp: string, cs: seq<string>, i: nat)
    requires i < |cs|
    ensures Contains(QualificationPrompt(w, transcript, icp, cs), KeyTemplateLine(i, cs[i]))
  {
    var keyLines := Lines(cs, KeyTemplateLine);
    ContainsJoinedPart(PromptHead(w, transcript, icp, cs), keyLines, "\n  ", PromptTail(w, cs), i);
  }

  /** The key line of the i-th criterion names the key the scorer reads first for it. */
  lemma KeyLineNamesScoreKey(i: nat, c: string)
    ensures Contains(KeyTemplateLine(i, c), ScoreKey(i))
  {
    var rest := "\": <0-100>, // Score for: " + c;
    ContainsInfix("\"", ScoreKey(i), rest);
    assert KeyTemplateLine(i, c) == "\"" + ScoreKey(i) + rest;
  }
}

=== FILE: sdr_campaigns.dfy ===
// The SDR's campaign list (valdi-mvp/app/sdr/campaigns/page.tsx): the active
// campaigns joined with the SDR's applications, each company's approval
// rate and its colour, the criteria preview, and the application a click
// inserts. The criteria text is read as on the company's campaign list
// (CampaignsPage.CriteriaOf).

module SdrCampaigns {
  import opened Common
  import opened Store
  import Qualification

  // ---------------------------------------------------------------------
  // The campaign/application join
  // ---------------------------------------------------------------------

  /** `applications.find(app => app.campaign_id === campaignId)`: its index, or -1. */
  function FirstApplication(apps: seq<Application>, campaignId: string): (k: int)
    ensures -1 <= k < |apps|
    ensures k >= 0 ==> apps[k].campaignId == campaignId && forall j :: 0 <= j < k ==> apps[j].campaignId != campaignId
    ensures k == -1 ==> forall j :: 0 <= j < |apps| ==> apps[j].campaignId != campaignId
  {
    if apps == [] then -1
    else if apps[0].campaignId == campaignId then 0
    else
      var k := FirstApplication(apps[1..], campaignId);
      if k == -1 then -1 else k + 1
  }

  /** applicationStatus: the first matching application's status, else 'none'. */
  function ApplicationStatus(apps: seq<Application>, campaignId: string): (r: string)
    ensures (forall i :: 0 <= i < |apps| ==> apps[i].campaignId != campaignId) ==> r == "none"
    ensures r != "none" ==> exists i :: 0 <= i < |apps| && apps[i].campaignId == campaignId && apps[i].status == r
  {
    var k := FirstApplication(apps, campaignId);
    if k == -1 then "none" else apps[k].status
  }

  /** A listed campaign with the SDR's application status for it. */
  datatype CampaignRow = CampaignRow(campaign: Campaign, applicationStatus: string)

  function IsActive(): Campaign -> bool
  {
    (c: Campaign) => c.status == Active
  }

  function OwnedBy(sdrId: string): Application -> bool
  {
    (a: Application) => a.sdrId == sdrId
  }

  /** loadCampaigns: the active campaigns, each with the status of the
      SDR's application to it. */
  function Listing(t: Tables, sdrId: string): (r: seq<CampaignRow>)
    ensures |r| == |Filter(t.campaigns, IsActive())|
    ensures forall i :: 0 <= i < |r| ==> r[i].campaign.status == Active
    ensures forall i :: 0 <= i < |r| ==>
      r[i].campaign == Filter(t.campaigns, IsActive())[i]
      && r[i].applicationStatus == ApplicationStatus(Filter(t.applications, OwnedBy(sdrId)), r[i].campaign.id)
  {
    var cs := Filter(t.campaigns, IsActive());
    var apps := Filter(t.applications, OwnedBy(sdrId));
    seq(|cs|, i requires 0 <= i < |cs| => CampaignRow(cs[i], ApplicationStatus(apps, cs[i].id)))
  }

  /** applyToCampaign: without a known SDR nothing happens; otherwise one
      pending application is inserted, or nothing when the insert fails. */
  method ApplyToCampaign(db: Database, sdrId: Option<string>, campaignId: string, newId: string, ok: bool)
    modifies db
    ensures db.Snapshot() == (if sdrId.Some? && ok
                              then Apply(old(db.Snapshot()), InsertApplication(Application(newId, campaignId, sdrId.value, "pending")))
                              else old(db.Snapshot()))
  {
    if sdrId.None? {
      return;
    }
    if ok {
      db.Perform(InsertApplication(Application(newId, campaignId, sdrId.value, "pending")));
    }
  }

  // ---------------------------------------------------------------------
  // Approval rate
  // ---------------------------------------------------------------------

  /** The company counters the listing joins in. */
  datatype CompanyStats = CompanyStats(totalMeetings: nat, qualifiedMeetings: nat)

  /** getApprovalRate: null without a company or without meetings, else
      `Math.round(qualified / total * 100)`, computed on exact values. */
  function ApprovalRate(company: Option<CompanyStats>): (r: Option<int>)
    ensures r.None? <==> company.None? || company.value.totalMeetings == 0
  {
    if company.None? || company.value.totalMeetings == 0 then None
    else
      var c := company.value;
      Some(Qualification.MathRound(c.qualifiedMeetings as real / c.totalMeetings as real * 100.0))
  }

  /** The colour of a rate: green from 70, yellow from 50, red below. */
  function RateTier(rate: int): (t: Tier)
    ensures t == Green <==> rate >= 70
    ensures t == Yellow <==> 50 <= rate < 70
    ensures t == Red <==> rate < 50
  {
    TierAt(rate, 70, 50)
  }

  // ---------------------------------------------------------------------
  // Criteria preview
  // ---------------------------------------------------------------------

  /** The preview: the first three criteria, and the "+n fler..." count. */
  datatype CriteriaPreview = CriteriaPreview(shown: seq<Json>, more: Option<nat>)

  /** `.slice(0, 3)` and the `length > 3` line; None when the parsed criteria
      are not an array and the list cannot be drawn. */
  function Preview(criteria: Json): (r: Option<CriteriaPreview>)
    ensures r.Some? <==> criteria.JArr?
    ensures r.Some? ==> r.value.shown == criteria.items[..Min(3, |criteria.items|)]
    ensures r.Some? ==> (r.value.more.Some? <==> |criteria.items| > 3)
  {
    if !criteria.JArr? then None
    else
      var n := |criteria.items|;
      Some(CriteriaPreview(criteria.items[..Min(3, n)], if n > 3 then Some(n - 3) else None))
  }

  // ---------------------------------------------------------------------
  // Properties
  // ---------------------------------------------------------------------

  /** A campaign the SDR has not applied to reads 'none', and one with
      applications reads the first one's status. */
  lemma StatusIsFirstApplication(apps: seq<Application>, campaignId: string)
    ensures (forall j :: 0 <= j < |apps| ==> apps[j].campaignId != campaignId) ==>
      ApplicationStatus(apps, campaignId) == "none"
    ensures forall k :: 0 <= k < |apps| && apps[k].campaignId == campaignId
                        && (forall j :: 0 <= j < k ==> apps[j].campaignId != campaignId) ==>
      ApplicationStatus(apps, campaignId) == apps[k].status
  {
  }

  /** Applying to a campaign without an earlier application makes the next
      listing read 'pending' for it; an earlier application keeps its status. */
  lemma AppliedCampaignReadsPending(t: Tables, sdrId: string, campaignId: string, newId: string)
    ensures var after := Apply(t, InsertApplication(Application(newId, campaignId, sdrId, "pending")));
      var before := Filter(t.applications, OwnedBy(sdrId));
      ApplicationStatus(Filter(after.applications, OwnedBy(sdrId)), campaignId)
        == if FirstApplication(before, campaignId) == -1 then "pending" else ApplicationStatus(before, campaignId)
  {
    var a := Application(newId, campaignId, sdrId, "pending");
    FilterAppend(t.applications, [a], OwnedBy(sdrId));
    var before := Filter(t.applications, OwnedBy(sdrId));
    assert Filter([a], OwnedBy(sdrId)) == [a];
    FirstOfAppend(before, a, campaignId);
  }

  lemma {:induction false} FirstOfAppend(apps: seq<Application>, a: Application, campaignId: string)
    requires a.campaignId == campaignId
    ensures FirstApplication(apps + [a], campaignId)
      == if FirstApplication(apps, campaignId) == -1 then |apps| else FirstApplication(apps, campaignId)
  {
    if apps != [] {
      assert (apps + [a])[1..] == apps[1..] + [a];
      FirstOfAppend(apps[1..], a, campaignId);
    }
  }

  /** A campaign is listed exactly when it is active. */
  lemma ListedIffActive(t: Tables, sdrId: string, c: Campaign)
    ensures (exists i :: 0 <= i < |Listing(t, sdrId)| && Listing(t, sdrId)[i].campaign == c)
            <==> c in t.campaigns && c.status == Active
  {
    var cs := Filter(t.campaigns, IsActive());
    if c in t.campaigns && c.status == Active {
      FilterKeeps(t.campaigns, IsActive(), c);
      var k :| 0 <= k < |cs| && cs[k] == c;
      assert Listing(t, sdrId)[k].campaign == c;
    }
  }

  /** The applications of other SDRs never change the listing. */
  lemma OtherSdrsDoNotMatter(t: Tables, sdrId: string, other: Application)
    requires other.sdrId != sdrId
    ensures Listing(t.(applications := t.applications + [other]), sdrId) == Listing(t, sdrId)
  {
    var t2 := t.(applications := t.applications + [other]);
    FilterAppend(t.applications, [other], OwnedBy(sdrId));
    assert Filter([other], OwnedBy(sdrId)) == [];
    assert Filter(t2.applications, OwnedBy(sdrId)) == Filter(t.applications, OwnedBy(sdrId));
    var a := Listing(t2, sdrId);
    var b := Listing(t, sdrId);
    assert |a| == |b|;
    forall i | 0 <= i < |a|
      ensures a[i] == b[i]
    {
    }
  }

  /** The rate of a company whose meetings are all qualified is 100 and
      green; with none qualified it is 0 and red. */
  lemma RateExtremes(total: nat)
    requires total > 0
    ensures ApprovalRate(Some(CompanyStats(total, total))) == Some(100)
    ensures RateTier(100) == Green
    ensures ApprovalRate(Some(CompanyStats(total, 0))) == Some(0)
    ensures RateTier(0) == Red
  {
    var t := total as real;
    assert t / t * 100.0 == 100.0;
    assert 0.0 / t * 100.0 == 0.0;
  }

  /** With no more qualified than total meetings, the rate is in 0..100. */
  lemma RateInRange(c: CompanyStats)
    requires 0 < c.totalMeetings && c.qualifiedMeetings <= c.totalMeetings
    ensures 0 <= ApprovalRate(Some(c)).value <= 100
  {
    var n := c.totalMeetings as real;
    var m := c.qualifiedMeetings as real / n;
    assert m * n == c.qualifiedMeetings as real;
    Qualification.ScaleLe(m, 1.0, n);
    Qualification.ScaleLe(0.0, m, n);
    assert 0.0 <= m * 100.0 <= 100.0;
  }

  /** The preview shows min(3, n) criteria and counts the rest, so together
      they account for every criterion. */
  lemma PreviewAccountsForAll(items: seq<Json>)
    ensures var p := Preview(JArr(items)).value;
      |p.shown| + (if p.more.Some? then p.more.value else 0) == |items|
  {
  }
}

=== FILE: store.dfy ===
// The rows of the Supabase tables the core reads and writes, the storage
// bucket of recordings, and the writes the route handlers perform on them.
// A handler's effect is described as a list of `Write`s; `Database` is the
// mutable store that performs them one at a time.

module Store {
  import opened Common

  datatype CampaignStatus = Draft | Active | Paused | Completed

  datatype MeetingStatus = Pending | Qualified | NotQualified | Disputed

  /** A row of dialer_integrations. */
  datatype Integration = Integration(
    id: string,
    sdrId: string,
    provider: string,
    accountId: string,
    phoneNumber: Option<string>,
    webhookSecret: Option<string>,
    accessToken: Option<string>,
    metadata: map<string, Json>,
    isActive: bool,
    lastSyncAt: Option<int>,
    createdAt: int)

  /** A row of campaign_applications. */
  datatype Application = Application(id: string, campaignId: string, sdrId: string, status: string)

  /** The columns of campaigns the core reads or writes. */
  datatype Campaign = Campaign(id: string, companyId: string, status: CampaignStatus)

  /** A row of leads: its id and its non-null columns by name. */
  datatype Lead = Lead(id: string, cols: map<string, string>)

  /** A row of call_recordings. */
  datatype Recording = Recording(
    id: string,
    meetingId: Option<string>,
    sdrId: string,
    campaignId: string,
    storagePath: Option<string>,
    fileName: string,
    fileSize: Option<int>,
    mimeType: Option<string>,
    durationSeconds: Option<int>,
    transcription: Option<string>,
    transcriptionStatus: string,
    dialerCallId: Option<string>,
    dialerIntegrationId: Option<string>,
    autoDeletedAt: Option<int>)

  /** A row of outreach_attempts. */
  datatype Outreach = Outreach(
    id: string,
    leadId: string,
    sdrId: string,
    campaignId: string,
    attemptType: string,
    status: string,
    durationSeconds: Option<int>,
    callRecordingId: string,
    dialerCallId: string,
    dialerIntegrationId: string,
    notes: string)

  /** The columns of meetings the core reads or writes. */
  datatype Meeting = Meeting(
    id: string,
    campaignId: string,
    sdrId: string,
    status: MeetingStatus,
    rejectionReason: Option<string>,
    checklist: Option<seq<bool>>,
    createdAt: int)

  /** A row of disputes. */
  datatype Dispute = Dispute(
    id: string,
    meetingId: string,
    raisedBy: string,
    disputeType: string,
    reason: string,
    status: string)

  /** The columns sent by an upsert of dialer_integrations. The phone number
      is always sent (None is an explicit null); a None webhook secret is an
      undefined property, which leaves the column out of the request. */
  datatype IntegrationPatch = IntegrationPatch(
    sdrId: string,
    provider: string,
    accountId: string,
    phoneNumber: Option<string>,
    webhookSecret: Option<string>,
    metadata: map<string, Json>,
    lastSyncAt: int)

  datatype Tables = Tables(
    integrations: seq<Integration>,
    applications: seq<Application>,
    campaigns: seq<Campaign>,
    leads: seq<Lead>,
    recordings: seq<Recording>,
    outreach: seq<Outreach>,
    meetings: seq<Meeting>,
    disputes: seq<Dispute>,
    storage: set<string>)

  datatype Write =
    | PutObject(path: string)
    | RemoveObjects(paths: seq<string>)
    | InsertLeads(leads: seq<Lead>)
    | InsertRecording(recording: Recording)
    | InsertOutreach(attempt: Outreach)
    | TouchIntegration(integrationId: string, at: int)
    | UpsertIntegration(patch: IntegrationPatch, newId: string)
    | DeactivateIntegration(deactivateId: string, ownerId: string)
    | InsertDispute(dispute: Dispute)
    | UpdateMeeting(meetingId: string, newStatus: MeetingStatus, reason: Option<string>)
    | RedactRecordings(ids: set<string>)
    | InsertApplication(application: Application)
    | SetCampaignStatus(campaignId: string, campaignStatus: CampaignStatus)

  /** The file name a redacted recording keeps. */
  const Tombstone := "[DELETED - GDPR Compliance]"

  function Redact(r: Recording): Recording
  {
    r.(storagePath := None, fileName := Tombstone, transcription := None)
  }

  function RedactWhere(rows: seq<Recording>, ids: set<string>): (r: seq<Recording>)
    ensures |r| == |rows|
  {
    seq(|rows|, i requires 0 <= i < |rows| => if rows[i].id in ids then Redact(rows[i]) else rows[i])
  }

  function TouchWhere(rows: seq<Integration>, id: string, at: int): (r: seq<Integration>)
    ensures |r| == |rows|
  {
    seq(|rows|, i requires 0 <= i < |rows| =>
      if rows[i].id == id then rows[i].(lastSyncAt := Some(at)) else rows[i])
  }

  function DeactivateWhere(rows: seq<Integration>, id: string, sdrId: string): (r: seq<Integration>)
    ensures |r| == |rows|
  {
    seq(|rows|, i requires 0 <= i < |rows| =>
      if rows[i].id == id && rows[i].sdrId == sdrId then rows[i].(isActive := false) else rows[i])
  }

  /** The conflict target of the upsert: (sdr_id, dialer_provider, provider_account_id). */
  predicate SameKey(row: Integration, p: IntegrationPatch)
  {
    row.sdrId == p.sdrId && row.provider == p.provider && row.accountId == p.accountId
  }

  /** An existing row after an upsert that hit it: the sent columns overwrite, the others stay. */
  function Merge(row: Integration, p: IntegrationPatch): (r: Integration)
    ensures r.id == row.id && r.sdrId == row.sdrId && r.provider == row.provider && r.accountId == row.accountId
    ensures r.isActive && r.lastSyncAt == Some(p.lastSyncAt) && r.metadata == p.metadata
    ensures r.webhookSecret == (if p.webhookSecret.Some? then p.webhookSecret else row.webhookSecret)
  {
    row.(
      phoneNumber := p.phoneNumber,
      webhookSecret := if p.webhookSecret.Some? then p.webhookSecret else row.webhookSecret,
      metadata := p.metadata,
      isActive := true,
      lastSyncAt := Some(p.lastSyncAt))
  }

  /** The row an upsert creates when nothing has its key. */
  function Fresh(p: IntegrationPatch, id: string): (r: Integration)
    ensures r.id == id && SameKey(r, p) && r.isActive && r.lastSyncAt == Some(p.lastSyncAt)
  {
    Integration(id, p.sdrId, p.provider, p.accountId, p.phoneNumber, p.webhookSecret, None,
                p.metadata, true, Some(p.lastSyncAt), p.lastSyncAt)
  }

  function UpsertRows(rows: seq<Integration>, p: IntegrationPatch, newId: string): (r: seq<Integration>)
  {
    if exists i :: 0 <= i < |rows| && SameKey(rows[i], p) then
      seq(|rows|, i requires 0 <= i < |rows| => if SameKey(rows[i], p) then Merge(rows[i], p) else rows[i])
    else
      rows + [Fresh(p, newId)]
  }

  function UpdateMeetingWhere(rows: seq<Meeting>, id: string, status: MeetingStatus,
                              reason: Option<string>): (r: seq<Meeting>)
    ensures |r| == |rows|
  {
    seq(|rows|, i requires 0 <= i < |rows| =>
      if rows[i].id == id then
        rows[i].(status := status, rejectionReason := if reason.Some? then reason else rows[i].rejectionReason)
      else rows[i])
  }

  function SetCampaignStatusWhere(rows: seq<Campaign>, id: string, status: CampaignStatus): (r: seq<Campaign>)
    ensures |r| == |rows|
  {
    seq(|rows|, i requires 0 <= i < |rows| => if rows[i].id == id then rows[i].(status := status) else rows[i])
  }

  function Apply(t: Tables, w: Write): Tables
  {
    match w
    case PutObject(p) => t.(storage := t.storage + {p})
    case RemoveObjects(ps) => t.(storage := t.storage - set p | p in ps)
    case InsertLeads(ls) => t.(leads := t.leads + ls)
    case InsertRecording(r) => t.(recordings := t.recordings + [r])
    case InsertOutreach(o) => t.(outreach := t.outreach + [o])
    case TouchIntegration(id, at) => t.(integrations := TouchWhere(t.integrations, id, at))
    case UpsertIntegration(p, newId) => t.(integrations := UpsertRows(t.integrations, p, newId))
    case DeactivateIntegration(id, sdrId) => t.(integrations := DeactivateWhere(t.integrations, id, sdrId))
    case InsertDispute(d) => t.(disputes := t.disputes + [d])
    case UpdateMeeting(id, s, reason) => t.(meetings := UpdateMeetingWhere(t.meetings, id, s, reason))
    case RedactRecordings(ids) => t.(recordings := RedactWhere(t.recordings, ids))
    case InsertApplication(a) => t.(applications := t.applications + [a])
    case SetCampaignStatus(id, s) => t.(campaigns := SetCampaignStatusWhere(t.campaigns, id, s))
  }

  function ApplyAll(t: Tables, ws: seq<Write>): Tables
    decreases |ws|
  {
    if ws == [] then t else ApplyAll(Apply(t, ws[0]), ws[1..])
  }

  lemma {:induction false} ApplyAllSnoc(t: Tables, ws: seq<Write>, w: Write)
    ensures ApplyAll(t, ws + [w]) == Apply(ApplyAll(t, ws), w)
    decreases |ws|
  {
    if ws != [] {
      assert (ws + [w])[1..] == ws[1..] + [w];
      ApplyAllSnoc(Apply(t, ws[0]), ws[1..], w);
    }
  }

  lemma ApplyAllOne(t: Tables, a: Write)
    ensures ApplyAll(t, [a]) == Apply(t, a)
  {
    assert [a][1..] == [];
  }

  lemma ApplyAllPair(t: Tables, a: Write, b: Write)
    ensures ApplyAll(t, [a, b]) == Apply(Apply(t, a), b)
  {
    assert [a, b][1..] == [b];
    assert [b][1..] == [];
    assert ApplyAll(Apply(t, a), [b]) == ApplyAll(Apply(Apply(t, a), b), []);
  }

  predicate UniqueIds(rows: seq<Recording>)
  {
    forall i, j :: 0 <= i < j < |rows| ==> rows[i].id != rows[j].id
  }

  /** The database and the storage bucket, changed in place by the handlers. */
  class Database {
    var integrations: seq<Integration>
    var applications: seq<Application>
    var campaigns: seq<Campaign>
    var leads: seq<Lead>
    var recordings: seq<Recording>
    var outreach: seq<Outreach>
    var meetings: seq<Meeting>
    var disputes: seq<Dispute>
    var storage: set<string>

    function Snapshot(): Tables
      reads this
    {
      Tables(integrations, applications, campaigns, leads, recordings, outreach, meetings, disputes, storage)
    }

    constructor (t: Tables)
      ensures Snapshot() == t
    {
      integrations := t.integrations;
      applications := t.applications;
      campaigns := t.campaigns;
      leads := t.leads;
      recordings := t.recordings;
      outreach := t.outreach;
      meetings := t.meetings;
      disputes := t.disputes;
      storage := t.storage;
    }

    /** Perform w and extend the log of writes made since `start`. */
    method Run(w: Write, ghost start: Tables, ghost done: seq<Write>) returns (ghost after: seq<Write>)
      requires Snapshot() == ApplyAll(start, done)
      modifies this
      ensures after == done + [w]
      ensures Snapshot() == ApplyAll(start, after)
    {
      Perform(w);
      ApplyAllSnoc(start, done, w);
      after := done + [w];
    }

    /** One request to the database or the bucket that succeeded. */
    method Perform(w: Write)
      modifies this
      ensures Snapshot() == Apply(old(Snapshot()), w)
    {
      if w.TouchIntegration? || w.UpsertIntegration? || w.DeactivateIntegration?
         || w.UpdateMeeting? || w.RedactRecordings? || w.SetCampaignStatus? {
        Update(w);
      } else {
        Store(w);
      }
    }

    /** A bucket request or an insert. */
    method Store(w: Write)
      requires !(w.TouchIntegration? || w.UpsertIntegration? || w.DeactivateIntegration?
                 || w.UpdateMeeting? || w.RedactRecordings? || w.SetCampaignStatus?)
      modifies this
      ensures Snapshot() == Apply(old(Snapshot()), w)
    {
      match w
      case PutObject(p) => storage := storage + {p};
      case RemoveObjects(ps) => storage := storage - set p | p in ps;
      case InsertLeads(ls) => leads := leads + ls;
      case InsertRecording(r) => recordings := recordings + [r];
      case InsertOutreach(o) => outreach := outreach + [o];
      case InsertDispute(d) => disputes := disputes + [d];
      case InsertApplication(a) => applications := applications + [a];
    }

    /** An update of the rows that match. */
    method Update(w: Write)
      requires w.TouchIntegration? || w.UpsertIntegration? || w.DeactivateIntegration?
               || w.UpdateMeeting? || w.RedactRecordings? || w.SetCampaignStatus?
      modifies this
      ensures Snapshot() == Apply(old(Snapshot()), w)
    {
      match w
      case TouchIntegration(id, at) => integrations := TouchWhere(integrations, id, at);
      case UpsertIntegration(p, newId) => integrations := UpsertRows(integrations, p, newId);
      case DeactivateIntegration(id, sdrId) => integrations := DeactivateWhere(integrations, id, sdrId);
      case UpdateMeeting(id, s, reason) => meetings := UpdateMeetingWhere(meetings, id, s, reason);
      case RedactRecordings(ids) => recordings := RedactWhere(recordings, ids);
      case SetCampaignStatus(id, s) => campaigns := SetCampaignStatusWhere(campaigns, id, s);
    }
  }
}

=== FILE: validations.dfy ===
// The zod schemas of lib/validations.ts as predicates over a parsed JSON
// object. A key that is absent reads as `undefined`; `.optional()` accepts
// exactly that (a JSON null is not undefined and fails). Unknown keys are
// stripped by z.object and never make an object invalid.

module Validations {
  import opened Common

  type Fields = map<string, Json>

  /** zod's email, url and datetime string checks, which are regular
      expressions outside this model. */
  datatype Formats = Formats(isEmail: string -> bool, isUrl: string -> bool, isDatetime: string -> bool)

  predicate IsHex(c: char)
  {
    ('0' <= c <= '9') || ('a' <= c <= 'f') || ('A' <= c <= 'F')
  }

  /** zod's uuid check: 8-4-4-4-12 hexadecimal digits separated by hyphens. */
  predicate IsUuid(s: string)
  {
    |s| == 36
    && forall i :: 0 <= i < 36 ==>
         if i == 8 || i == 13 || i == 18 || i == 23 then s[i] == '-' else IsHex(s[i])
  }

  // ---------------------------------------------------------------------
  // Field rules
  // ---------------------------------------------------------------------

  /** z.string().min(n): a string of at least n UTF-16 code units. */
  predicate StringMin(o: Fields, key: string, n: nat)
  {
    key in o && o[key].JStr? && Utf16Length(o[key].s) >= n
  }

  /** z.string().optional() */
  predicate OptionalString(o: Fields, key: string)
  {
    key !in o || o[key].JStr?
  }

  /** z.string().min(n).optional() */
  predicate OptionalStringMin(o: Fields, key: string, n: nat)
  {
    key !in o || StringMin(o, key, n)
  }

  /** z.string().uuid() */
  predicate UuidField(o: Fields, key: string)
  {
    key in o && o[key].JStr? && IsUuid(o[key].s)
  }

  /** z.string().uuid().optional() */
  predicate OptionalUuid(o: Fields, key: string)
  {
    key !in o || UuidField(o, key)
  }

  /** z.enum(values) */
  predicate OneOf(o: Fields, key: string, values: seq<string>)
  {
    key in o && o[key].JStr? && o[key].s in values
  }

  /** z.number().min(lo).max(hi) */
  predicate NumberIn(o: Fields, key: string, lo: int, hi: int)
  {
    key in o && o[key].JNum? && lo <= o[key].n <= hi
  }

  /** z.number().positive().optional() */
  predicate OptionalPositive(o: Fields, key: string)
  {
    key !in o || (o[key].JNum? && o[key].n > 0)
  }

  /** z.string().<format>().optional().or(z.literal('')) */
  predicate OptionalFormatOrEmpty(o: Fields, key: string, format: string -> bool)
  {
    key !in o || (o[key].JStr? && (format(o[key].s) || o[key].s == ""))
  }

  predicate AllStrings(items: seq<Json>)
  {
    forall i :: 0 <= i < |items| ==> items[i].JStr?
  }

  predicate AllBools(items: seq<Json>)
  {
    forall i :: 0 <= i < |items| ==> items[i].JBool?
  }

  // ---------------------------------------------------------------------
  // Schemas
  // ---------------------------------------------------------------------

  const CampaignStatuses: seq<string> := ["draft", "active", "paused", "completed"]
  const DisputeTypes: seq<string> := ["qualification", "quality", "payment", "other"]
  const LeadStatuses: seq<string> := ["new", "contacted", "qualified", "not_qualified", "converted", "suppressed"]
  const ReviewDecisions: seq<string> := ["approve", "reject", "needs_revision"]
  const AttemptTypes: seq<string> := ["call", "email", "linkedin", "other"]
  const AttemptStatuses: seq<string> := ["attempted", "connected", "voicemail", "no_answer", "busy", "failed"]

  predicate ProfileValid(o: Fields)
  {
    OptionalStringMin(o, "full_name", 1) && OptionalString(o, "phone") && OptionalString(o, "company_name")
  }

  predicate CampaignValid(o: Fields)
  {
    StringMin(o, "title", 1)
    && StringMin(o, "icp_description", 10)
    && "meeting_criteria" in o && o["meeting_criteria"].JArr?
    && AllStrings(o["meeting_criteria"].items) && |o["meeting_criteria"].items| >= 2
    && OptionalString(o, "script")
    && NumberIn(o, "commission_per_meeting", 100, 1000)
    && OneOf(o, "status", CampaignStatuses)
  }

  predicate MeetingValid(o: Fields, f: Formats)
  {
    UuidField(o, "campaign_id")
    && StringMin(o, "contact_name", 1)
    && OptionalFormatOrEmpty(o, "contact_email", f.isEmail)
    && OptionalString(o, "contact_phone")
    && "meeting_date" in o && o["meeting_date"].JStr? && f.isDatetime(o["meeting_date"].s)
    && OptionalString(o, "notes")
    && ("qualification_checklist" !in o
        || (o["qualification_checklist"].JArr? && AllBools(o["qualification_checklist"].items)))
  }

  predicate DisputeValid(o: Fields)
  {
    UuidField(o, "meeting_id") && OneOf(o, "dispute_type", DisputeTypes) && StringMin(o, "reason", 10)
  }

  predicate LeadValid(o: Fields, f: Formats)
  {
    UuidField(o, "campaign_id")
    && OptionalString(o, "first_name") && OptionalString(o, "last_name")
    && OptionalFormatOrEmpty(o, "email", f.isEmail)
    && OptionalString(o, "phone") && OptionalString(o, "title") && OptionalString(o, "company_name")
    && OptionalFormatOrEmpty(o, "linkedin_url", f.isUrl)
    && OneOf(o, "status", LeadStatuses)
  }

  predicate CallRecordingValid(o: Fields)
  {
    OptionalUuid(o, "meeting_id") && UuidField(o, "sdr_id") && UuidField(o, "campaign_id")
    && StringMin(o, "file_name", 1)
    && OptionalPositive(o, "file_size")
    && OptionalString(o, "mime_type")
    && OptionalPositive(o, "duration_seconds")
  }

  predicate AdminReviewValid(o: Fields)
  {
    UuidField(o, "meeting_id") && OptionalUuid(o, "call_recording_id")
    && OneOf(o, "review_decision", ReviewDecisions)
    && OptionalString(o, "review_notes")
    && ("qualification_score" !in o || NumberIn(o, "qualification_score", 0, 100))
    && ("quality_score" !in o || NumberIn(o, "quality_score", 0, 100))
  }

  predicate ApplicationValid(o: Fields)
  {
    UuidField(o, "campaign_id") && UuidField(o, "sdr_id")
  }

  predicate OutreachAttemptValid(o: Fields)
  {
    UuidField(o, "lead_id") && UuidField(o, "sdr_id") && UuidField(o, "campaign_id")
    && OneOf(o, "attempt_type", AttemptTypes)
    && OneOf(o, "attempt_status", AttemptStatuses)
    && OptionalString(o, "notes")
    && OptionalPositive(o, "duration_seconds")
  }

  /** schema.parse on a request body: anything but an object fails. */
  predicate Parses(body: Json, schema: Fields -> bool)
  {
    body.JObj? && schema(body.fields)
  }

  // ---------------------------------------------------------------------
  // Properties
  // ---------------------------------------------------------------------

  /** A valid campaign has at least two criteria, all of them strings. Only
      their number matters: any list of strings, blank ones included, may take
      their place exactly when it holds at least two. */
  lemma CampaignCriteriaShape(o: Fields, cs: seq<string>)
    requires CampaignValid(o)
    ensures var items := o["meeting_criteria"].items;
      |items| >= 2 && forall i :: 0 <= i < |items| ==> items[i].JStr?
    ensures var items := seq(|cs|, i requires 0 <= i < |cs| => JStr(cs[i]));
      CampaignValid(o["meeting_criteria" := JArr(items)]) <==> |cs| >= 2
  {
    var items := seq(|cs|, i requires 0 <= i < |cs| => JStr(cs[i]));
    var o' := o["meeting_criteria" := JArr(items)];
    assert AllStrings(items);
    assert forall k :: k != "meeting_criteria" ==> (k in o' <==> k in o);
    assert forall k :: k != "meeting_criteria" && k in o ==> o'[k] == o[k];
  }

  /** Two blank criteria pass z.array(z.string()).min(2): nothing checks their content. */
  lemma BlankCriteriaAccepted(o: Fields)
    requires CampaignValid(o)
    ensures CampaignValid(o["meeting_criteria" := JArr([JStr(""), JStr("")])])
  {
    CampaignCriteriaShape(o, ["", ""]);
    assert seq(2, i requires 0 <= i < 2 => JStr(["", ""][i])) == [JStr(""), JStr("")];
  }

  /** The checklist's entries never decide a meeting's validity: any two
      boolean lists of any lengths give the same verdict. */
  lemma ChecklistContentIrrelevant(o: Fields, f: Formats, a: seq<bool>, b: seq<bool>)
    ensures var ja := seq(|a|, i requires 0 <= i < |a| => JBool(a[i]));
      var jb := seq(|b|, i requires 0 <= i < |b| => JBool(b[i]));
      (MeetingValid(o["qualification_checklist" := JArr(ja)], f)
       <==> MeetingValid(o["qualification_checklist" := JArr(jb)], f))
  {
    var ja := seq(|a|, i requires 0 <= i < |a| => JBool(a[i]));
    var jb := seq(|b|, i requires 0 <= i < |b| => JBool(b[i]));
    var oa := o["qualification_checklist" := JArr(ja)];
    var ob := o["qualification_checklist" := JArr(jb)];
    assert AllBools(ja) && AllBools(jb);
    assert forall k :: k != "qualification_checklist" ==> (k in oa <==> k in ob);
    assert forall k :: k != "qualification_checklist" && k in oa ==> oa[k] == ob[k];
  }

  /** Only the three checked keys matter to a dispute: adding any other key changes nothing. */
  lemma DisputeIgnoresOtherKeys(o: Fields, key: string, v: Json)
    requires key != "meeting_id" && key != "dispute_type" && key != "reason"
    ensures DisputeValid(o[key := v]) <==> DisputeValid(o)
  {
  }

  /** The reason needs ten UTF-16 code units: nine are refused, ten accepted. */
  lemma DisputeReasonBoundary(o: Fields, reason: string)
    requires UuidField(o, "meeting_id") && OneOf(o, "dispute_type", DisputeTypes)
    requires forall i :: 0 <= i < |reason| ==> reason[i] as int < 0x10000
    ensures DisputeValid(o["reason" := JStr(reason)]) <==> |reason| >= 10
  {
    Utf16LengthOfBmp(reason);
    assert o["reason" := JStr(reason)]["meeting_id"] == o["meeting_id"];
    assert o["reason" := JStr(reason)]["dispute_type"] == o["dispute_type"];
  }

  /** A string of BMP characters is as long in UTF-16 as it has characters. */
  lemma {:induction false} Utf16LengthOfBmp(s: string)
    requires forall i :: 0 <= i < |s| ==> s[i] as int < 0x10000
    ensures Utf16Length(s) == |s|
  {
    if s != [] {
      Utf16LengthOfBmp(s[1..]);
    }
  }

  /** An email field may be absent, empty or a valid address, and nothing else. */
  lemma EmptyEmailAccepted(o: Fields, f: Formats)
    ensures OptionalFormatOrEmpty(o["contact_email" := JStr("")], "contact_email", f.isEmail)
    ensures OptionalFormatOrEmpty(o["contact_email" := JNull], "contact_email", f.isEmail) == false
  {
  }

  /** Sizes and durations, when present, are strictly positive: zero is refused. */
  lemma ZeroDurationRefused(o: Fields)
    ensures !CallRecordingValid(o["duration_seconds" := JNum(0)])
    ensures !OutreachAttemptValid(o["duration_seconds" := JNum(0)])
  {
  }

  /** A uuid is 36 characters with hyphens at 8, 13, 18 and 23 and hex digits elsewhere. */
  lemma UuidExample()
    ensures IsUuid("123e4567-e89b-12d3-a456-426614174000")
    ensures !IsUuid("123e4567e89b12d3a456426614174000")
  {
    var s := "123e4567-e89b-12d3-a456-426614174000";
    assert forall i :: 0 <= i < 36 ==>
      if i == 8 || i == 13 || i == 18 || i == 23 then s[i] == '-' else IsHex(s[i]);
  }
}
